=== FILE: README.md ===
# skills-management in Dafny

A model of the core of *skills-management*, a command-line manager for
"skills": folders holding a `SKILL.md` manifest that AI coding tools
(Claude, Cursor, GitHub Copilot, Antigravity, OpenCode) load from a
project directory. The manager keeps one global store of skills under
`~/.skills-management/repo`, records each skill in `repo/versions.json`,
adds skills from GitHub (full or sparse clone) or from a local folder,
checks and pulls updates, and links chosen skills into the current
project's tool directory as symlinks.

The model covers six parts of the program:

| module | file | models |
|---|---|---|
| `Config` | config.dfy | the id ↔ directory-name codec (`getSafeName`, `parseSafeName`, `getRepoPath`) |
| `Skills` | skills.dfy | the registry kept in `versions.json` (`SkillRegistry`) |
| `Git` | git.dfy | the pure logic of `GitManager`: URL normalisation, the version gate, parsing of `ls-remote` output, path-scoped commit resolution, the manifest probe |
| `Detector` | detector.dfy | `ProjectDetector`: which tool's skill directory a project uses |
| `Links` | links.dfy | linking and unlinking skills into a project, broken-link and foreign-skill discovery, the reconcile loop of `manageProjectSkills` |
| `Repo` | repo.dfy | the decisions of the repo commands: update checking, updating, adding from GitHub or from a local folder, deleting |

Supporting modules: `Wrappers` (wrappers.dfy, `Option`), `Strings`
(strings.dfy, the JavaScript string operations the program uses:
`split`, `join`, `replace`, `trim`, `indexOf`, `startsWith`, …) and
`Paths` (paths.dfy, the part of Node's POSIX `path.join`, `dirname` and
`basename` the program relies on).

Git is an oracle `Git.Oracle = GitCmd -> Option<string>`: each git
command the program runs is a `GitCmd` value, and the oracle answers with
its standard output, or `None` when the command exits non-zero (the
program's `execa` call throws). File-system facts are parameters too:
existence as a predicate `string -> bool`, the result of a copy, a
removal or a symlink creation as a `bool`. Prompt answers (the URL typed,
"overwrite?", "delete?", the checkbox selection) are parameters. The
registry file is `Option<Registry>`, `None` while it does not exist; the
registry keeps its keys in insertion order, which is the order a
JavaScript object reports its string keys in (array-index keys, which the
program's own ids never are, are the exception listed under "Left out").

## Model

| member | source | states |
|---|---|---|
| Config.GetSafeName | src/core/config.ts:33-45 | without a colon every `/` of the id becomes `__`; with one, the part before the first colon is kept as it is, followed by `__` and the rest with every `/` made `__` (later colons kept) |
| Config.ParseSafeName | src/core/config.ts:47-57 | a name with no `__` comes back unchanged; otherwise the result is the part before the first `__`, a `:`, and the rest split at every `__` and joined with `/` |
| Config.SafeNameSlashes | src/core/config.ts:33-45 | a safe name contains `/` exactly when the id has a colon and the type before it contains `/`: the locator's slashes are always encoded, the type's never are |
| Config.ParseAfterPlainType | src/core/config.ts:47-57 | decoding `t__enc` with an underscore-free type `t` gives `t:` followed by the pieces of `enc` between `__` pairs joined with `/` |
| Config.ParseSafeNameRoundTrip | src/core/config.ts:33-57 | decoding the safe name of an id that has a colon and no underscore gives the id back |
| Config.ParseSafeNameOfColonFreeId | src/core/config.ts:33-57 | for a colon-free, underscore-free id with a `/`, decoding its safe name turns the first `/` into `:`, so the round trip fails |
| Config.ColonFreeExample | tests/core/config.test.ts:34-46 | `a/b` encodes to `a__b`, which decodes to `a:b` |
| Config.ColonAfterType | src/core/config.ts:34-40 | in `t:rest` with a colon-free `t`, the first colon sits right after `t`, so `t` is the type and `rest` the locator |
| Config.SafeNameNotInjective | src/core/config.ts:42-44 | two different ids `t:rest` and `t:rest'`, where `rest'` is `rest` with its slashes written as `__`, get the same safe name |
| Config.NotInjectiveExample | src/core/config.ts:42-44 | `t:a/b` and `t:a__b` both become `t__a__b` |
| Config.GetRepoPath | src/core/config.ts:59-61 | the last segment of a skill's storage path is its safe name, whenever that name is non-empty and the type before the id's first colon holds no `/` |
| Skills.GetSkill | src/core/skills.ts:49-54 | a record is found exactly when its id is a key of the file, and comes back with that id attached; nothing is found in a missing file |
| Skills.Put | src/core/skills.ts:37-41 | storing under a key replaces its value only; a new key is appended to the key order, an existing key keeps its place |
| Skills.Without | src/core/skills.ts:43-47 | dropping a key from the key order keeps exactly the other keys, without repeats when there were none, and changes nothing when the key is absent (the order itself: `WithoutRemovesOne`) |
| Skills.WithoutRemovesOne | src/core/skills.ts:43-47 | deleting a key held once removes exactly its position: the keys before it and after it keep their order |
| Skills.AddSkill | src/core/skills.ts:37-41 | afterwards the id reads back with exactly the given commit, type and path, and every other id reads as before; the file exists afterwards |
| Skills.RemoveSkill | src/core/skills.ts:43-47 | afterwards the id is absent and every other id reads as before; removing an absent id leaves the contents as they were (the file is still written) |
| Skills.UpdateSkillVersion | src/core/skills.ts:56-62 | an existing record gets the new commit and keeps its type and path; an unknown id leaves the file untouched; other ids are unaffected |
| Skills.GetAllSkills | src/core/skills.ts:64-67 | one record per stored key, each equal to what `getSkill` returns for its id, with no id twice and no stored id missing |
| Skills.AddSkillToMissingFile | tests/core/skills.test.ts:22-37 | adding `id` with commit `commit` and type `type` to a missing file gives a file holding that one key, whose value has the commit, the type and no path, and `getSkill` reads it back with its id |
| Skills.AddSkillIdempotent | src/core/skills.ts:37-41 | adding the same record twice leaves the same file as adding it once |
| Skills.RemoveThenAdd | src/core/skills.ts:37-47 | removing an id and adding it again is indistinguishable, id by id, from adding it directly |
| Git.ParseVersion | src/core/git.ts:14-16 | a version is found exactly when some position of the output starts with `git version <digits>.<digits>` |
| Git.CheckGitVersion | src/core/git.ts:11-27 | git is accepted exactly when `git --version` succeeds, its output carries a version, and that version is at least 2.25 in (major, minor) order |
| Git.ParseVersionOfBanner | src/core/git.ts:14-16 | from an output holding `git version M.m` (no `g` before it, a non-digit after), the numbers read are M and m |
| Git.AcceptanceIsMonotone | src/core/git.ts:18-23 | any version at or above an accepted one is accepted |
| Git.VersionGateAccepts | tests/core/git.test.ts:16-19 | `git version 2.30.0` passes the gate |
| Git.VersionGateRejects | tests/core/git.test.ts:21-24 | `git version 2.20.0` is refused |
| Git.ParseLsRemote | src/core/git.ts:64-71 | a hash is read only when the output starts with a non-empty run of lower-case hex digits followed by a tab, and the hash is that run |
| Git.ParseLsRemoteOfLine | src/core/git.ts:64-71 | the hash of a `<hex>\t<ref>` line is read back exactly |
| Git.GetRemoteHead | src/core/git.ts:64-71 | a remote head is reported only when `ls-remote` succeeds and its output starts with that hash and a tab; a failed `ls-remote` reports none |
| Git.GetDefaultBranch | src/core/git.ts:148-163 | the branch is never empty and holds no tab or newline; a failed `ls-remote --symref` gives `main`; otherwise it is `main` when no position matches `ref: refs/heads/<b>`, and the `<b>` of the leftmost match when one does |
| Git.FirstRefFrom | src/core/git.ts:155-158 | the branch found is the one matched at the leftmost matching position, and none is found only when no position matches |
| Git.DefaultBranchOfSymref | src/core/git.ts:148-163 | when the output holds `ref: refs/heads/<b>` ended by a tab, a newline or the end, the default branch is `<b>` |
| Git.PathCommit | src/core/git.ts:169-199 | a commit comes either from a non-blank, trimmed `git log -1` answer or from the trimmed `rev-parse` of the revision (`HEAD` when none); none is found only when `rev-parse` fails too |
| Git.PathCommitPrefersLog | src/core/git.ts:169-181 | when `git log` answers non-blank, that answer is the commit and the fallback is never consulted |
| Git.PathCommitFallsBack | src/core/git.ts:187-199 | when `git log` fails or answers blank, the commit is the trimmed `rev-parse` answer, or none when that fails |
| Git.LocalPathCommit | src/core/git.ts:169-185 | a non-blank `git log -1` answer for the sub-path gives its trimmed text; otherwise the trimmed `rev-parse HEAD`, or none when that fails (the call throws) |
| Git.RemotePathCommit | src/core/git.ts:187-199 | as `LocalPathCommit`, with the log taken on the remote branch and `rev-parse` of that branch as the fallback |
| Git.DropGitSuffix | src/core/git.ts:34 | exactly one `.git` at the very end is removed, and nothing else changes |
| Git.TakeSegment | src/core/git.ts:38-57 | a leading non-empty, slash-free segment and what follows its first `/`, and nothing when the text has no such segment |
| Git.MatchBranch | src/core/git.ts:38-57 | the branch matched after `/tree/` is one non-empty segment, and the path, when there is one, has lost its trailing slashes |
| Git.MatchTree | src/core/git.ts:38-57 | a matched tree address yields non-empty, slash-free owner, repository and branch, and a path without trailing slashes |
| Git.MatchTreeOfTree | src/core/git.ts:38-47 | the folder address `github.com/o/r/tree/B/P` matches with exactly o, r, B and P |
| Git.MatchTreeOfBranch | src/core/git.ts:50-57 | the branch address `github.com/o/r/tree/B` matches with o, r, B and no path |
| Git.MatchTreeOfRoot | src/core/git.ts:38-61 | a repository's root address matches neither tree pattern |
| Git.Clean | src/core/git.ts:31-35 | the clean-up in the order the code applies it (trailing slashes, then query, then fragment, then one `.git`) leaves no `?` and no `#` |
| Git.NormalizeUrl | src/core/git.ts:29-62 | with that clean-up, the clone URL always ends in `.git` and holds no `?` or `#`; a path comes only with a branch; a branch is one non-empty segment and comes only with a `https://github.com/` URL; a path has no trailing slash |
| Git.NormalizeWith | src/core/git.ts:38-61 | without a matched branch the clone URL is the cleaned address plus `.git`; a path comes only with a branch |
| Git.NormalizeMatched | src/core/git.ts:38-57 | a matched tree address yields a `https://github.com/…​.git` clone URL without `?` or `#` |
| Git.NormalizeUnmatched | src/core/git.ts:59-61 | any other cleaned address yields a clone URL ending in `.git` without `?` or `#` |
| Git.NormalizeTreePath | src/core/git.ts:31-47 | a folder address `…/o/r/tree/B/P`, with any trailing slashes and any query or fragment in any combination, normalises to the repository's clone URL, branch B and path P |
| Git.NormalizeTreeBranch | src/core/git.ts:31-61 | a branch address with trailing slashes alone or a query or fragment alone gives the clone URL and branch B with no path; with one slash kept before a query the cleaned address plus `/.git` is the clone URL, with no branch; with two or more, branch B and an empty path |
| Git.NormalizeRoot | src/core/git.ts:31-61 | a root address, with or without `.git`, with trailing slashes alone or a query or fragment alone, gives the clone URL and no branch; with slashes kept before a query or fragment the cleaned address, slashes included, plus `.git` is the clone URL |
| Git.NormalizeFolderExample | tests/core/git.test.ts:84-91 | as written, `…/anthropics/skills/tree/main/skills/xlsx/?a=2` gives `https://github.com/anthropics/skills.git`, branch `main`, path `skills/xlsx` |
| Git.NormalizeBranchExample | tests/core/git.test.ts:48-54 | as written, `…/blader/humanizer/tree/main` gives the clone URL and branch `main`, no path |
| Git.NormalizeRootExamples | tests/core/git.test.ts:29-37 | as written, `…/user/repo.git`, `…/user/repo///` and `…/user/repo#readme` all give `https://github.com/user/repo.git` |
| Git.AsWrittenKeepsSlashBeforeQuery | src/core/git.ts:31-61 | as the code orders the clean-up, `https://github.com/o/r/?tab=readme` normalises to the clone URL `https://github.com/o/r/.git` |
| Git.SlashBeforeQueryNormalized | src/core/git.ts:31-35 | with the query removed before the trailing slashes (`NormalizeUrlCorrected`), the same address normalises to `https://github.com/o/r.git` |
| Git.CleanQueryFirst | src/core/git.ts:31-35 | the clean-up with the query and fragment removed first leaves no `?` and no `#` |
| Git.NormalizeUrlCorrected | src/core/git.ts:29-62 | `normalizeUrl` with the query-first clean-up: the clone URL ends in `.git` and holds no `?` or `#`; a path comes only with a branch |
| Git.RootNormalizedQueryFirst | src/core/git.ts:31-61 | with the query-first clean-up, every root address, with or without `.git`, trailing slashes, a query or a fragment in any combination, gives the clone URL alone |
| Git.RunAll | src/core/git.ts:77-85 | a sequence of commands succeeds exactly when every command in it does |
| Git.CloneSparse | src/core/git.ts:77-85 | a sparse clone succeeds exactly when the blobless clone, the sparse-checkout init, the sparse set and the checkout of the branch all do |
| Git.ManifestPath | src/core/git.ts:101 | the file probed always ends in `SKILL.md` |
| Git.ProbedPathIsManifest | src/core/git.ts:101-128 | the probed file is `<tmp>/<path>/SKILL.md` with a path and `<tmp>/SKILL.md` without |
| Git.ProbeByClone | src/core/git.ts:119-139 | the clone probe answers yes exactly when its four commands succeed, the manifest exists in the checkout and the scratch directory is removed |
| Git.CheckRemoteSkillMd | src/core/git.ts:99-142 | a branch `ls-remote` answers without a hash ⇒ no; `git archive` delivering the manifest ⇒ yes; otherwise (ls-remote failing, or archive failing after a hash) the clone probe's yes is the answer; a yes always comes from the archive or from the clone probe, and no failure escapes as an error |
| Git.ArchiveDecides | src/core/git.ts:103-116 | once `git archive` delivers the manifest, the answer is yes whatever the clone, the file system or the clean-up would say |
| Detector.AiToolsRanked | src/core/project.ts:16-27 | the tool table lists five tools, antigravity, github, cursor, claude, opencode, each at its rank |
| Detector.FirstUsableIsFirst | src/core/project.ts:42-53 | a tool's skill directory is found exactly when one of its directories has an existing parent, and it is the first such, joined to the working directory |
| Detector.Hits | src/core/project.ts:40-53 | one entry per tool in table order; a tool has a directory exactly when one of its skill directories is usable (its parent exists), and that directory is the first usable one, joined to the project root |
| Detector.CollectSound | src/core/project.ts:37-57 | every reported project is a table tool with a directory, rooted at the working directory |
| Detector.CollectOrdered | src/core/project.ts:40 | reported projects follow the table order strictly, so no tool appears twice |
| Detector.CollectComplete | src/core/project.ts:40-53 | every tool with a directory is reported |
| Detector.DetectAllIn | src/core/project.ts:37-57 | `detectAll` reports each tool at most once and in table order, with root = cwd and the tool's directory, and reports a tool exactly when it has a directory |
| Detector.DetectIn | src/core/project.ts:62-71 | `detect` is unknown with no skill directory exactly when no tool has one; otherwise it is the earliest tool with a directory, and that directory |
| Detector.DetectAll | src/core/project.ts:37-57 | every report is a known tool rooted at the working directory, carrying the first of its directories whose parent exists; reports follow the table order strictly; a tool is reported exactly when it has such a directory |
| Detector.Detect | src/core/project.ts:62-71 | the root is the working directory; unknown comes with no skill directory; a known tool carries its first usable directory and every earlier tool in the table has none |
| Detector.DetectFindsFirstUsable | src/core/project.ts:37-71 | on the file system: unknown exactly when no listed directory has an existing parent; otherwise the earliest such tool, with the first of its directories whose parent exists |
| Detector.DetectClaudeOnly | src/core/project.ts:16-71 | in a project holding only `.claude`, the result is claude with skill directory `<cwd>/.claude/skills` |
| Detector.DetectFourth | src/core/project.ts:62-71 | when only the fourth tool onward has a directory, `detect` picks the fourth |
| Links.EnsureDir | src/commands/project.ts:24 | the skill directory exists afterwards and no entry changes |
| Links.Link | src/commands/project.ts:9-50 | only the entry named after the id's safe name can change; an unknown id or a project without skill directory changes nothing; a missing target, an existing entry (resolving or dangling) or a failed symlink leaves the name as it was; an absent name with an existing target becomes a symlink to the skill's storage path, extended by its sub-path when it has one |
| Links.LinkResolves | src/commands/project.ts:26-49 | when the storage path exists, a successful link leaves the skill resolving exactly when its name did not hold a dangling symlink |
| Links.LinkTwice | src/commands/project.ts:38-41 | linking twice leaves the directory as linking once |
| Links.Unlink | src/commands/project.ts:52-74 | only the entry named after the safe name can change; nothing happens when it does not resolve or the removal fails; a successful removal leaves it unresolved |
| Links.BrokenLinks | src/commands/project.ts:79-103 | exactly the entries that are symlinks to a missing target |
| Links.OtherSkills | src/commands/project.ts:108-137 | exactly the real directories (not symlinks) holding a `SKILL.md` |
| Links.FindBrokenLinks | src/commands/project.ts:79-103 | the names listed are exactly the broken symlinks, each once, and none when the skill directory is missing |
| Links.FindOtherSkills | src/commands/project.ts:108-137 | the names listed are exactly the non-symlink skill directories, each once, and none when the skill directory is missing |
| Links.BrokenAndOtherDisjoint | src/commands/project.ts:79-137 | no entry is both a broken link and a foreign skill |
| Links.RemoveAll | src/commands/project.ts:176-182 | the named entries are gone and every other entry is as before |
| Links.Step | src/commands/project.ts:234-244 | one turn of the loop changes at most the entry named after that skill |
| Links.StepLinksSelected | src/commands/project.ts:234-244 | when nothing fails and the name holds no dangling symlink, after its turn a skill resolves exactly when it is selected |
| Links.StepKeepsBroken | src/commands/project.ts:234-244 | a turn leaves every dangling symlink as it was and makes no new one |
| Links.LinkTurn | src/commands/project.ts:238-240 | a turn on a selected, unlinked skill places its link when the name is free and its target exists, and leaves whatever holds the name otherwise |
| Links.ReconcileLinksSelected | src/commands/project.ts:186-244 | with distinct safe names, no failures and no dangling symlink at a skill's name, afterwards every skill resolves exactly when it is selected, and no entry outside the skills' names changes |
| Links.Reconcile | src/commands/project.ts:234-244 | whatever fails, no entry outside the skills' names changes, no dangling symlink changes, and no new dangling symlink appears |
| Links.ReconcileSettled | src/commands/project.ts:234-244 | when the linked set already equals the selection, nothing changes |
| Links.ReconcileTwice | src/commands/project.ts:186-244 | with distinct safe names, no failures and no dangling symlink at a skill's name, re-running the reconcile with the same selection, after re-reading what is linked, changes nothing |
| Links.ReconcileExample | tests/commands/project.test.ts:76-104 | linked {A, B} and selected {B, C}: A is unlinked, B is left alone, C is linked to its storage path when that exists (as the test's stubbed file system has it) and absent otherwise |
| Links.ThreeTurns | tests/commands/project.test.ts:76-104 | the three turns of that example, one after the other: A unresolved, B as before, C a link to its storage path when that exists and absent otherwise |
| Links.CleanupOnlyWhenConfirmed | src/commands/project.ts:160-244 | a declined clean-up leaves every dangling symlink and every entry no registered skill is named after as it was; after a confirmed one no name holds a dangling symlink |
| Links.ManageLinksSelected | src/commands/project.ts:139-245 | for a detected project whose registry has distinct safe names, with no failures and either a confirmed clean-up or no dangling symlink at a skill's name, afterwards every registered skill resolves exactly when it is selected |
| Links.ManageProjectSkills | src/commands/project.ts:139-245 | no known tool or no skill directory changes nothing; the set of existing paths never changes; an entry that is neither a registered skill's name nor a dangling symlink stays as it was |
| Repo.UserRepoOf | src/commands/repo.ts:32-42 | a `user/repo` is derived exactly when the id has a colon |
| Repo.SecondPiece | src/commands/repo.ts:32-35 | splitting `kind:rest` on `:` with colon-free parts gives two pieces, the second being `rest` |
| Repo.UserRepoRoundTrip | src/commands/repo.ts:32-42 | the `user/repo` derived from a GitHub id built by the add command is the one it was built from, with or without a sub-path |
| Repo.ScopeOf | src/commands/repo.ts:47-52 | the scope of a commit query is never empty |
| Repo.CheckOne | src/commands/repo.ts:154-205 | only GitHub records are checked; an update carries the record, a non-empty remote head, the clone URL and default branch of its `user/repo`, and is reported only after a successful fetch, with a local commit that differs from the remote one |
| Repo.CheckOneReports | src/commands/repo.ts:28-83 | an update is reported exactly when the record is a GitHub record with a colon in its id, the local commit resolves, the fetch succeeds, and the remote commit resolves, is non-empty and differs from the local one |
| Repo.Scan | src/commands/repo.ts:28-89 | the scan reports at most one update per record, each produced by the check of one record |
| Repo.ScanComplete | src/commands/repo.ts:28-89 | every update the check of a record produces is reported |
| Repo.ScanAppend | src/commands/repo.ts:28-89 | scanning two runs of records one after the other reports the first run's updates before the second's |
| Repo.FailedRecordSkipped | src/commands/repo.ts:31-86 | a record whose check fails is skipped and the scan goes on: the report is the one without it |
| Repo.CheckSkillUpdates | src/commands/repo.ts:20-90 | every update reported is for a registered GitHub record, exactly as its check produces it |
| Repo.CheckSkillUpdatesComplete | src/commands/repo.ts:20-90 | every registered record whose check produces an update is reported |
| Repo.ApplyUpdate | src/commands/repo.ts:262-278 | a failed pull leaves the registry unchanged; a successful one records the remote head as the commit of an existing record, keeping type and path; no other record changes |
| Repo.ApplyUpdates | src/commands/repo.ts:544-556 | records not chosen for update are unchanged |
| Repo.ApplyUpdatesRecords | src/commands/repo.ts:544-556 | each chosen record (chosen once) ends with the new commit when its pull succeeds and unchanged when it fails, whatever happens to the others |
| Repo.FirstMatch | src/commands/repo.ts:446-450 | the leftmost position where `github.com/<seg>/<seg>` runs to the end of the URL, or none when there is no such position |
| Repo.FirstMatchSkips | src/commands/repo.ts:446-450 | positions holding no `g` cannot start a match |
| Repo.MatchUserRepo | src/commands/repo.ts:446-450 | no `user/repo` exactly when `github.com/<seg>/<seg>` ends the URL at no position; otherwise the group of the leftmost match with a final `.git` dropped |
| Repo.SlashCloneUrlUnmatched | src/commands/repo.ts:446-450 | the pattern matches `https://github.com/o/r/.git` at no position, so no `user/repo` is read from it |
| Repo.CloneUrlMatch | src/commands/repo.ts:446-450 | in the clone URL of `o/r` the pattern first matches right after `https://` |
| Repo.MatchCloneUrl | src/commands/repo.ts:446-450 | the `user/repo` read from the clone URL of `o/r` is `o/r` |
| Repo.Scope | src/commands/repo.ts:498-503 | the scope of the commit query at add time is never empty |
| Repo.PlanGitHub | src/commands/repo.ts:436-467 | a plan is made exactly when the URL is not blank, git is at least 2.25 and the normalised clone URL matches the `user/repo` pattern; it carries the URL normalised as the code does it, the `user/repo` read from its clone URL, the id `github:<user/repo>[/<path>]`, and a non-empty branch, which is the URL's branch when it names one and the remote default branch otherwise |
| Repo.SlashBeforeQueryRefused | src/commands/repo.ts:439-449 | as written, `https://github.com/o/r/?tab=readme` gets no plan: its clone URL ends in `/.git`, no `user/repo` is read, and the add stops with the unsupported-URL error |
| Repo.CloneSteps | src/commands/repo.ts:489-495 | the add's clone succeeds exactly when `cloneSparse` (`Git.CloneSparse`) on the URL's path and the chosen branch succeeds, or, without a path, exactly when the plain `git clone` of `cloneFull` does |
| Repo.CloneEffects | src/commands/repo.ts:469-495 | the disk steps up to the clone end with the clone and include the removal of the old storage directory exactly when the id was registered |
| Repo.Register | src/core/skills.ts:37-41 | the corrected registry write: the skill reads back with its commit, type `github` and its path; other records are unchanged |
| Repo.RegisterAsWritten | src/commands/repo.ts:505 | the write as the command makes it: the skill reads back with commit `github` and its commit as the type |
| Repo.AsWrittenNeverChecked | src/commands/repo.ts:29 | a GitHub skill recorded as written is never update-checked |
| Repo.TypeIsCommit | src/commands/repo.ts:29 | a record whose type holds a commit is update-checked exactly when that commit is `github`, and otherwise its check reports nothing |
| Repo.AsWrittenExample | src/commands/repo.ts:505 | `github:u/r` added with commit `abc` is stored with commit `github` and type `abc`, and its check reports nothing |
| Repo.RegisteredIsChecked | src/commands/repo.ts:20-90 | a skill recorded by the corrected write is a GitHub record whose commit, `user/repo` and scope are the ones it was added with |
| Repo.RunGitHub | src/commands/repo.ts:420-503 | a clone is made only after a plan is found, and the commit recorded is the one the clone reports for the skill's scope; the clone is the last disk step |
| Repo.RunPlan | src/commands/repo.ts:455-503 | once planned, a run that reaches the clone keeps the plan, ends with the clone into the id's storage path, and carries the commit read for the scope |
| Repo.RunPlanCloned | src/commands/repo.ts:455-503 | once planned, the clone is reached exactly when the remote manifest is found, the id is new or may be overwritten, the clone commands succeed and the scope's commit is read |
| Repo.RunGitHubCloned | src/commands/repo.ts:420-503 | the add reaches the clone exactly when the URL is planned, the manifest is found remotely, the id is new or may be overwritten, and the clone and the commit query succeed |
| Repo.AddGitHub | src/commands/repo.ts:420-511 | no plan, no remote manifest, or an existing skill without consent to overwrite ⇒ nothing happens; no other record ever changes |
| Repo.AddGitHubWrites | src/commands/repo.ts:420-511 | the registry is written exactly when the add reaches the clone and the commit query succeeds; otherwise it is unchanged |
| Repo.AddGitHubRecord | src/commands/repo.ts:491-505 | when the registry is written, it comes after the clone, and the record holds, as line 505 passes the arguments, commit `github`, the cloned scope's commit as the type, and the plan's path |
| Repo.AddGitHubUnchecked | src/commands/repo.ts:29-505 | the record a GitHub add writes is update-checked only if the commit it resolved is literally `github` |
| Repo.RegisterLocal | src/core/skills.ts:37-41 | the corrected local write: type `local`, no commit, no path |
| Repo.RegisterLocalAsWritten | src/commands/repo.ts:388 | the local write as the command makes it: commit `local`, no type |
| Repo.LocalAsWrittenHasNoType | src/commands/repo.ts:388 | as written, a local skill is stored with no type and `local` as its commit; corrected, with type `local` and no commit |
| Repo.RunLocal | src/commands/repo.ts:314-386 | the copy is reached exactly when the path is non-blank, is an existing directory holding `SKILL.md`, the id `local:<basename>` is free or may be overwritten and then its old copy is removed (a failed removal at line 379 throws), and the copy succeeds; the copy goes to that id's storage path and is the last effect |
| Repo.HandleOriginal | src/commands/repo.ts:406-413 | `3` removes the original folder; `2` removes it and then links it to the stored copy; any other answer does nothing; nothing is ever copied |
| Repo.AddLocal | src/commands/repo.ts:314-415 | a blank path, a missing folder, a non-directory or a missing `SKILL.md` ⇒ nothing happens; records other than `local:` ones never change |
| Repo.AddLocalWrites | src/commands/repo.ts:314-415 | the registry is written exactly when the copy is reached (with the old copy removed on overwrite) and succeeds; otherwise it is unchanged and the original is left alone |
| Repo.AddLocalRecord | src/commands/repo.ts:386-414 | when the registry is written, it comes after the copy and records `local:<basename>` as line 388 writes it, with commit `local` and no type, followed only by the handling of the original |
| Repo.DeleteSkill | src/commands/repo.ts:577-620 | nothing happens without an id or without confirmation; on confirmation the storage directory is removed first, and the record is removed only when that succeeds; other records never change |
| Repo.DeleteAfterAdd | src/commands/repo.ts:505-619 | deleting a freshly added skill restores every lookup |
| Paths.DirnameOfJoin | src/core/project.ts:43-44 | the parent of `base` joined with `d/e` is `base` joined with `d` |
| Paths.BasenameOfJoin | src/commands/project.ts:79-137 | the last segment of a directory joined with a plain name is that name |
| Strings.JoinSplit | src/core/config.ts:40 | joining the pieces of a split with the separator gives the text back |

## Left out

- The menus, prompts and console output of `src/index.ts`, `repoMenu`, `manageSkill` and `listSkills`, including the sort of the skill menu in `repoMenu`, which only orders what is displayed: prompt answers are parameters, nothing is displayed.
- `ConfigManager.init` and `getAITools`: file creation and reading `config.json`, with `process.exit` on error; the detector uses its built-in tool table.
- The subprocesses and file operations themselves: git is an oracle, `fs-extra` results are booleans or predicates, and `~` expansion with `path.resolve` is one `resolve` parameter.
- The temporary directory named with `Date.now()` in `checkRemoteSkillMd` and the add command: it is a parameter.
- The junction/symlink choice on Windows: both are one symlink entry.
- Concurrency and the asynchronous scheduling of the commands: the model is single-threaded and the registry has one writer.
- The order in which `readdir` lists a directory: `FindBrokenLinks` and `FindOtherSkills` return the names in an unspecified order.
- Paths.Join: models `path.join` only for operands without `.` or `..` segments and without repeated separators. The program's storage paths are of that kind, but a skill's sub-path comes from the `(.+)` group of the tree-address pattern (src/core/git.ts:38) and may hold `a//b`, `./x` or `../x`; Node normalises those when it joins them into the link target (src/commands/project.ts:35), while `Links.LinkTarget` keeps them as written, so for such a sub-path the model's symlink target differs from the program's.
- Config.ParseSafeNameRoundTrip: stated only for ids with a colon and no underscore; the other ids do not round-trip (see `ParseSafeNameOfColonFreeId` and `SafeNameNotInjective`).
- Repo.UserRepoRoundTrip: stated only for a `user/repo` and a path without colons, as GitHub addresses have.
- The removal of broken links during the clean-up of `manageProjectSkills` is assumed to succeed; a failing `fs.remove` there would abort the command.
- Links.ReconcileLinksSelected: stated only when every file operation succeeds, every storage path exists, the skills' safe names are distinct and no dangling symlink sits at a skill's name; `Reconcile` covers the failing runs, and a dangling symlink at a selected skill's name is left in place (the symlink creation fails on it), so that skill stays unresolved.
- Links.ManageLinksSelected: stated under the same conditions, except that a confirmed clean-up removes the dangling symlinks first, so they need not be excluded then.
- Links.ManageProjectSkills: walks the registry in insertion order, not in the `localeCompare` order of src/commands/project.ts:186; the order matters only when two skills share a safe name, which the premise of `ManageLinksSelected` excludes.
- Links.BrokenLinks: a symlink counts as broken when its target is not among the existing paths; the program passes the raw `readlink` text to `existsSync`, which resolves a relative target against the working directory rather than the link's directory, so a working relative symlink made by hand can be reported broken and deleted by a confirmed clean-up. The model stores one resolved target per link; the links the program makes are absolute, so its own links are judged right.
- Skills.Put: a new key is appended to the key order; JavaScript lists array-index keys (such as `7`) first, in ascending order, whatever the insertion order. The program's ids always contain `:`, so only a hand-edited `versions.json` can hold such keys, and the model keeps them in file order.
- Links.Link, Links.Unlink: a skill whose safe name is empty, `.` or `..` (possible only in a hand-edited `versions.json`) makes `path.join` name the skill directory or its parent, so the program reports it as already linked and its unlink removes that directory; the model treats such a name as an ordinary entry.
- Repo.RunGitHub: the removal of an existing storage directory before an overwrite (src/commands/repo.ts:483), and the `ensureDirSync` of its parent, are recorded as effects and assumed to succeed; the local add does model a failed removal (`removeOk`).
- A safe name holds `/` exactly when the type before the id's first colon does (`Config.SafeNameSlashes`): the code copies that part unchanged, and `Config.GetRepoPath` speaks about the last path segment only for the other ids.
- Skills.GetSkill: `skills[id]` on a plain object also finds inherited `Object.prototype` keys such as `toString`; the model's registry holds only the keys stored in it.
- Git.LocalPathCommit: a failing `rev-parse` throws in the program; the model returns no commit, and every caller treats that as the same failure.

## Findings

| source | as written | input that shows it | evidently intended | confidence | as-written member | corrected member |
|---|---|---|---|---|---|---|
| src/commands/repo.ts:505 | `addSkill(id, 'github', commitId, path)` passes the type where `addSkill` takes the commit (src/core/skills.ts:37), so a GitHub skill is stored with commit `github` and type `<commit>`; the update scan skips every record whose type is not `github` (src/commands/repo.ts:29), so such a skill is never checked for updates | adding `https://github.com/u/r` whose HEAD is `abc` | store commit `abc` and type `github`, so that the skill takes part in update checks | not executed | Repo.AsWrittenNeverChecked | Repo.RegisteredIsChecked |
| src/core/git.ts:31-35 | trailing slashes are removed before the query and fragment, so a slash before `?` or `#` survives, and the cleaned address matches neither pattern; the add then refuses the address (`Repo.SlashBeforeQueryRefused`) | `https://github.com/o/r/?tab=readme` gives clone URL `https://github.com/o/r/.git` | `https://github.com/o/r.git` | not executed | Git.AsWrittenKeepsSlashBeforeQuery | Git.RootNormalizedQueryFirst |
| src/commands/repo.ts:388 | `addSkill(id, 'local')` passes `local` where `addSkill` takes the commit (src/core/skills.ts:37), so a local skill is stored with commit `local` and no type | adding any local folder | store type `local` and no commit | not executed | Repo.LocalAsWrittenHasNoType | Repo.RegisterLocal |

The commands of the model call the definitions as the code writes them (`Git.NormalizeUrl`, `Repo.RegisterAsWritten`, `Repo.RegisterLocalAsWritten`); each corrected definition stands beside its as-written one with the intended property proved about it.

=== FILE: config.dfy ===
/** The identity codec of src/core/config.ts: a skill id such as
    `github:user/repo/skills/pdf` becomes the file-system name
    `github__user__repo__skills__pdf`, used both for the storage directory
    under the repository root and for the link inside a project. */
module Config {
  import opened Strings
  import Paths

  /** `getSafeName`: without a colon every "/" becomes "__"; with one, the text
      before the first colon is kept as the type, and everything after it (later
      colons included) has every "/" replaced by "__" and is appended after "__". */
  function GetSafeName(id: string): (r: string)
    ensures ':' !in id ==> r == ReplaceAll(id, '/', "__")
    ensures ':' in id ==>
      r == id[..IndexOf(id, ':')] + "__" + ReplaceAll(id[IndexOf(id, ':') + 1..], '/', "__")
  {
    var parts := Split(id, ':');
    if |parts| < 2 then
      ReplaceAll(id, '/', "__")
    else
      SplitTail(id, ':');
      parts[0] + "__" + ReplaceAll(Join(parts[1..], ":"), '/', "__")
  }

  /** `parseSafeName`: a name without "__" is returned unchanged; otherwise the
      first "__"-separated segment is the type, followed by ":" and the remaining
      segments joined by "/". */
  function ParseSafeName(safeName: string): (r: string)
    ensures IndexOfPair(safeName) == |safeName| ==> r == safeName
    ensures IndexOfPair(safeName) < |safeName| ==>
      var i := IndexOfPair(safeName);
      && |r| > i && r[..i] == safeName[..i] && r[i] == ':'
      && r == safeName[..i] + ":" + Join(SplitPairs(safeName[i + 2..]), "/")
  {
    var parts := SplitPairs(safeName);
    if |parts| < 2 then safeName
    else
      assert parts[1..] == SplitPairs(safeName[IndexOfPair(safeName) + 2..]);
      parts[0] + ":" + Join(parts[1..], "/")
  }

  /** `getRepoPath`: the storage directory of a skill under the repository
      root. Its own name is the skill's safe name, whenever that name is
      non-empty and the type before the first colon holds no "/". */
  function GetRepoPath(repoDir: string, id: string): (dir: string)
    ensures GetSafeName(id) != "" && (':' !in id || '/' !in id[..IndexOf(id, ':')])
            ==> Paths.Basename(dir) == GetSafeName(id)
  {
    var name := GetSafeName(id);
    SafeNameSlashes(id);
    if name != "" && '/' !in name then
      Paths.BasenameOfJoin(repoDir, name);
      Paths.Join(repoDir, name)
    else
      Paths.Join(repoDir, name)
  }

  /** A safe name holds a "/" only when the type before the first colon does:
      every "/" of the locator is encoded, the type is copied as it is. */
  lemma SafeNameSlashes(id: string)
    ensures '/' in GetSafeName(id) <==> (':' in id && '/' in id[..IndexOf(id, ':')])
  {
    if ':' in id {
      var i := IndexOf(id, ':');
      var t := ReplaceAll(id[i + 1..], '/', "__");
      assert GetSafeName(id) == id[..i] + "__" + t;
      assert '/' !in t;
    }
  }

  /** Decoding a name whose type segment has no underscore: the type, ":", and
      the remaining "__"-segments joined by "/". */
  lemma ParseAfterPlainType(t: string, enc: string)
    requires '_' !in t
    ensures ParseSafeName(t + "__" + enc) == t + ":" + Join(SplitPairs(enc), "/")
  {
    var safe := t + "__" + enc;
    FirstPairAfterPlainPrefix(t, enc);
    assert safe[..|t|] == t;
    assert safe[|t| + 2..] == enc;
    assert SplitPairs(safe) == [t] + SplitPairs(enc);
    assert SplitPairs(safe)[1..] == SplitPairs(enc);
  }

  /** For an id with a colon and no underscore, decoding the safe name gives the
      id back (`github:user/repo/skills/pdf` among them). */
  lemma ParseSafeNameRoundTrip(id: string)
    requires ':' in id
    requires '_' !in id
    ensures ParseSafeName(GetSafeName(id)) == id
  {
    var i := IndexOf(id, ':');
    var t := id[..i];
    var rest := id[i + 1..];
    assert id == t + ":" + rest;
    assert '_' !in t && '_' !in rest;
    var pieces := Split(rest, '/');
    SplitPartsAvoid(rest, '/', '_');
    ReplaceAllIsSplitJoin(rest, '/', "__");
    SplitPairsJoin(pieces);
    JoinSplit(rest, '/');
    var enc := ReplaceAll(rest, '/', "__");
    ParseAfterPlainType(t, enc);
    assert SplitPairs(enc) == pieces;
    assert GetSafeName(id) == t + "__" + enc;
    assert Join(SplitPairs(enc), "/") == rest;
  }

  /** Without a colon the round trip fails: decoding turns the first "/" of an
      underscore-free id into ":" (`a/b` comes back as `a:b`). */
  lemma ParseSafeNameOfColonFreeId(id: string)
    requires ':' !in id
    requires '_' !in id
    requires '/' in id
    ensures var k := IndexOf(id, '/');
      ParseSafeName(GetSafeName(id)) == id[..k] + ":" + id[k + 1..]
  {
    var k := IndexOf(id, '/');
    var pieces := Split(id, '/');
    assert |pieces| >= 2;
    SplitPartsAvoid(id, '/', '_');
    ReplaceAllIsSplitJoin(id, '/', "__");
    assert GetSafeName(id) == Join(pieces, "__");
    SplitPairsJoin(pieces);
    assert SplitPairs(GetSafeName(id)) == pieces;
    SplitTail(id, '/');
    assert ParseSafeName(GetSafeName(id)) == pieces[0] + ":" + Join(pieces[1..], "/");
  }

  lemma ColonFreeExample()
    ensures GetSafeName("a/b") == "a__b"
    ensures ParseSafeName("a__b") == "a:b"
  {
    ParseSafeNameOfColonFreeId("a/b");
    assert IndexOf("a/b", '/') == 1;
    assert "a/b"[..1] == "a" && "a/b"[2..] == "b";
  }

  /** An id with a colon-free type splits at the colon after the type. */
  lemma ColonAfterType(t: string, rest: string)
    requires ':' !in t
    ensures var id := t + ":" + rest;
      && ':' in id && IndexOf(id, ':') == |t|
      && id[..|t|] == t && id[|t| + 1..] == rest
  {
    var id := t + ":" + rest;
    assert forall k :: 0 <= k < |t| ==> id[k] == t[k];
    assert id[|t|] == ':';
    assert id[..|t|] == t;
    assert id[|t| + 1..] == rest;
  }

  /** The encoding is not injective: encoding the locator of an id by hand gives
      a different id with the same safe name (`t:a/b` and `t:a__b`). */
  lemma SafeNameNotInjective(t: string, rest: string)
    requires ':' !in t
    requires '/' in rest
    ensures var pre := ReplaceAll(rest, '/', "__");
      t + ":" + rest != t + ":" + pre &&
      GetSafeName(t + ":" + rest) == GetSafeName(t + ":" + pre)
  {
    var pre := ReplaceAll(rest, '/', "__");
    ColonAfterType(t, rest);
    ColonAfterType(t, pre);
    assert '/' !in "__";
    assert '/' !in pre;
    assert rest != pre;
    assert ReplaceAll(pre, '/', "__") == pre;
  }

  lemma ReplaceExample()
    ensures ReplaceAll("a/b", '/', "__") == "a__b"
  {
    assert ReplaceAll("b", '/', "__") == "b";
    assert ReplaceAll("/b", '/', "__") == "__b";
  }

  lemma SlashExample()
    ensures GetSafeName("t:a/b") == "t__a__b"
  {
    ReplaceExample();
    ColonAfterType("t", "a/b");
    assert "t" + ":" + "a/b" == "t:a/b";
    assert "t" + "__" + "a__b" == "t__a__b";
  }

  lemma EncodedExample()
    ensures GetSafeName("t:a__b") == "t__a__b"
  {
    ColonAfterType("t", "a__b");
    assert "t" + ":" + "a__b" == "t:a__b";
    assert '/' !in "a__b";
    assert "t" + "__" + "a__b" == "t__a__b";
  }

  /** `t:a/b` and `t:a__b` share the safe name `t__a__b`. */
  lemma NotInjectiveExample()
    ensures GetSafeName("t:a/b") == GetSafeName("t:a__b") == "t__a__b"
  {
    SlashExample();
    EncodedExample();
  }
}

=== FILE: detector.dfy ===
/** The project detector of src/core/project.ts: which AI tools a working
    directory is set up for, and where each keeps its skills. The file system
    is an existence predicate `present` over paths. */
module Detector {
  import opened Wrappers
  import opened Paths
  import Strings

  datatype ProjectType = Antigravity | GitHub | Cursor | Claude | OpenCode | Unknown

  /** A tool and the skill directories it may use, relative to the project root. */
  datatype Tool = Tool(kind: ProjectType, skillDirs: seq<string>)

  /** What the detector reports: the tool, the project root and, for a known
      tool, its skill directory. */
  datatype ProjectInfo = ProjectInfo(kind: ProjectType, root: string, skillDir: Option<string>)

  /** `ProjectDetector.AI_TOOLS`, in the order the detector tries them. */
  const AiTools: seq<Tool> := [
    Tool(Antigravity, [".gemini/antigravity/global_skills/skills", ".agent/skills"]),
    Tool(GitHub, [".copilot/skills", ".github/skills"]),
    Tool(Cursor, [".cursor/skills"]),
    Tool(Claude, [".claude/skills"]),
    Tool(OpenCode, [".opencode/skills"])
  ]

  /** The position of a tool in `AiTools`; `Unknown` comes after all of them. */
  function Rank(k: ProjectType): nat {
    match k
    case Antigravity => 0
    case GitHub => 1
    case Cursor => 2
    case Claude => 3
    case OpenCode => 4
    case Unknown => 5
  }

  lemma AiToolsRanked()
    ensures |AiTools| == 5
    ensures RankedTable(AiTools)
  {
  }

  /** A skill directory counts when its parent directory exists. */
  predicate Usable(cwd: string, dir: string, present: string -> bool) {
    present(Dirname(Join(cwd, dir)))
  }

  /** The inner loop of `detectAll`: the first of `dirs`, joined to `cwd`, whose
      parent exists. */
  function FirstUsable(cwd: string, dirs: seq<string>, present: string -> bool): Option<string> {
    if |dirs| == 0 then None
    else if Usable(cwd, dirs[0], present) then Some(Join(cwd, dirs[0]))
    else FirstUsable(cwd, dirs[1..], present)
  }

  /** `FirstUsable` finds a directory exactly when one is usable, and then the
      first usable one. */
  lemma {:induction false} FirstUsableIsFirst(cwd: string, dirs: seq<string>, present: string -> bool)
    ensures FirstUsable(cwd, dirs, present).Some? <==> exists i :: 0 <= i < |dirs| && Usable(cwd, dirs[i], present)
    ensures FirstUsable(cwd, dirs, present).Some? ==>
      exists i :: 0 <= i < |dirs| && FirstUsable(cwd, dirs, present).value == Join(cwd, dirs[i])
        && Usable(cwd, dirs[i], present) && forall j :: 0 <= j < i ==> !Usable(cwd, dirs[j], present)
  {
    if |dirs| > 0 && Usable(cwd, dirs[0], present) {
      assert FirstUsable(cwd, dirs, present).value == Join(cwd, dirs[0]);
    } else if |dirs| > 0 {
      var rest := dirs[1..];
      FirstUsableIsFirst(cwd, rest, present);
      assert forall i :: 1 <= i < |dirs| ==> dirs[i] == rest[i - 1];
      var r := FirstUsable(cwd, rest, present);
      if r.Some? {
        var i :| 0 <= i < |rest| && r.value == Join(cwd, rest[i]) && Usable(cwd, rest[i], present)
                 && forall j :: 0 <= j < i ==> !Usable(cwd, rest[j], present);
        assert r.value == Join(cwd, dirs[i + 1]) && Usable(cwd, dirs[i + 1], present);
        forall j | 0 < j < i + 1
          ensures !Usable(cwd, dirs[j], present)
        {
          assert dirs[j] == rest[j - 1];
        }
      }
    }
  }

  /** The tools of `tools` are known tools sitting at the positions their kinds rank at. */
  predicate RankedTable(tools: seq<Tool>) {
    forall t :: 0 <= t < |tools| ==> tools[t].kind != Unknown && Rank(tools[t].kind) == t
  }

  /** The skill directory `detectAll` finds for each tool, in table order:
      a tool has one exactly when one of its directories is usable, and it is
      the first usable one, joined to `cwd`. */
  function Hits(cwd: string, tools: seq<Tool>, present: string -> bool): (hits: seq<Option<string>>)
    ensures |hits| == |tools|
    ensures forall t :: 0 <= t < |tools| ==> hits[t] == FirstUsable(cwd, tools[t].skillDirs, present)
    ensures forall t :: 0 <= t < |tools| ==>
      (hits[t].Some? <==> exists i :: 0 <= i < |tools[t].skillDirs| && Usable(cwd, tools[t].skillDirs[i], present))
    ensures forall t :: 0 <= t < |tools| && hits[t].Some? ==>
      exists i :: 0 <= i < |tools[t].skillDirs| && hits[t].value == Join(cwd, tools[t].skillDirs[i])
        && Usable(cwd, tools[t].skillDirs[i], present)
        && forall j :: 0 <= j < i ==> !Usable(cwd, tools[t].skillDirs[j], present)
  {
    FirstUsableEach(cwd, tools, present);
    seq(|tools|, t requires 0 <= t < |tools| => FirstUsable(cwd, tools[t].skillDirs, present))
  }

  /** `FirstUsableIsFirst` for the directories of every tool of a table. */
  lemma FirstUsableEach(cwd: string, tools: seq<Tool>, present: string -> bool)
    ensures forall t :: 0 <= t < |tools| ==>
      var dirs := tools[t].skillDirs;
      && (FirstUsable(cwd, dirs, present).Some? <==> exists i :: 0 <= i < |dirs| && Usable(cwd, dirs[i], present))
      && (FirstUsable(cwd, dirs, present).Some? ==>
            exists i :: 0 <= i < |dirs| && FirstUsable(cwd, dirs, present).value == Join(cwd, dirs[i])
              && Usable(cwd, dirs[i], present) && forall j :: 0 <= j < i ==> !Usable(cwd, dirs[j], present))
  {
    forall t | 0 <= t < |tools| {
      FirstUsableIsFirst(cwd, tools[t].skillDirs, present);
    }
  }

  /** What `detectAll` reports for the tool at position `t` with skill directory `dir`. */
  function Report(cwd: string, tools: seq<Tool>, t: nat, dir: string): ProjectInfo
    requires t < |tools|
  {
    ProjectInfo(tools[t].kind, cwd, Some(dir))
  }

  /** The loop of `detectAll` from the tool at position `t` on, given the
      directory found for each tool. */
  function Collect(cwd: string, tools: seq<Tool>, hits: seq<Option<string>>, t: nat): seq<ProjectInfo>
    requires |hits| == |tools| && t <= |tools|
    decreases |tools| - t
  {
    if t == |tools| then []
    else
      var rest := Collect(cwd, tools, hits, t + 1);
      match hits[t]
      case None => rest
      case Some(dir) => [Report(cwd, tools, t, dir)] + rest
  }

  /** Every tool in `r` comes from position `t` or later in the table, with
      the directory found for it. */
  predicate FromTable(cwd: string, tools: seq<Tool>, hits: seq<Option<string>>, t: nat, r: seq<ProjectInfo>)
    requires |hits| == |tools|
  {
    forall i :: 0 <= i < |r| ==>
      && t <= Rank(r[i].kind) < |tools|
      && hits[Rank(r[i].kind)].Some?
      && r[i] == Report(cwd, tools, Rank(r[i].kind), hits[Rank(r[i].kind)].value)
  }

  /** The tools in `r` appear in table order, each at most once. */
  predicate InTableOrder(r: seq<ProjectInfo>) {
    forall i, j :: 0 <= i < j < |r| ==> Rank(r[i].kind) < Rank(r[j].kind)
  }

  /** Every tool from position `t` on with a directory is in `r`. */
  predicate ListsEvery(tools: seq<Tool>, hits: seq<Option<string>>, t: nat, r: seq<ProjectInfo>)
    requires |hits| == |tools|
  {
    forall u :: t <= u < |tools| ==> (hits[u].Some? <==> exists i :: 0 <= i < |r| && Rank(r[i].kind) == u)
  }

  /** Every tool `Collect` reports comes from its table with the directory found for it. */
  lemma {:induction false} CollectSound(cwd: string, tools: seq<Tool>, hits: seq<Option<string>>, t: nat)
    requires RankedTable(tools) && |hits| == |tools| && t <= |tools|
    ensures FromTable(cwd, tools, hits, t, Collect(cwd, tools, hits, t))
    decreases |tools| - t
  {
    if t < |tools| {
      CollectSound(cwd, tools, hits, t + 1);
      var rest := Collect(cwd, tools, hits, t + 1);
      var r := Collect(cwd, tools, hits, t);
      if hits[t].Some? {
        assert r == [Report(cwd, tools, t, hits[t].value)] + rest;
        assert Rank(r[0].kind) == t;
        assert forall i :: 1 <= i < |r| ==> r[i] == rest[i - 1];
      }
    }
  }

  /** `Collect` reports tools in table order, each at most once. */
  lemma {:induction false} CollectOrdered(cwd: string, tools: seq<Tool>, hits: seq<Option<string>>, t: nat)
    requires RankedTable(tools) && |hits| == |tools| && t <= |tools|
    ensures InTableOrder(Collect(cwd, tools, hits, t))
    decreases |tools| - t
  {
    if t < |tools| {
      CollectSound(cwd, tools, hits, t + 1);
      CollectOrdered(cwd, tools, hits, t + 1);
      var rest := Collect(cwd, tools, hits, t + 1);
      if hits[t].Some? {
        var x := Report(cwd, tools, t, hits[t].value);
        assert Collect(cwd, tools, hits, t) == [x] + rest;
        InTableOrderCons(cwd, tools, hits, t, x, rest);
      } else {
        assert Collect(cwd, tools, hits, t) == rest;
      }
    }
  }

  /** A tool at position `t` in front of an ordered list of later tools keeps
      the list ordered. */
  lemma InTableOrderCons(cwd: string, tools: seq<Tool>, hits: seq<Option<string>>, t: nat,
                         x: ProjectInfo, rest: seq<ProjectInfo>)
    requires |hits| == |tools| && Rank(x.kind) == t
    requires FromTable(cwd, tools, hits, t + 1, rest) && InTableOrder(rest)
    ensures InTableOrder([x] + rest)
  {
    var r := [x] + rest;
    assert forall i :: 1 <= i < |r| ==> r[i] == rest[i - 1];
  }

  /** `Collect` reports every tool from position `t` on that has a directory. */
  lemma {:induction false} CollectComplete(cwd: string, tools: seq<Tool>, hits: seq<Option<string>>, t: nat)
    requires RankedTable(tools) && |hits| == |tools| && t <= |tools|
    ensures ListsEvery(tools, hits, t, Collect(cwd, tools, hits, t))
    decreases |tools| - t
  {
    if t < |tools| {
      CollectSound(cwd, tools, hits, t + 1);
      CollectComplete(cwd, tools, hits, t + 1);
      var rest := Collect(cwd, tools, hits, t + 1);
      if hits[t].Some? {
        var x := Report(cwd, tools, t, hits[t].value);
        assert Collect(cwd, tools, hits, t) == [x] + rest;
        ListsEveryCons(cwd, tools, hits, t, x, rest);
      } else {
        assert Collect(cwd, tools, hits, t) == rest;
      }
    }
  }

  /** Putting the tool at position `t`, which has a directory, in front of a
      complete list for the positions after it gives a complete list from `t`. */
  lemma ListsEveryCons(cwd: string, tools: seq<Tool>, hits: seq<Option<string>>, t: nat,
                       x: ProjectInfo, rest: seq<ProjectInfo>)
    requires RankedTable(tools) && |hits| == |tools| && t < |tools|
    requires hits[t].Some? && Rank(x.kind) == t
    requires FromTable(cwd, tools, hits, t + 1, rest) && ListsEvery(tools, hits, t + 1, rest)
    ensures ListsEvery(tools, hits, t, [x] + rest)
  {
    var r := [x] + rest;
    forall u | t < u < |tools|
      ensures hits[u].Some? <==> exists i :: 0 <= i < |r| && Rank(r[i].kind) == u
    {
      if hits[u].Some? {
        var i :| 0 <= i < |rest| && Rank(rest[i].kind) == u;
        assert r[i + 1] == rest[i];
      }
      if exists i :: 0 <= i < |r| && Rank(r[i].kind) == u {
        var i :| 0 <= i < |r| && Rank(r[i].kind) == u;
        assert r[i] == rest[i - 1];
      }
    }
    assert Rank(r[0].kind) == t;
  }

  /** `detectAll()` over a table of tools and the directory found for each:
      every tool with a directory, in table order, with that directory. */
  function DetectAllIn(cwd: string, tools: seq<Tool>, hits: seq<Option<string>>): (r: seq<ProjectInfo>)
    requires RankedTable(tools) && |hits| == |tools|
    ensures forall i :: 0 <= i < |r| ==>
      && Rank(r[i].kind) < |tools|
      && r[i].kind == tools[Rank(r[i].kind)].kind
      && r[i].kind != Unknown
      && r[i].root == cwd
      && r[i].skillDir.Some?
      && r[i].skillDir == hits[Rank(r[i].kind)]
    ensures forall i, j :: 0 <= i < j < |r| ==> Rank(r[i].kind) < Rank(r[j].kind)
    ensures forall u :: 0 <= u < |tools| ==> (hits[u].Some? <==> exists i :: 0 <= i < |r| && Rank(r[i].kind) == u)
  {
    CollectSound(cwd, tools, hits, 0);
    CollectOrdered(cwd, tools, hits, 0);
    CollectComplete(cwd, tools, hits, 0);
    Collect(cwd, tools, hits, 0)
  }

  /** `detectAll()`: one report per tool of the table that has a usable
      directory, in table order, each rooted at the working directory and
      carrying that tool's first usable directory. */
  function DetectAll(cwd: string, present: string -> bool): (r: seq<ProjectInfo>)
    ensures forall i :: 0 <= i < |r| ==>
      && r[i].kind != Unknown
      && Rank(r[i].kind) < |AiTools|
      && r[i].kind == AiTools[Rank(r[i].kind)].kind
      && r[i].root == cwd
      && r[i].skillDir.Some?
      && r[i].skillDir == FirstUsable(cwd, AiTools[Rank(r[i].kind)].skillDirs, present)
    ensures forall i, j :: 0 <= i < j < |r| ==> Rank(r[i].kind) < Rank(r[j].kind)
    ensures forall u :: 0 <= u < |AiTools| ==>
      (FirstUsable(cwd, AiTools[u].skillDirs, present).Some? <==> exists i :: 0 <= i < |r| && Rank(r[i].kind) == u)
  {
    AiToolsRanked();
    DetectAllIn(cwd, AiTools, Hits(cwd, AiTools, present))
  }

  /** `detect()` over a table of tools and the directory found for each: the
      first tool `detectAll` reports, or `unknown` with no skill directory.
      That is the earliest tool in the table with a directory. */
  function DetectIn(cwd: string, tools: seq<Tool>, hits: seq<Option<string>>): (info: ProjectInfo)
    requires RankedTable(tools) && |hits| == |tools|
    ensures info.root == cwd
    ensures info.kind == Unknown <==> forall t :: 0 <= t < |tools| ==> hits[t].None?
    ensures info.kind == Unknown ==> info.skillDir.None?
    ensures info.kind != Unknown ==>
      && Rank(info.kind) < |tools|
      && info.skillDir.Some?
      && info.skillDir == hits[Rank(info.kind)]
      && forall t :: 0 <= t < Rank(info.kind) ==> hits[t].None?
  {
    var all := DetectAllIn(cwd, tools, hits);
    if |all| > 0 then
      all[0]
    else ProjectInfo(Unknown, cwd, None)
  }

  /** `detect()`: rooted at the working directory; a known tool comes with
      its first usable directory, and no earlier tool of the table has one;
      `unknown` comes with no skill directory. */
  function Detect(cwd: string, present: string -> bool): (info: ProjectInfo)
    ensures info.root == cwd
    ensures info.kind == Unknown ==> info.skillDir.None?
    ensures info.kind != Unknown ==>
      && Rank(info.kind) < |AiTools|
      && info.skillDir.Some?
      && info.skillDir == FirstUsable(cwd, AiTools[Rank(info.kind)].skillDirs, present)
      && forall t :: 0 <= t < Rank(info.kind) ==> FirstUsable(cwd, AiTools[t].skillDirs, present).None?
  {
    AiToolsRanked();
    DetectIn(cwd, AiTools, Hits(cwd, AiTools, present))
  }

  /** `detect()` on the file system: the project is of a known tool exactly
      when some tool has a skill directory whose parent exists; the tool is
      the earliest such in the table, and its skill directory is the first of
      its directories whose parent exists, joined to the working directory. */
  lemma DetectFindsFirstUsable(cwd: string, present: string -> bool)
    ensures Detect(cwd, present).kind == Unknown <==>
      forall t, d :: 0 <= t < |AiTools| && 0 <= d < |AiTools[t].skillDirs| ==> !Usable(cwd, AiTools[t].skillDirs[d], present)
    ensures var info := Detect(cwd, present);
      info.kind != Unknown ==>
        && Rank(info.kind) < |AiTools|
        && info.skillDir == FirstUsable(cwd, AiTools[Rank(info.kind)].skillDirs, present)
        && info.skillDir.Some?
        && (exists d :: 0 <= d < |AiTools[Rank(info.kind)].skillDirs|
              && info.skillDir.value == Join(cwd, AiTools[Rank(info.kind)].skillDirs[d])
              && Usable(cwd, AiTools[Rank(info.kind)].skillDirs[d], present))
  {
    AiToolsRanked();
    var hits := Hits(cwd, AiTools, present);
    var info := DetectIn(cwd, AiTools, hits);
    forall t | 0 <= t < |AiTools|
      ensures hits[t].Some? <==> exists d :: 0 <= d < |AiTools[t].skillDirs| && Usable(cwd, AiTools[t].skillDirs[d], present)
    {
      FirstUsableIsFirst(cwd, AiTools[t].skillDirs, present);
    }
    if info.kind != Unknown {
      FirstUsableIsFirst(cwd, AiTools[Rank(info.kind)].skillDirs, present);
    }
  }

  /** The parent of a two-level skill directory is its first level. */
  lemma ParentOfSkillDir(cwd: string, d: string)
    requires d != "" && d[0] != '/'
    ensures Dirname(Join(cwd, d + "/skills")) == Join(cwd, d)
  {
    Strings.AppendAssoc(d, "/", "skills");
    assert "/" + "skills" == "/skills";
    DirnameOfJoin(cwd, d, "skills");
  }

  /** Only `.claude` exists under the working directory. */
  ghost predicate ClaudeOnly(cwd: string, present: string -> bool) {
    forall p :: present(p) <==> p == Join(cwd, ".claude")
  }

  /** Under the `.claude`-only layout, a skill directory `d/skills` other than
      `.claude/skills` is unusable. */
  lemma OtherUnusable(cwd: string, present: string -> bool, d: string, dir: string)
    requires ClaudeOnly(cwd, present)
    requires d != "" && d[0] != '/' && d != ".claude" && dir == d + "/skills"
    ensures !Usable(cwd, dir, present)
  {
    ParentOfSkillDir(cwd, d);
    JoinDistinct(cwd, d, ".claude");
  }

  /** Under the `.claude`-only layout, `.claude/skills` is usable. */
  lemma ClaudeUsable(cwd: string, present: string -> bool, dir: string)
    requires ClaudeOnly(cwd, present)
    requires dir == ".claude" + "/skills"
    ensures Usable(cwd, dir, present)
  {
    ParentOfSkillDir(cwd, ".claude");
  }

  /** A tool with two skill directories, neither usable, finds none. */
  lemma NeitherUsable(cwd: string, dirs: seq<string>, present: string -> bool)
    requires |dirs| == 2 && !Usable(cwd, dirs[0], present) && !Usable(cwd, dirs[1], present)
    ensures FirstUsable(cwd, dirs, present).None?
  {
    assert dirs[1..][0] == dirs[1];
    assert FirstUsable(cwd, dirs[1..][1..], present).None?;
    assert FirstUsable(cwd, dirs[1..], present).None?;
  }

  /** With only `.claude` present under the working directory, the project is a
      Claude project whose skills live in `.claude/skills`. */
  lemma DetectClaudeOnly(cwd: string, present: string -> bool)
    requires ClaudeOnly(cwd, present)
    ensures Detect(cwd, present) == ProjectInfo(Claude, cwd, Some(Join(cwd, ".claude/skills")))
  {
    GeminiUnusable(cwd, present);
    AgentUnusable(cwd, present);
    CopilotUnusable(cwd, present);
    GithubUnusable(cwd, present);
    CursorUnusable(cwd, present);
    ClaudeFinds(cwd, present);
    NeitherUsable(cwd, AiTools[0].skillDirs, present);
    NeitherUsable(cwd, AiTools[1].skillDirs, present);
    DetectClaudeFirst(cwd, present);
  }

  /** The fourth tool of a table is detected when it finds a directory and no
      earlier tool does. */
  lemma DetectFourth(cwd: string, tools: seq<Tool>, hits: seq<Option<string>>)
    requires RankedTable(tools) && |hits| == |tools| && |tools| > 3
    requires hits[0].None? && hits[1].None? && hits[2].None? && hits[3].Some?
    ensures DetectIn(cwd, tools, hits) == ProjectInfo(tools[3].kind, cwd, hits[3])
  {
    var info := DetectIn(cwd, tools, hits);
    assert Rank(info.kind) == 3;
    assert Rank(tools[3].kind) == 3;
  }

  /** Claude is detected when it finds a directory and no earlier tool does. */
  lemma DetectClaudeFirst(cwd: string, present: string -> bool)
    requires FirstUsable(cwd, AiTools[0].skillDirs, present).None?
    requires FirstUsable(cwd, AiTools[1].skillDirs, present).None?
    requires FirstUsable(cwd, AiTools[2].skillDirs, present).None?
    requires FirstUsable(cwd, AiTools[3].skillDirs, present) == Some(Join(cwd, ".claude/skills"))
    ensures Detect(cwd, present) == ProjectInfo(Claude, cwd, Some(Join(cwd, ".claude/skills")))
  {
    AiToolsRanked();
    DetectFourth(cwd, AiTools, Hits(cwd, AiTools, present));
  }

  lemma GeminiUnusable(cwd: string, present: string -> bool)
    requires ClaudeOnly(cwd, present)
    ensures !Usable(cwd, AiTools[0].skillDirs[0], present)
  {
    OtherUnusable(cwd, present, ".gemini/antigravity/global_skills", AiTools[0].skillDirs[0]);
  }

  lemma AgentUnusable(cwd: string, present: string -> bool)
    requires ClaudeOnly(cwd, present)
    ensures !Usable(cwd, AiTools[0].skillDirs[1], present)
  {
    OtherUnusable(cwd, present, ".agent", AiTools[0].skillDirs[1]);
  }

  lemma CopilotUnusable(cwd: string, present: string -> bool)
    requires ClaudeOnly(cwd, present)
    ensures !Usable(cwd, AiTools[1].skillDirs[0], present)
  {
    OtherUnusable(cwd, present, ".copilot", AiTools[1].skillDirs[0]);
  }

  lemma GithubUnusable(cwd: string, present: string -> bool)
    requires ClaudeOnly(cwd, present)
    ensures !Usable(cwd, AiTools[1].skillDirs[1], present)
  {
    OtherUnusable(cwd, present, ".github", AiTools[1].skillDirs[1]);
  }

  lemma CursorUnusable(cwd: string, present: string -> bool)
    requires ClaudeOnly(cwd, present)
    ensures !Usable(cwd, AiTools[2].skillDirs[0], present)
  {
    OtherUnusable(cwd, present, ".cursor", AiTools[2].skillDirs[0]);
  }

  lemma ClaudeFinds(cwd: string, present: string -> bool)
    requires ClaudeOnly(cwd, present)
    ensures FirstUsable(cwd, AiTools[3].skillDirs, present) == Some(Join(cwd, ".claude/skills"))
  {
    ClaudeUsable(cwd, present, AiTools[3].skillDirs[0]);
  }

  /** Different relative names joined to the same directory stay different. */
  lemma JoinDistinct(cwd: string, a: string, b: string)
    requires a != "" && b != "" && a != b
    ensures Join(cwd, a) != Join(cwd, b)
  {
    var head := if cwd == "" then "" else if cwd[|cwd| - 1] == '/' then cwd else cwd + "/";
    assert Join(cwd, a) == head + a;
    assert Join(cwd, b) == head + b;
    assert (head + a)[|head|..] == a;
    assert (head + b)[|head|..] == b;
  }
}

=== FILE: git.dfy ===
/** The decision logic of src/core/git.ts. Git itself is an oracle: a function
    from the command line the skill manager would run to `Some(stdout)` when the
    command exits successfully and `None` when it fails (execa throws). */
module Git {
  import opened Wrappers
  import opened Strings

  /** The git invocations of src/core/git.ts. */
  datatype GitCmd =
    | Version                                         // git --version
    | LsRemote(url: string, ref: string)              // git ls-remote <url> <ref>
    | LsRemoteSymref(url: string)                     // git ls-remote --symref <url> HEAD
    | Archive(url: string, commit: string, file: string)  // git archive --remote <url> <commit> <file>
    | CloneShallow(url: string, dest: string)         // git clone --depth=1 --filter=blob:none --no-checkout
    | CloneBlobless(url: string, dest: string)        // git clone --filter=blob:none --no-checkout
    | CloneFull(url: string, dest: string)            // git clone <url> <dest>
    | SparseInit(cwd: string)                         // git sparse-checkout init --cone
    | SparseSet(cwd: string, path: string)            // git sparse-checkout set <path>
    | Checkout(cwd: string, branch: string)           // git checkout <branch>
    | Fetch(cwd: string)                              // git fetch origin
    | Pull(cwd: string)                               // git pull
    | LogPath(cwd: string, rev: Option<string>, path: string)  // git log -1 --format=%H [<rev>] -- <path>
    | RevParse(cwd: string, target: string)           // git rev-parse <target>

  /** What every git command answers; one fixed oracle stands for one run of a command. */
  type Oracle = GitCmd -> Option<string>

  const GitHubPrefix := "https://github.com/"

  /** `https://github.com/${userRepo}.git`. */
  function GitHubUrl(userRepo: string): string {
    GitHubPrefix + userRepo + ".git"
  }

  // ---------------------------------------------------------------------------
  // checkGitVersion

  const VersionBanner := "git version "

  /** The oldest git the tool accepts: sparse checkout in cone mode needs 2.25. */
  const MinVersion: (nat, nat) := (2, 25)

  /** Lexicographic order on (major, minor). */
  predicate AtLeast(v: (nat, nat), w: (nat, nat)) {
    v.0 > w.0 || (v.0 == w.0 && v.1 >= w.1)
  }

  /** `(\d+)\.(\d+)` at the start of `t`, both runs read by `parseInt`. */
  function NumbersAt(t: string): (v: Option<(nat, nat)>)
  {
    var n := RunLength(t, IsDigit);
    if n == 0 || n == |t| || t[n] != '.' then None
    else
      var u := t[n + 1..];
      var m := RunLength(u, IsDigit);
      if m == 0 then None
      else Some((DigitsValue(t[..n]), DigitsValue(u[..m])))
  }

  /** `/git version (\d+)\.(\d+)/` tried at position `k` only. */
  function VersionAt(s: string, k: nat): (v: Option<(nat, nat)>)
    requires k <= |s|
  {
    if StartsWith(s[k..], VersionBanner) then NumbersAt(s[k + |VersionBanner|..]) else None
  }

  /** The leftmost match of the version pattern at or after position `k`. */
  function FirstVersionFrom(s: string, k: nat): (v: Option<(nat, nat)>)
    requires k <= |s|
    ensures v.Some? ==> exists j :: k <= j <= |s| && VersionAt(s, j) == v
    ensures v.None? ==> forall j :: k <= j <= |s| ==> VersionAt(s, j).None?
    decreases |s| - k
  {
    if VersionAt(s, k).Some? then VersionAt(s, k)
    else if k == |s| then None
    else FirstVersionFrom(s, k + 1)
  }

  /** `stdout.match(/git version (\d+)\.(\d+)/)` with both groups read by `parseInt`. */
  function ParseVersion(stdout: string): (v: Option<(nat, nat)>)
    ensures v.None? <==> forall j :: 0 <= j <= |stdout| ==> VersionAt(stdout, j).None?
  {
    FirstVersionFrom(stdout, 0)
  }

  /** `checkGitVersion`: passes when `git --version` runs, its output names a
      version, and that version is at least 2.25; throws otherwise. */
  function CheckGitVersion(git: Oracle): (ok: bool)
    ensures ok <==> git(Version).Some? && ParseVersion(git(Version).value).Some?
                    && AtLeast(ParseVersion(git(Version).value).value, MinVersion)
  {
    match git(Version)
    case None => false
    case Some(stdout) =>
      match ParseVersion(stdout)
      case None => false
      case Some((major, minor)) => !(major < 2 || (major == 2 && minor < 25))
  }

  /** The first version banner of the output is the one the pattern reads, when
      the text before it has no `g`. */
  lemma ParseVersionOfBanner(pre: string, d1: string, d2: string, tail: string)
    requires 'g' !in pre
    requires d1 != "" && forall k :: 0 <= k < |d1| ==> IsDigit(d1[k])
    requires d2 != "" && forall k :: 0 <= k < |d2| ==> IsDigit(d2[k])
    requires tail == "" || !IsDigit(tail[0])
    ensures ParseVersion(pre + (VersionBanner + (d1 + ("." + (d2 + tail)))))
            == Some((DigitsValue(d1), DigitsValue(d2)))
  {
    var t := d1 + ("." + (d2 + tail));
    var s := pre + (VersionBanner + t);
    NumbersOfDigits(d1, d2, tail);
    VersionAtBanner(pre, t);
    SliceOfAppend(pre, VersionBanner + t);
    SkipPrefixWithoutG(s, |pre|, 0);
  }

  lemma VersionAtBanner(pre: string, t: string)
    ensures VersionAt(pre + (VersionBanner + t), |pre|) == NumbersAt(t)
  {
    var s := pre + (VersionBanner + t);
    SliceOfAppend(pre, VersionBanner + t);
    SliceOfAppend(VersionBanner, t);
    DropDrop(s, |pre|, |VersionBanner|);
  }

  lemma NumbersOfDigits(d1: string, d2: string, tail: string)
    requires d1 != "" && forall k :: 0 <= k < |d1| ==> IsDigit(d1[k])
    requires d2 != "" && forall k :: 0 <= k < |d2| ==> IsDigit(d2[k])
    requires tail == "" || !IsDigit(tail[0])
    ensures NumbersAt(d1 + ("." + (d2 + tail))) == Some((DigitsValue(d1), DigitsValue(d2)))
  {
    var rest := "." + (d2 + tail);
    var t := d1 + rest;
    assert rest[0] == '.';
    RunLengthOfDigits(d1, rest);
    SliceOfAppend(d1, rest);
    DropDrop(t, |d1|, 1);
    DropCons('.', d2 + tail);
    RunLengthOfDigits(d2, tail);
    SliceOfAppend(d2, tail);
  }

  lemma {:induction false} RunLengthOfDigits(ds: string, rest: string)
    requires forall k :: 0 <= k < |ds| ==> IsDigit(ds[k])
    requires rest == "" || !IsDigit(rest[0])
    ensures RunLength(ds + rest, IsDigit) == |ds|
    decreases |ds|
  {
    if |ds| > 0 {
      assert (ds + rest)[1..] == ds[1..] + rest;
      RunLengthOfDigits(ds[1..], rest);
    } else {
      assert ds + rest == rest;
    }
  }

  lemma {:induction false} SkipPrefixWithoutG(s: string, p: nat, k: nat)
    requires k <= p <= |s|
    requires forall j :: k <= j < p ==> s[j] != 'g'
    ensures FirstVersionFrom(s, k) == FirstVersionFrom(s, p)
    decreases p - k
  {
    if k < p {
      assert s[k..][0] == s[k];
      assert VersionAt(s, k).None?;
      SkipPrefixWithoutG(s, p, k + 1);
    }
  }

  /** Any version at least as new as an accepted one is accepted. */
  lemma AcceptanceIsMonotone(v: (nat, nat), w: (nat, nat))
    requires AtLeast(v, MinVersion)
    requires AtLeast(w, v)
    ensures AtLeast(w, MinVersion)
  {
  }

  lemma SmallNumbers()
    ensures DigitsValue("2") == 2 && DigitsValue("20") == 20 && DigitsValue("30") == 30
  {
    assert "20"[..1] == "2";
    assert "30"[..1] == "3";
  }

  /** "git version 2.30.0" passes the gate. */
  lemma VersionGateAccepts(git: Oracle)
    requires git(Version) == Some("git version 2.30.0")
    ensures CheckGitVersion(git)
  {
    assert "git version 2.30.0" == "" + (VersionBanner + ("2" + ("." + ("30" + ".0"))));
    ParseVersionOfBanner("", "2", "30", ".0");
    SmallNumbers();
  }

  /** "git version 2.20.0" does not. */
  lemma VersionGateRejects(git: Oracle)
    requires git(Version) == Some("git version 2.20.0")
    ensures !CheckGitVersion(git)
  {
    assert "git version 2.20.0" == "" + (VersionBanner + ("2" + ("." + ("20" + ".0"))));
    ParseVersionOfBanner("", "2", "20", ".0");
    SmallNumbers();
  }

  // ---------------------------------------------------------------------------
  // ls-remote output

  predicate IsHex(ch: char) {
    IsDigit(ch) || ('a' <= ch <= 'f')
  }

  /** `stdout.match(/^([a-f0-9]+)\t/)`: the run of lower-case hex digits that
      opens the output, when a tab follows it. */
  function ParseLsRemote(stdout: string): (h: Option<string>)
    ensures h.Some? ==> h.value != "" && StartsWith(stdout, h.value + "\t")
    ensures h.Some? ==> forall k :: 0 <= k < |h.value| ==> IsHex(h.value[k])
  {
    var n := RunLength(stdout, IsHex);
    if n >= 1 && n < |stdout| && stdout[n] == '\t' then
      assert stdout[..n + 1] == stdout[..n] + "\t";
      Some(stdout[..n])
    else None
  }

  /** A hash followed by a tab is always found, whatever follows. */
  lemma ParseLsRemoteOfLine(hash: string, rest: string)
    requires hash != "" && forall k :: 0 <= k < |hash| ==> IsHex(hash[k])
    ensures ParseLsRemote(hash + "\t" + rest) == Some(hash)
  {
    var s := hash + "\t" + rest;
    HexRun(hash, "\t" + rest);
    assert s == hash + ("\t" + rest);
    assert s[..|hash|] == hash;
  }

  lemma {:induction false} HexRun(hash: string, rest: string)
    requires forall k :: 0 <= k < |hash| ==> IsHex(hash[k])
    requires rest == "" || !IsHex(rest[0])
    ensures RunLength(hash + rest, IsHex) == |hash|
    decreases |hash|
  {
    if |hash| > 0 {
      assert (hash + rest)[1..] == hash[1..] + rest;
      HexRun(hash[1..], rest);
    } else {
      assert hash + rest == rest;
    }
  }

  /** `getRemoteHead(url, branch)`: the hash `git ls-remote` reports, or a throw
      (None) when the command fails or its output opens with no hash. */
  function GetRemoteHead(git: Oracle, url: string, branch: string): (h: Option<string>)
    ensures h.Some? ==> git(LsRemote(url, branch)).Some?
                        && StartsWith(git(LsRemote(url, branch)).value, h.value + "\t")
    ensures git(LsRemote(url, branch)).None? ==> h.None?
  {
    match git(LsRemote(url, branch))
    case None => None
    case Some(stdout) => ParseLsRemote(stdout)
  }

  // ---------------------------------------------------------------------------
  // getDefaultBranch

  const RefPrefix := "ref: refs/heads/"
  const DefaultBranchName := "main"

  predicate NotTabOrNewline(ch: char) {
    ch != '\t' && ch != '\n'
  }

  /** `/ref: refs\/heads\/([^\t\n]+)/` tried at position `k` only. */
  function RefAt(s: string, k: nat): (b: Option<string>)
    requires k <= |s|
    ensures b.Some? ==> b.value != "" && forall i :: 0 <= i < |b.value| ==> NotTabOrNewline(b.value[i])
  {
    if !StartsWith(s[k..], RefPrefix) then None
    else
      var t := s[k + |RefPrefix|..];
      var n := RunLength(t, NotTabOrNewline);
      if n == 0 then None else Some(t[..n])
  }

  /** The leftmost match of the symbolic-ref pattern at or after position `k`. */
  function FirstRefFrom(s: string, k: nat): (b: Option<string>)
    requires k <= |s|
    ensures b.Some? ==> exists j :: k <= j <= |s| && RefAt(s, j) == b && forall i :: k <= i < j ==> RefAt(s, i).None?
    ensures b.None? ==> forall j :: k <= j <= |s| ==> RefAt(s, j).None?
    decreases |s| - k
  {
    if RefAt(s, k).Some? then RefAt(s, k)
    else if k == |s| then None
    else
      var b := FirstRefFrom(s, k + 1);
      LeftmostRefStep(s, k, b);
      b
  }

  /** A match found from `k + 1` is still the leftmost from `k` when none starts at `k`. */
  lemma LeftmostRefStep(s: string, k: nat, b: Option<string>)
    requires k < |s| && RefAt(s, k).None?
    requires b.Some? ==> exists j :: k + 1 <= j <= |s| && RefAt(s, j) == b && forall i :: k + 1 <= i < j ==> RefAt(s, i).None?
    ensures b.Some? ==> exists j :: k <= j <= |s| && RefAt(s, j) == b && forall i :: k <= i < j ==> RefAt(s, i).None?
  {
    if b.Some? {
      var j :| k + 1 <= j <= |s| && RefAt(s, j) == b && forall i :: k + 1 <= i < j ==> RefAt(s, i).None?;
      assert forall i :: k <= i < j ==> RefAt(s, i).None?;
    }
  }

  /** `getDefaultBranch(userRepo)`: the branch HEAD points to according to
      `git ls-remote --symref`, or "main" when the command fails or names none. */
  function GetDefaultBranch(git: Oracle, userRepo: string): (b: string)
    ensures b != ""
    ensures '\t' !in b && '\n' !in b
    ensures git(LsRemoteSymref(GitHubUrl(userRepo))).None? ==> b == DefaultBranchName
    ensures git(LsRemoteSymref(GitHubUrl(userRepo))).Some? ==>
      var out := git(LsRemoteSymref(GitHubUrl(userRepo))).value;
      || (b == DefaultBranchName && forall j :: 0 <= j <= |out| ==> RefAt(out, j).None?)
      || (exists j :: 0 <= j <= |out| && RefAt(out, j) == Some(b) && forall i :: 0 <= i < j ==> RefAt(out, i).None?)
  {
    match git(LsRemoteSymref(GitHubUrl(userRepo)))
    case None => DefaultBranchName
    case Some(stdout) =>
      match FirstRefFrom(stdout, 0)
      case Some(branch) => branch
      case None => DefaultBranchName
  }

  /** When the symbolic ref is the first `r` of the output, its branch is the
      text up to the next tab or newline. */
  lemma {:induction false} DefaultBranchOfSymref(git: Oracle, userRepo: string, pre: string, branch: string, rest: string)
    requires 'r' !in pre
    requires branch != "" && forall i :: 0 <= i < |branch| ==> NotTabOrNewline(branch[i])
    requires rest == "" || !NotTabOrNewline(rest[0])
    requires git(LsRemoteSymref(GitHubUrl(userRepo))) == Some(pre + RefPrefix + branch + rest)
    ensures GetDefaultBranch(git, userRepo) == branch
  {
    var s := pre + RefPrefix + branch + rest;
    assert s[|pre|..] == RefPrefix + (branch + rest);
    assert s[|pre| + |RefPrefix|..] == branch + rest;
    RunOfNotTab(branch, rest);
    assert (branch + rest)[..|branch|] == branch;
    assert RefAt(s, |pre|) == Some(branch);
    SkipPrefixWithoutR(s, |pre|, 0);
  }

  lemma {:induction false} RunOfNotTab(b: string, rest: string)
    requires forall k :: 0 <= k < |b| ==> NotTabOrNewline(b[k])
    requires rest == "" || !NotTabOrNewline(rest[0])
    ensures RunLength(b + rest, NotTabOrNewline) == |b|
    decreases |b|
  {
    if |b| > 0 {
      assert (b + rest)[1..] == b[1..] + rest;
      RunOfNotTab(b[1..], rest);
    } else {
      assert b + rest == rest;
    }
  }

  lemma {:induction false} SkipPrefixWithoutR(s: string, p: nat, k: nat)
    requires k <= p <= |s|
    requires forall j :: k <= j < p ==> s[j] != 'r'
    ensures FirstRefFrom(s, k) == FirstRefFrom(s, p)
    decreases p - k
  {
    if k < p {
      assert s[k..][0] == s[k];
      assert RefAt(s, k).None?;
      SkipPrefixWithoutR(s, p, k + 1);
    }
  }

  // ---------------------------------------------------------------------------
  // getLocalPathCommitId / getRemotePathCommitId

  /** The commit that last touched `subPath`: the trimmed output of
      `git log -1 --format=%H [rev] -- subPath` when it is non-empty, otherwise
      the trimmed `git rev-parse` of `rev` (HEAD for the local variant); None
      when that last command fails too. */
  function PathCommit(git: Oracle, repoDir: string, rev: Option<string>, subPath: string): (c: Option<string>)
    ensures c.Some? ==>
      || (git(LogPath(repoDir, rev, subPath)).Some? && c.value == Trim(git(LogPath(repoDir, rev, subPath)).value) && c.value != "")
      || (git(RevParse(repoDir, rev.GetOr("HEAD"))).Some? && c.value == Trim(git(RevParse(repoDir, rev.GetOr("HEAD"))).value))
    ensures c.None? ==> git(RevParse(repoDir, rev.GetOr("HEAD"))).None?
  {
    var log := git(LogPath(repoDir, rev, subPath));
    if log.Some? && Trim(log.value) != "" then Some(Trim(log.value))
    else
      match git(RevParse(repoDir, rev.GetOr("HEAD")))
      case None => None
      case Some(out) => Some(Trim(out))
  }

  /** `getLocalPathCommitId(repoDir, subPath)`. */
  function LocalPathCommit(git: Oracle, repoDir: string, subPath: string): (c: Option<string>)
    ensures var log := git(LogPath(repoDir, None, subPath));
      if log.Some? && Trim(log.value) != "" then c == Some(Trim(log.value))
      else c == (match git(RevParse(repoDir, "HEAD")) case None => None case Some(out) => Some(Trim(out)))
  {
    PathCommit(git, repoDir, None, subPath)
  }

  /** `getRemotePathCommitId(repoDir, remoteBranch, subPath)`. */
  function RemotePathCommit(git: Oracle, repoDir: string, remoteBranch: string, subPath: string): (c: Option<string>)
    ensures var log := git(LogPath(repoDir, Some(remoteBranch), subPath));
      if log.Some? && Trim(log.value) != "" then c == Some(Trim(log.value))
      else c == (match git(RevParse(repoDir, remoteBranch)) case None => None case Some(out) => Some(Trim(out)))
  {
    PathCommit(git, repoDir, Some(remoteBranch), subPath)
  }

  /** A non-blank `git log` answer decides the commit: the fallback command is
      never consulted, so oracles that differ only there agree. */
  lemma PathCommitPrefersLog(git1: Oracle, git2: Oracle, repoDir: string, rev: Option<string>, subPath: string)
    requires git1(LogPath(repoDir, rev, subPath)) == git2(LogPath(repoDir, rev, subPath))
    requires git1(LogPath(repoDir, rev, subPath)).Some?
    requires Trim(git1(LogPath(repoDir, rev, subPath)).value) != ""
    ensures PathCommit(git1, repoDir, rev, subPath) == PathCommit(git2, repoDir, rev, subPath)
            == Some(Trim(git1(LogPath(repoDir, rev, subPath)).value))
  {
  }

  /** A failed or blank `git log` falls back to `git rev-parse` of the revision
      (HEAD locally), whose trimmed answer is taken as it is. */
  lemma PathCommitFallsBack(git: Oracle, repoDir: string, rev: Option<string>, subPath: string)
    requires git(LogPath(repoDir, rev, subPath)).None? || Trim(git(LogPath(repoDir, rev, subPath)).value) == ""
    ensures PathCommit(git, repoDir, rev, subPath) ==
      (match git(RevParse(repoDir, rev.GetOr("HEAD"))) case None => None case Some(out) => Some(Trim(out)))
  {
  }

  // ---------------------------------------------------------------------------
  // normalizeUrl

  /** What `normalizeUrl` returns: the URL to clone and, for a `/tree/` URL, the
      branch and the sub-path inside the repository. */
  datatype UrlInfo = UrlInfo(url: string, branch: Option<string>, path: Option<string>)

  /** The characters `.` in a JavaScript regular expression does not match. */
  predicate IsLineTerminator(ch: char) {
    ch == '\n' || ch == '\r' || ch == '\U{2028}' || ch == '\U{2029}'
  }

  predicate OnOneLine(s: string) {
    forall k :: 0 <= k < |s| ==> !IsLineTerminator(s[k])
  }

  /** `u.replace(/\.git$/, '')`: one ".git" at the very end removed. */
  function DropGitSuffix(u: string): (r: string)
    ensures EndsWith(u, ".git") ==> r + ".git" == u
    ensures !EndsWith(u, ".git") ==> r == u
  {
    if EndsWith(u, ".git") then u[..|u| - 4] else u
  }

  /** The pattern `[^/]+/` at the start of `t`: the segment and what follows its slash. */
  function TakeSegment(t: string): (r: Option<(string, string)>)
    ensures r.Some? ==> r.value.0 != "" && '/' !in r.value.0 && t == r.value.0 + "/" + r.value.1
    ensures r.None? ==> t == "" || t[0] == '/' || '/' !in t
  {
    var i := IndexOf(t, '/');
    if i == 0 || i == |t| then
      IndexOfMember(t, '/');
      None
    else
      PrefixAvoids(t, '/');
      SliceAround(t, i);
      Some((t[..i], t[i + 1..]))
  }

  lemma TakeSegmentOf(seg: string, rest: string)
    requires seg != "" && '/' !in seg
    ensures TakeSegment(seg + ("/" + rest)) == Some((seg, rest))
  {
    var t := seg + ("/" + rest);
    IndexOfAppend(seg, "/" + rest, '/');
    SliceOfAppend(seg, "/" + rest);
    DropDrop(t, |seg|, 1);
    DropCons('/', rest);
  }

  /** The segments a `/tree/` URL names: owner, repository, branch and, for a
      folder, the sub-path. */
  datatype TreeMatch = TreeMatch(owner: string, repo: string, branch: string, path: Option<string>)

  /** What `[^/]+` matches. */
  predicate Segment(s: string) {
    s != "" && '/' !in s
  }

  /** The part of the patterns after "/tree/": `([^/]+)/(.+)$`, whose sub-path
      then loses its trailing slashes, or else `([^/]+)$`. */
  function MatchBranch(t: string): (r: Option<(string, Option<string>)>)
    ensures r.Some? ==> Segment(r.value.0)
    ensures r.Some? && r.value.1.Some? ==> r.value.1.value == "" || r.value.1.value[|r.value.1.value| - 1] != '/'
  {
    match TakeSegment(t)
    case Some((branch, rest)) =>
      if rest != "" && OnOneLine(rest) then Some((branch, Some(TrimEnd(rest, '/')))) else None
    case None =>
      if t != "" && '/' !in t then Some((t, None)) else None
  }

  /** The two patterns `normalizeUrl` tries on the cleaned URL, first
      `^(https://github.com/[^/]+/[^/]+)/tree/([^/]+)/(.+)$`, then
      `^(https://github.com/[^/]+/[^/]+)/tree/([^/]+)$`. A segment class excludes
      only "/", so a match reads the segments left to right; `.` excludes line
      terminators, so a sub-path spanning lines matches neither. */
  function MatchTree(u: string): (r: Option<TreeMatch>)
    ensures r.Some? ==> Segment(r.value.owner) && Segment(r.value.repo) && Segment(r.value.branch)
    ensures r.Some? && r.value.path.Some? ==> r.value.path.value == "" || r.value.path.value[|r.value.path.value| - 1] != '/'
  {
    if !StartsWith(u, GitHubPrefix) then None
    else
      var t := u[|GitHubPrefix|..];
      match TakeSegment(t)
      case None => None
      case Some((owner, t1)) =>
        match TakeSegment(t1)
        case None => None
        case Some((repo, t2)) =>
          if !StartsWith(t2, "tree/") then None
          else
            match MatchBranch(t2[5..])
            case None => None
            case Some((branch, path)) => Some(TreeMatch(owner, repo, branch, path))
  }

  /** The owner and repository a pattern reads are pieces of the URL, so a
      character the URL lacks they lack too. */
  lemma MatchTreeAvoids(u: string, ch: char)
    requires ch !in u
    ensures MatchTree(u).Some? ==> ch !in MatchTree(u).value.owner && ch !in MatchTree(u).value.repo
  {
    if StartsWith(u, GitHubPrefix) {
      var t := u[|GitHubPrefix|..];
      SliceAvoids(u, ch, |GitHubPrefix|, |u|);
      SegmentAvoids(t, ch);
      if TakeSegment(t).Some? {
        SegmentAvoids(TakeSegment(t).value.1, ch);
      }
    }
  }

  lemma SegmentAvoids(t: string, ch: char)
    requires ch !in t
    ensures TakeSegment(t).Some? ==> ch !in TakeSegment(t).value.0 && ch !in TakeSegment(t).value.1
  {
  }

  /** The shape of `https://github.com/${userRepo}.git`. */
  lemma GitHubUrlShape(userRepo: string)
    ensures StartsWith(GitHubUrl(userRepo), GitHubPrefix) && EndsWith(GitHubUrl(userRepo), ".git")
    ensures '?' !in userRepo ==> '?' !in GitHubUrl(userRepo)
    ensures '#' !in userRepo ==> '#' !in GitHubUrl(userRepo)
  {
    SliceOfAppend(GitHubPrefix + userRepo, ".git");
    AppendAssoc(GitHubPrefix, userRepo, ".git");
    SliceOfAppend(GitHubPrefix, userRepo + ".git");
  }

  /** The clone URL and what the URL names; the cleaned URL with ".git"
      appended when neither pattern matches. */
  function NormalizeWith(u: string): (info: UrlInfo)
    ensures info.path.Some? ==> info.branch.Some?
    ensures info.branch.None? ==> info.url == u + ".git"
  {
    match MatchTree(u)
    case Some(m) => UrlInfo(GitHubUrl(m.owner + "/" + m.repo), Some(m.branch), m.path)
    case None => UrlInfo(u + ".git", None, None)
  }

  /** The clean-up of `normalizeUrl`, in the order the code applies it: the
      trailing slashes first, then the query, then the fragment, then one ".git".
      A slash in front of a query or fragment is therefore not trailing when the
      slashes are trimmed, and stays. */
  function Clean(input: string): (u: string)
    ensures '?' !in u && '#' !in u
  {
    DropGitSuffix(Before(Before(TrimEnd(input, '/'), '?'), '#'))
  }

  /** `normalizeUrl(inputUrl)`: the clone URL, with the branch and sub-path of a
      `/tree/` URL. The URL always ends in ".git" and carries no query or
      fragment; a branch is one non-empty segment; a sub-path comes only with a
      branch and has no trailing slash. */
  function NormalizeUrl(input: string): (info: UrlInfo)
    ensures EndsWith(info.url, ".git")
    ensures '?' !in info.url && '#' !in info.url
    ensures info.path.Some? ==> info.branch.Some?
    ensures info.branch.Some? ==> info.branch.value != "" && '/' !in info.branch.value && StartsWith(info.url, GitHubPrefix)
    ensures info.path.Some? ==> info.path.value == "" || info.path.value[|info.path.value| - 1] != '/'
  {
    var u := Clean(input);
    NormalizeShape(u);
    NormalizeWith(u)
  }

  lemma NormalizeShape(u: string)
    requires '?' !in u && '#' !in u
    ensures EndsWith(NormalizeWith(u).url, ".git")
    ensures '?' !in NormalizeWith(u).url && '#' !in NormalizeWith(u).url
    ensures NormalizeWith(u).branch.Some? ==> StartsWith(NormalizeWith(u).url, GitHubPrefix)
  {
    if MatchTree(u).Some? {
      NormalizeMatched(u);
    } else {
      NormalizeUnmatched(u);
    }
  }

  /** A cleaned URL that matches a `/tree/` pattern gives a GitHub clone URL. */
  lemma NormalizeMatched(u: string)
    requires '?' !in u && '#' !in u && MatchTree(u).Some?
    ensures var info := NormalizeWith(u);
      && EndsWith(info.url, ".git") && StartsWith(info.url, GitHubPrefix)
      && '?' !in info.url && '#' !in info.url
  {
    var m := MatchTree(u).value;
    MatchTreeAvoids(u, '?');
    MatchTreeAvoids(u, '#');
    AppendAvoids(m.owner, "/", '?');
    AppendAvoids(m.owner + "/", m.repo, '?');
    AppendAvoids(m.owner, "/", '#');
    AppendAvoids(m.owner + "/", m.repo, '#');
    GitHubUrlShape(m.owner + "/" + m.repo);
  }

  /** A cleaned URL that matches neither pattern gets ".git" appended. */
  lemma NormalizeUnmatched(u: string)
    requires '?' !in u && '#' !in u && MatchTree(u).None?
    ensures var info := NormalizeWith(u);
      && EndsWith(info.url, ".git")
      && '?' !in info.url && '#' !in info.url
  {
    EndsWithOwn(u, ".git");
    AppendAvoids(u, ".git", '?');
    AppendAvoids(u, ".git", '#');
  }

  /** The address GitHub shows for a repository. */
  function RepoWebUrl(owner: string, repo: string): string {
    GitHubPrefix + (owner + ("/" + repo))
  }

  /** The address GitHub shows for a folder on a branch. */
  function TreeWebUrl(owner: string, repo: string, branch: string, path: string): string {
    RepoWebUrl(owner, repo + ("/tree/" + (branch + ("/" + path))))
  }

  /** The address GitHub shows for the top folder of a branch. */
  function BranchWebUrl(owner: string, repo: string, branch: string): string {
    RepoWebUrl(owner, repo + ("/tree/" + branch))
  }

  /** A path segment that survives the clean-up: non-empty, no "/", "?" or "#". */
  predicate PlainSegment(s: string) {
    s != "" && '/' !in s && '?' !in s && '#' !in s
  }

  predicate SlashRun(sl: string) {
    forall k :: 0 <= k < |sl| ==> sl[k] == '/'
  }

  /** A query or a fragment, or nothing. */
  predicate QueryOrFragment(q: string) {
    q == "" || q[0] == '?' || q[0] == '#'
  }

  /** The trailing slashes the clean-up leaves: those a query or fragment followed. */
  function KeptSlashes(sl: string, q: string): string {
    if q == "" then "" else sl
  }

  lemma BeforeQuery(q: string)
    requires QueryOrFragment(q)
    ensures Before(Before(q, '?'), '#') == ""
  {
  }

  /** An address ending in "/" has no ".git" to drop. */
  lemma SlashEndKeepsAll(x: string)
    requires x != "" && x[|x| - 1] == '/'
    ensures DropGitSuffix(x) == x
  {
  }

  /** A plain address followed by slashes and a query or fragment: the query
      and fragment go, and the slashes go only when nothing followed them. */
  lemma CleanBody(body: string, sl: string, q: string)
    requires body != "" && body[|body| - 1] != '/' && '?' !in body && '#' !in body
    requires SlashRun(sl) && QueryOrFragment(q)
    ensures Before(Before(TrimEnd(body + sl + q, '/'), '?'), '#') == body + KeptSlashes(sl, q)
  {
    if q == "" {
      assert body + sl + q == body + sl;
      TrimEndRun(body, sl, '/');
      BeforeAppend(body, "", '?');
      BeforeAppend(body, "", '#');
      assert body + "" == body;
    } else {
      var q1 := TrimEnd(q, '/');
      TrimEndAppend(body + sl, q, '/');
      assert q1 != "" && q1[0] == q[0];
      assert '?' !in sl && '#' !in sl;
      AppendAvoids(body, sl, '?');
      AppendAvoids(body, sl, '#');
      BeforeAppend(body + sl, q1, '?');
      BeforeAppend(body + sl, Before(q1, '?'), '#');
      BeforeQuery(q1);
      assert body + sl + "" == body + sl;
    }
  }

  /** A folder address is its text up to the branch, a slash, and the sub-path. */
  lemma TreeWebUrlEnd(owner: string, repo: string, branch: string, path: string)
    ensures TreeWebUrl(owner, repo, branch, path)
         == GitHubPrefix + (owner + ("/" + (repo + ("/tree/" + branch)))) + ("/" + path)
  {
    var p := "/" + path;
    AppendAssoc("/tree/", branch, p);
    AppendAssoc(repo, "/tree/" + branch, p);
    AppendAssoc("/", repo + ("/tree/" + branch), p);
    AppendAssoc(owner, "/" + (repo + ("/tree/" + branch)), p);
    AppendAssoc(GitHubPrefix, owner + ("/" + (repo + ("/tree/" + branch))), p);
  }

  /** Text after a folder address extends its sub-path. */
  lemma TreeWebUrlExtend(owner: string, repo: string, branch: string, path: string, x: string)
    ensures TreeWebUrl(owner, repo, branch, path) + x == TreeWebUrl(owner, repo, branch, path + x)
  {
    var head := GitHubPrefix + (owner + ("/" + (repo + ("/tree/" + branch))));
    TreeWebUrlEnd(owner, repo, branch, path);
    TreeWebUrlEnd(owner, repo, branch, path + x);
    AppendAssoc(head, "/" + path, x);
    AppendAssoc("/", path, x);
  }

  /** Text after a repository address extends the repository part. */
  lemma RepoWebUrlExtend(owner: string, repo: string, x: string)
    ensures RepoWebUrl(owner, repo) + x == RepoWebUrl(owner, repo + x)
  {
    AppendAssoc("/", repo, x);
    AppendAssoc(owner, "/" + repo, x);
    AppendAssoc(GitHubPrefix, owner + ("/" + repo), x);
  }

  /** A folder address contains "?" or "#" only where its parts do. */
  lemma TreeWebUrlAvoids(owner: string, repo: string, branch: string, path: string, ch: char)
    requires ch == '?' || ch == '#'
    requires ch !in owner && ch !in repo && ch !in branch && ch !in path
    ensures ch !in TreeWebUrl(owner, repo, branch, path)
  {
    AppendAvoids("/", path, ch);
    AppendAvoids(branch, "/" + path, ch);
    AppendAvoids("/tree/", branch + ("/" + path), ch);
    AppendAvoids(repo, "/tree/" + (branch + ("/" + path)), ch);
    AppendAvoids("/", repo + ("/tree/" + (branch + ("/" + path))), ch);
    AppendAvoids(owner, "/" + (repo + ("/tree/" + (branch + ("/" + path)))), ch);
    AppendAvoids(GitHubPrefix, owner + ("/" + (repo + ("/tree/" + (branch + ("/" + path))))), ch);
  }

  lemma RepoWebUrlAvoids(owner: string, repo: string, ch: char)
    requires ch == '?' || ch == '#'
    requires ch !in owner && ch !in repo
    ensures ch !in RepoWebUrl(owner, repo)
  {
    AppendAvoids("/", repo, ch);
    AppendAvoids(owner, "/" + repo, ch);
    AppendAvoids(GitHubPrefix, owner + ("/" + repo), ch);
  }

  /** The clean-up of a folder address loses its query and fragment, and its
      trailing slashes unless a query or fragment followed them. */
  lemma CleanTree(owner: string, repo: string, branch: string, path: string, sl: string, q: string)
    requires PlainSegment(owner) && PlainSegment(repo) && PlainSegment(branch)
    requires path != "" && path[|path| - 1] != '/' && '?' !in path && '#' !in path
    requires !EndsWith(path, ".git")
    requires SlashRun(sl) && QueryOrFragment(q)
    ensures Clean(TreeWebUrl(owner, repo, branch, path) + sl + q)
         == TreeWebUrl(owner, repo, branch, path) + KeptSlashes(sl, q)
  {
    var w := TreeWebUrl(owner, repo, branch, path);
    var head := GitHubPrefix + (owner + ("/" + (repo + ("/tree/" + branch))));
    TreeWebUrlEnd(owner, repo, branch, path);
    TreeWebUrlAvoids(owner, repo, branch, path, '?');
    TreeWebUrlAvoids(owner, repo, branch, path, '#');
    assert w[|w| - 1] == path[|path| - 1];
    CleanBody(w, sl, q);
    var kept := KeptSlashes(sl, q);
    if kept == "" {
      assert w + kept == w;
      EndsWithAfter(head, path, '/', ".git");
    } else {
      SlashEndKeepsAll(w + kept);
    }
  }

  /** After "/tree/", a branch and a non-empty sub-path read back as the branch
      and the sub-path without its trailing slashes; an empty sub-path matches
      neither pattern. */
  lemma MatchBranchOfPath(branch: string, path: string)
    requires Segment(branch) && OnOneLine(path)
    ensures MatchBranch(branch + ("/" + path))
         == if path == "" then None else Some((branch, Some(TrimEnd(path, '/'))))
  {
    TakeSegmentOf(branch, path);
  }

  /** The repository part of an address: prefix, owner and repository read as
      segments, leaving what follows the repository's "/". */
  lemma ReadOwnerRepo(owner: string, repo: string, rest: string)
    requires Segment(owner) && Segment(repo)
    ensures var u := GitHubPrefix + (owner + ("/" + (repo + ("/" + rest))));
      && StartsWith(u, GitHubPrefix)
      && TakeSegment(u[|GitHubPrefix|..]) == Some((owner, repo + ("/" + rest)))
      && TakeSegment(repo + ("/" + rest)) == Some((repo, rest))
  {
    SliceOfAppend(GitHubPrefix, owner + ("/" + (repo + ("/" + rest))));
    TakeSegmentOf(owner, repo + ("/" + rest));
    TakeSegmentOf(repo, rest);
  }

  /** The patterns read a folder address back into its parts. */
  lemma MatchTreeOfTree(owner: string, repo: string, branch: string, path: string)
    requires Segment(owner) && Segment(repo) && Segment(branch) && OnOneLine(path)
    ensures MatchTree(TreeWebUrl(owner, repo, branch, path))
         == if path == "" then None else Some(TreeMatch(owner, repo, branch, Some(TrimEnd(path, '/'))))
  {
    var tail := branch + ("/" + path);
    var t2 := "tree/" + tail;
    assert "/tree/" + tail == "/" + t2;
    assert TreeWebUrl(owner, repo, branch, path) == GitHubPrefix + (owner + ("/" + (repo + ("/" + t2))));
    ReadOwnerRepo(owner, repo, t2);
    SliceOfAppend("tree/", tail);
    assert StartsWith(t2, "tree/") && t2[5..] == tail;
    MatchBranchOfPath(branch, path);
  }

  /** A folder address, with any trailing slashes, query or fragment, yields its
      repository, branch and sub-path. */
  lemma NormalizeTreePath(owner: string, repo: string, branch: string, path: string, sl: string, q: string)
    requires PlainSegment(owner) && PlainSegment(repo) && PlainSegment(branch)
    requires path != "" && path[|path| - 1] != '/' && '?' !in path && '#' !in path
    requires OnOneLine(path) && !EndsWith(path, ".git")
    requires SlashRun(sl) && QueryOrFragment(q)
    ensures NormalizeUrl(TreeWebUrl(owner, repo, branch, path) + sl + q)
         == UrlInfo(GitHubUrl(owner + "/" + repo), Some(branch), Some(path))
  {
    var kept := KeptSlashes(sl, q);
    CleanTree(owner, repo, branch, path, sl, q);
    TreeWebUrlExtend(owner, repo, branch, path, kept);
    assert SlashRun(kept);
    assert OnOneLine(path + kept);
    MatchTreeOfTree(owner, repo, branch, path + kept);
    TrimEndRun(path, kept, '/');
  }

  lemma BranchWebUrlEnd(owner: string, repo: string, branch: string)
    ensures BranchWebUrl(owner, repo, branch) == GitHubPrefix + (owner + ("/" + (repo + "/tree"))) + ("/" + branch)
  {
    var b := "/" + branch;
    AppendAssoc("/tree", "/", branch);
    AppendAssoc(repo, "/tree", b);
    AppendAssoc("/", repo + "/tree", b);
    AppendAssoc(owner, "/" + (repo + "/tree"), b);
    AppendAssoc(GitHubPrefix, owner + ("/" + (repo + "/tree")), b);
  }

  /** Slashes after a branch address make it a folder address. */
  lemma BranchWebUrlSlashes(owner: string, repo: string, branch: string, sl: string)
    requires sl != "" && sl[0] == '/'
    ensures BranchWebUrl(owner, repo, branch) + sl == TreeWebUrl(owner, repo, branch, sl[1..])
  {
    TreeWebUrlEnd(owner, repo, branch, sl[1..]);
    assert sl == "/" + sl[1..];
  }

  lemma CleanBranch(owner: string, repo: string, branch: string, sl: string, q: string)
    requires PlainSegment(owner) && PlainSegment(repo) && PlainSegment(branch) && !EndsWith(branch, ".git")
    requires SlashRun(sl) && QueryOrFragment(q)
    ensures Clean(BranchWebUrl(owner, repo, branch) + sl + q) == BranchWebUrl(owner, repo, branch) + KeptSlashes(sl, q)
  {
    var w := BranchWebUrl(owner, repo, branch);
    BranchWebUrlEnd(owner, repo, branch);
    AppendAvoids("/tree/", branch, '?');
    AppendAvoids("/tree/", branch, '#');
    AppendAvoids(repo, "/tree/" + branch, '?');
    AppendAvoids(repo, "/tree/" + branch, '#');
    RepoWebUrlAvoids(owner, repo + ("/tree/" + branch), '?');
    RepoWebUrlAvoids(owner, repo + ("/tree/" + branch), '#');
    assert w[|w| - 1] == branch[|branch| - 1];
    CleanBody(w, sl, q);
    var kept := KeptSlashes(sl, q);
    if kept == "" {
      assert w + kept == w;
      EndsWithAfter(GitHubPrefix + (owner + ("/" + (repo + "/tree"))), branch, '/', ".git");
    } else {
      SlashEndKeepsAll(w + kept);
    }
  }

  lemma MatchTreeOfBranch(owner: string, repo: string, branch: string)
    requires Segment(owner) && Segment(repo) && Segment(branch)
    ensures MatchTree(BranchWebUrl(owner, repo, branch)) == Some(TreeMatch(owner, repo, branch, None))
  {
    var t2 := "tree/" + branch;
    assert "/tree/" + branch == "/" + t2;
    assert BranchWebUrl(owner, repo, branch) == GitHubPrefix + (owner + ("/" + (repo + ("/" + t2))));
    ReadOwnerRepo(owner, repo, t2);
    SliceOfAppend("tree/", branch);
    assert StartsWith(t2, "tree/") && t2[5..] == branch;
    IndexOfMember(branch, '/');
    assert MatchBranch(branch) == Some((branch, None));
  }

  /** A branch address followed by one slash matches neither pattern; followed
      by more, it reads as an empty sub-path. */
  lemma MatchTreeOfBranchSlashes(owner: string, repo: string, branch: string, sl: string)
    requires Segment(owner) && Segment(repo) && Segment(branch)
    requires sl != "" && SlashRun(sl)
    ensures MatchTree(BranchWebUrl(owner, repo, branch) + sl)
         == if |sl| == 1 then None else Some(TreeMatch(owner, repo, branch, Some("")))
  {
    var rest := sl[1..];
    BranchWebUrlSlashes(owner, repo, branch, sl);
    assert OnOneLine(rest);
    MatchTreeOfTree(owner, repo, branch, rest);
    if |sl| > 1 {
      TrimEndRun("", rest, '/');
      assert "" + rest == rest;
    }
  }

  lemma NormalizeBranchSlashes(owner: string, repo: string, branch: string, sl: string)
    requires Segment(owner) && Segment(repo) && Segment(branch)
    requires sl != "" && SlashRun(sl)
    ensures NormalizeWith(BranchWebUrl(owner, repo, branch) + sl)
         == if |sl| == 1 then UrlInfo(BranchWebUrl(owner, repo, branch) + "/.git", None, None)
            else UrlInfo(GitHubUrl(owner + "/" + repo), Some(branch), Some(""))
  {
    MatchTreeOfBranchSlashes(owner, repo, branch, sl);
    if |sl| == 1 {
      assert sl == "/";
      AppendAssoc(BranchWebUrl(owner, repo, branch), "/", ".git");
    }
  }

  /** The top folder of a branch. With trailing slashes alone, or a query or
      fragment alone, it yields its repository and branch and no sub-path. A
      single slash kept in front of a query or fragment matches neither pattern,
      so the cleaned address itself becomes the clone URL; two or more read as
      an empty sub-path. */
  lemma NormalizeTreeBranch(owner: string, repo: string, branch: string, sl: string, q: string)
    requires PlainSegment(owner) && PlainSegment(repo) && PlainSegment(branch) && !EndsWith(branch, ".git")
    requires SlashRun(sl) && QueryOrFragment(q)
    ensures NormalizeUrl(BranchWebUrl(owner, repo, branch) + sl + q)
         == if sl == "" || q == "" then UrlInfo(GitHubUrl(owner + "/" + repo), Some(branch), None)
            else if |sl| == 1 then UrlInfo(BranchWebUrl(owner, repo, branch) + "/.git", None, None)
            else UrlInfo(GitHubUrl(owner + "/" + repo), Some(branch), Some(""))
  {
    var w := BranchWebUrl(owner, repo, branch);
    CleanBranch(owner, repo, branch, sl, q);
    if sl == "" || q == "" {
      assert w + KeptSlashes(sl, q) == w;
      MatchTreeOfBranch(owner, repo, branch);
    } else {
      NormalizeBranchSlashes(owner, repo, branch, sl);
    }
  }

  lemma CleanRoot(owner: string, repo: string, g: string, sl: string, q: string)
    requires PlainSegment(owner) && PlainSegment(repo) && !EndsWith(repo, ".git")
    requires g == "" || g == ".git"
    requires SlashRun(sl) && QueryOrFragment(q)
    ensures Clean(RepoWebUrl(owner, repo) + g + sl + q)
         == if sl == "" || q == "" then RepoWebUrl(owner, repo) else RepoWebUrl(owner, repo) + g + sl
  {
    var w := RepoWebUrl(owner, repo);
    RepoWebUrlAvoids(owner, repo, '?');
    RepoWebUrlAvoids(owner, repo, '#');
    AppendAvoids(w, g, '?');
    AppendAvoids(w, g, '#');
    if g == "" {
      assert w + g == w;
      assert w[|w| - 1] == repo[|repo| - 1];
    }
    CleanBody(w + g, sl, q);
    var kept := KeptSlashes(sl, q);
    if kept == "" {
      assert w + g + kept == w + g;
      if g == "" {
        AppendAssoc(GitHubPrefix, owner, "/" + repo);
        EndsWithAfter(GitHubPrefix + owner, repo, '/', ".git");
      } else {
        EndsWithOwn(w, ".git");
        SliceOfAppend(w, ".git");
      }
    } else {
      SlashEndKeepsAll(w + g + kept);
    }
  }

  lemma MatchTreeOfRoot(owner: string, repo: string)
    requires Segment(owner) && Segment(repo)
    ensures MatchTree(RepoWebUrl(owner, repo)).None?
  {
    SliceOfAppend(GitHubPrefix, owner + ("/" + repo));
    TakeSegmentOf(owner, repo);
    IndexOfMember(repo, '/');
  }

  /** A run of slashes does not start with "tree/". */
  lemma SlashesNotTree(t: string)
    requires SlashRun(t)
    ensures !StartsWith(t, "tree/")
  {
    if |t| >= 5 {
      assert t[..5][0] == '/';
    }
  }

  /** A repository address followed by slashes matches neither pattern. */
  lemma MatchTreeOfRootSlashes(owner: string, repo: string, sl: string)
    requires Segment(owner) && Segment(repo)
    requires sl != "" && SlashRun(sl)
    ensures MatchTree(RepoWebUrl(owner, repo) + sl).None?
  {
    var t := sl[1..];
    RepoWebUrlExtend(owner, repo, sl);
    assert sl == "/" + t;
    ReadOwnerRepo(owner, repo, t);
    SlashesNotTree(t);
  }

  /** A repository address, with or without ".git". With trailing slashes alone,
      or a query or fragment alone, it yields its clone URL and no branch. Slashes
      kept in front of a query or fragment match neither pattern, so the
      cleaned address itself, slashes included, becomes the clone URL. */
  lemma NormalizeRoot(owner: string, repo: string, g: string, sl: string, q: string)
    requires PlainSegment(owner) && PlainSegment(repo) && !EndsWith(repo, ".git")
    requires g == "" || g == ".git"
    requires SlashRun(sl) && QueryOrFragment(q)
    ensures NormalizeUrl(RepoWebUrl(owner, repo) + g + sl + q)
         == if sl == "" || q == "" then UrlInfo(GitHubUrl(owner + "/" + repo), None, None)
            else UrlInfo(RepoWebUrl(owner, repo) + g + sl + ".git", None, None)
  {
    CleanRoot(owner, repo, g, sl, q);
    if sl == "" || q == "" {
      MatchTreeOfRoot(owner, repo);
      AppendAssoc(owner, "/", repo);
    } else {
      RepoWebUrlExtend(owner, repo, g);
      assert Segment(repo + g);
      MatchTreeOfRootSlashes(owner, repo + g, sl);
    }
  }

  /** A repository address with a slash in front of its query clones a URL
      ending in "/.git". */
  lemma AsWrittenKeepsSlashBeforeQuery(owner: string, repo: string)
    requires PlainSegment(owner) && PlainSegment(repo) && !EndsWith(repo, ".git")
    ensures NormalizeUrl(RepoWebUrl(owner, repo) + "/?tab=readme") == UrlInfo(RepoWebUrl(owner, repo) + "/.git", None, None)
  {
    var w := RepoWebUrl(owner, repo);
    SlashQueryAddress(w);
    NormalizeRoot(owner, repo, "", "/", "?tab=readme");
  }

  lemma SlashQueryAddress(w: string)
    ensures w + "" + "/" + "?tab=readme" == w + "/?tab=readme"
    ensures w + "" + "/" + ".git" == w + "/.git"
  {
    assert w + "" == w;
    assert "/" + "?tab=readme" == "/?tab=readme";
    AppendAssoc(w, "/", "?tab=readme");
    assert "/" + ".git" == "/.git";
    AppendAssoc(w, "/", ".git");
  }

  /** The clean-up with the query and the fragment removed before the trailing
      slashes, so that a slash in front of "?" or "#" goes too. */
  function CleanQueryFirst(input: string): (u: string)
    ensures '?' !in u && '#' !in u
  {
    DropGitSuffix(TrimEnd(Before(Before(input, '?'), '#'), '/'))
  }

  /** `normalizeUrl` with that clean-up. */
  function NormalizeUrlCorrected(input: string): (info: UrlInfo)
    ensures EndsWith(info.url, ".git")
    ensures '?' !in info.url && '#' !in info.url
    ensures info.path.Some? ==> info.branch.Some?
  {
    var u := CleanQueryFirst(input);
    NormalizeShape(u);
    NormalizeWith(u)
  }

  /** Query first: trailing slashes, a query and a fragment after a plain address all go. */
  lemma CleanBodyQueryFirst(body: string, sl: string, q: string)
    requires body != "" && body[|body| - 1] != '/' && '?' !in body && '#' !in body
    requires SlashRun(sl) && QueryOrFragment(q)
    ensures TrimEnd(Before(Before(body + sl + q, '?'), '#'), '/') == body
  {
    var q1 := Before(q, '?');
    BeforeAppend(body + sl, q, '?');
    BeforeAppend(body + sl, q1, '#');
    BeforeQuery(q);
    assert body + sl + "" == body + sl;
    TrimEndRun(body, sl, '/');
  }

  lemma CleanRootQueryFirst(owner: string, repo: string, g: string, sl: string, q: string)
    requires PlainSegment(owner) && PlainSegment(repo) && !EndsWith(repo, ".git")
    requires g == "" || g == ".git"
    requires SlashRun(sl) && QueryOrFragment(q)
    ensures CleanQueryFirst(RepoWebUrl(owner, repo) + g + sl + q) == RepoWebUrl(owner, repo)
  {
    var w := RepoWebUrl(owner, repo);
    RepoWebUrlAvoids(owner, repo, '?');
    RepoWebUrlAvoids(owner, repo, '#');
    AppendAvoids(w, g, '?');
    AppendAvoids(w, g, '#');
    if g == "" {
      assert w + g == w;
      assert w[|w| - 1] == repo[|repo| - 1];
      CleanBodyQueryFirst(w, sl, q);
      AppendAssoc(GitHubPrefix, owner, "/" + repo);
      EndsWithAfter(GitHubPrefix + owner, repo, '/', ".git");
    } else {
      CleanBodyQueryFirst(w + g, sl, q);
      EndsWithOwn(w, ".git");
      SliceOfAppend(w, ".git");
    }
  }

  /** Query first, every repository address, with or without ".git", trailing
      slashes, a query or a fragment, in any combination, yields its clone URL. */
  lemma RootNormalizedQueryFirst(owner: string, repo: string, g: string, sl: string, q: string)
    requires PlainSegment(owner) && PlainSegment(repo) && !EndsWith(repo, ".git")
    requires g == "" || g == ".git"
    requires SlashRun(sl) && QueryOrFragment(q)
    ensures NormalizeUrlCorrected(RepoWebUrl(owner, repo) + g + sl + q) == UrlInfo(GitHubUrl(owner + "/" + repo), None, None)
  {
    CleanRootQueryFirst(owner, repo, g, sl, q);
    MatchTreeOfRoot(owner, repo);
    AppendAssoc(owner, "/", repo);
  }

  /** Query first, a slash in front of the query goes too, and the address gives the repository's clone URL. */
  lemma SlashBeforeQueryNormalized(owner: string, repo: string)
    requires PlainSegment(owner) && PlainSegment(repo) && !EndsWith(repo, ".git")
    ensures NormalizeUrlCorrected(RepoWebUrl(owner, repo) + "/?tab=readme") == UrlInfo(GitHubUrl(owner + "/" + repo), None, None)
  {
    var w := RepoWebUrl(owner, repo);
    assert w + "/?tab=readme" == w + "" + "/" + "?tab=readme";
    RootNormalizedQueryFirst(owner, repo, "", "/", "?tab=readme");
  }

  lemma FolderExampleSegments()
    ensures PlainSegment("anthropics") && PlainSegment("skills") && PlainSegment("main")
    ensures OnOneLine("skills/xlsx") && !EndsWith("skills/xlsx", ".git") && '?' !in "skills/xlsx" && '#' !in "skills/xlsx"
    ensures SlashRun("/") && QueryOrFragment("?a=2")
  {
  }

  lemma FolderExampleCloneUrl()
    ensures GitHubUrl("anthropics" + "/" + "skills") == "https://github.com/anthropics/skills.git"
  {
  }

  /** A folder address with a trailing slash and a query, as in the tests of
      normalizeUrl: https://github.com/anthropics/skills/tree/main/skills/xlsx/?a=2 */
  lemma NormalizeFolderExample()
    ensures NormalizeUrl(TreeWebUrl("anthropics", "skills", "main", "skills/xlsx") + "/" + "?a=2")
         == UrlInfo("https://github.com/anthropics/skills.git", Some("main"), Some("skills/xlsx"))
  {
    FolderExampleSegments();
    FolderExampleCloneUrl();
    NormalizeTreePath("anthropics", "skills", "main", "skills/xlsx", "/", "?a=2");
  }

  lemma BranchExampleSegments()
    ensures PlainSegment("blader") && PlainSegment("humanizer") && PlainSegment("main") && !EndsWith("main", ".git")
    ensures SlashRun("") && QueryOrFragment("")
  {
  }

  lemma BranchExampleAddress()
    ensures BranchWebUrl("blader", "humanizer", "main") + "" + "" == "https://github.com/blader/humanizer/tree/main"
  {
  }

  lemma BranchExampleCloneUrl()
    ensures GitHubUrl("blader" + "/" + "humanizer") == "https://github.com/blader/humanizer.git"
  {
  }

  /** The top folder of a branch, as in the tests of normalizeUrl. */
  lemma NormalizeBranchExample()
    ensures NormalizeUrl("https://github.com/blader/humanizer/tree/main")
         == UrlInfo("https://github.com/blader/humanizer.git", Some("main"), None)
  {
    BranchExampleSegments();
    BranchExampleAddress();
    BranchExampleCloneUrl();
    NormalizeTreeBranch("blader", "humanizer", "main", "", "");
  }

  lemma RootExampleSegments()
    ensures PlainSegment("user") && PlainSegment("repo") && !EndsWith("repo", ".git")
    ensures SlashRun("") && SlashRun("///") && QueryOrFragment("") && QueryOrFragment("#readme")
  {
  }

  lemma RootExampleAddresses()
    ensures RepoWebUrl("user", "repo") + ".git" + "" + "" == "https://github.com/user/repo.git"
    ensures RepoWebUrl("user", "repo") + "" + "///" + "" == "https://github.com/user/repo///"
    ensures RepoWebUrl("user", "repo") + "" + "" + "#readme" == "https://github.com/user/repo#readme"
    ensures GitHubUrl("user" + "/" + "repo") == "https://github.com/user/repo.git"
  {
  }

  /** Repository addresses with ".git", several trailing slashes or a fragment,
      as in the tests of normalizeUrl. */
  lemma NormalizeRootExamples()
    ensures NormalizeUrl("https://github.com/user/repo.git").url == "https://github.com/user/repo.git"
    ensures NormalizeUrl("https://github.com/user/repo///").url == "https://github.com/user/repo.git"
    ensures NormalizeUrl("https://github.com/user/repo#readme").url == "https://github.com/user/repo.git"
  {
    RootExampleSegments();
    RootExampleAddresses();
    NormalizeRoot("user", "repo", ".git", "", "");
    NormalizeRoot("user", "repo", "", "///", "");
    NormalizeRoot("user", "repo", "", "", "#readme");
  }

  // ---------------------------------------------------------------------------
  // cloneFull / cloneSparse / pull / fetch

  /** Commands run one after another, stopping at the first failure: the run
      succeeds exactly when every command does. */
  function RunAll(git: Oracle, cmds: seq<GitCmd>): (ok: bool)
    ensures ok <==> forall i :: 0 <= i < |cmds| ==> git(cmds[i]).Some?
  {
    if |cmds| == 0 then true
    else git(cmds[0]).Some? && RunAll(git, cmds[1..])
  }

  /** The commands of `cloneSparse(url, dest, subPath, branch)`: a blob-less clone
      without checkout, cone-mode sparse checkout of `subPath`, then the branch. */
  function CloneSparseSteps(url: string, dest: string, subPath: string, branch: string): seq<GitCmd> {
    [CloneBlobless(url, dest), SparseInit(dest), SparseSet(dest, subPath), Checkout(dest, branch)]
  }

  /** `cloneSparse` succeeds when all four commands do; the checkout of the
      branch comes last, after the sparse set-up inside `dest`. */
  function CloneSparse(git: Oracle, url: string, dest: string, subPath: string, branch: string): (ok: bool)
    ensures ok <==> git(CloneBlobless(url, dest)).Some? && git(SparseInit(dest)).Some?
                    && git(SparseSet(dest, subPath)).Some? && git(Checkout(dest, branch)).Some?
  {
    var steps := CloneSparseSteps(url, dest, subPath, branch);
    assert steps[0] == CloneBlobless(url, dest) && steps[1] == SparseInit(dest);
    assert steps[2] == SparseSet(dest, subPath) && steps[3] == Checkout(dest, branch);
    RunAll(git, steps)
  }

  // ---------------------------------------------------------------------------
  // checkRemoteSkillMd

  const ManifestName := "SKILL.md"

  /** Where a skill's manifest sits in its repository:
      `subPath ? `${subPath}/SKILL.md` : 'SKILL.md'`. */
  function ManifestPath(subPath: Option<string>): (p: string)
    ensures EndsWith(p, ManifestName)
  {
    if Truthy(subPath) then
      EndsWithOwn(subPath.value + "/", ManifestName);
      AppendAssoc(subPath.value, "/", ManifestName);
      subPath.value + "/" + ManifestName
    else
      assert "" + ManifestName == ManifestName;
      EndsWithOwn("", ManifestName);
      ManifestName
  }

  /** The commands of the fallback probe: a shallow blob-less clone into the
      scratch directory, sparse checkout of the sub-path (or "." for the root),
      then the branch. */
  function ProbeSteps(url: string, tmpDir: string, branch: string, subPath: Option<string>): seq<GitCmd> {
    var sparse := if Truthy(subPath) then subPath.value else ".";
    [CloneShallow(url, tmpDir), SparseInit(tmpDir), SparseSet(tmpDir, sparse), Checkout(tmpDir, branch)]
  }

  /** The fallback probe: after the four commands, whether the manifest exists in
      the checkout. The scratch directory's removal (`removeOk`) must succeed too,
      or the probe reports false. */
  function ProbeByClone(git: Oracle, fileExists: string -> bool, tmpDir: string, removeOk: bool,
                        url: string, branch: string, subPath: Option<string>): (found: bool)
    ensures found <==> RunAll(git, ProbeSteps(url, tmpDir, branch, subPath))
                       && fileExists(tmpDir + "/" + ManifestPath(subPath)) && removeOk
  {
    if RunAll(git, ProbeSteps(url, tmpDir, branch, subPath)) then
      var skillMdPath := if Truthy(subPath) then tmpDir + "/" + subPath.value + "/SKILL.md" else tmpDir + "/SKILL.md";
      ProbedPathIsManifest(tmpDir, subPath);
      fileExists(skillMdPath) && removeOk
    else false
  }

  /** The file the probe looks at is the manifest path the archive request names,
      under the scratch directory. */
  lemma ProbedPathIsManifest(tmpDir: string, subPath: Option<string>)
    ensures (if Truthy(subPath) then tmpDir + "/" + subPath.value + "/SKILL.md" else tmpDir + "/SKILL.md")
         == tmpDir + "/" + ManifestPath(subPath)
  {
    if Truthy(subPath) {
      AppendAssoc(tmpDir + "/", subPath.value, "/SKILL.md");
      AppendAssoc(subPath.value, "/", "SKILL.md");
      AppendAssoc(tmpDir + "/" + subPath.value, "/", "SKILL.md");
    } else {
      AppendAssoc(tmpDir, "/", "SKILL.md");
    }
  }

  /** `checkRemoteSkillMd(userRepo, branch, subPath)`. `fileExists` answers for the
      file system, `tmpDir` is the scratch directory named after the clock, and
      `removeOk` says whether deleting it succeeds. The branch head comes from
      `git ls-remote`; an answer without a hash means no manifest. A hash is
      followed by `git archive` of the manifest; a failure of either command
      falls back to the probe by shallow clone. */
  function CheckRemoteSkillMd(git: Oracle, fileExists: string -> bool, tmpDir: string, removeOk: bool,
                              userRepo: string, branch: string, subPath: Option<string>): (found: bool)
    ensures var ls := git(LsRemote(GitHubUrl(userRepo), "refs/heads/" + branch));
      ls.Some? && ParseLsRemote(ls.value).None? ==> !found
    ensures ArchiveHasManifest(git, userRepo, branch, subPath) ==> found
    ensures found ==> ArchiveHasManifest(git, userRepo, branch, subPath)
                      || ProbeByClone(git, fileExists, tmpDir, removeOk, GitHubUrl(userRepo), branch, subPath)
    ensures var ls := git(LsRemote(GitHubUrl(userRepo), "refs/heads/" + branch));
      (!(ls.Some? && ParseLsRemote(ls.value).None?)
       && ProbeByClone(git, fileExists, tmpDir, removeOk, GitHubUrl(userRepo), branch, subPath)) ==> found
  {
    var url := GitHubUrl(userRepo);
    match git(LsRemote(url, "refs/heads/" + branch))
    case Some(out) =>
      (match ParseLsRemote(out)
       case None => false
       case Some(hash) =>
         git(Archive(url, hash, ManifestPath(subPath))).Some?
         || ProbeByClone(git, fileExists, tmpDir, removeOk, url, branch, subPath))
    case None => ProbeByClone(git, fileExists, tmpDir, removeOk, url, branch, subPath)
  }

  /** `git archive` delivered the manifest at the branch head ls-remote names. */
  predicate ArchiveHasManifest(git: Oracle, userRepo: string, branch: string, subPath: Option<string>) {
    var ls := git(LsRemote(GitHubUrl(userRepo), "refs/heads/" + branch));
    && ls.Some? && ParseLsRemote(ls.value).Some?
    && git(Archive(GitHubUrl(userRepo), ParseLsRemote(ls.value).value, ManifestPath(subPath))).Some?
  }

  /** When `git archive` delivers the manifest, the answer is yes whatever the
      clone, the file system and the clean-up would say. */
  lemma ArchiveDecides(git1: Oracle, git2: Oracle, fileExists1: string -> bool, fileExists2: string -> bool,
                       tmpDir: string, remove1: bool, remove2: bool,
                       userRepo: string, branch: string, subPath: Option<string>)
    requires ArchiveHasManifest(git1, userRepo, branch, subPath)
    requires git1(LsRemote(GitHubUrl(userRepo), "refs/heads/" + branch)) == git2(LsRemote(GitHubUrl(userRepo), "refs/heads/" + branch))
    requires forall c: GitCmd :: c.Archive? ==> git1(c) == git2(c)
    ensures CheckRemoteSkillMd(git1, fileExists1, tmpDir, remove1, userRepo, branch, subPath)
    ensures CheckRemoteSkillMd(git2, fileExists2, tmpDir, remove2, userRepo, branch, subPath)
  {
  }
}

=== FILE: links.dfy ===
/** The link reconciler of src/commands/project.ts: a project's skill
    directory holds one symlink per linked skill, named by the skill's safe
    name and pointing into the global repository.

    The file system is a `Disk`: the entries of the project's skill directory
    (absent until the directory is created) and the set of paths that exist
    elsewhere, which decides whether a symlink resolves. The outcome of each
    `ensureSymlink` and `remove` call is a parameter. */
module Links {
  import opened Wrappers
  import opened Strings
  import Paths
  import Config
  import Skills
  import Detector

  /** What a name in the skill directory is, as `lstat` sees it. */
  datatype Entry = Symlink(target: string) | Directory(hasManifest: bool) | File

  datatype Disk = Disk(folder: Option<map<string, Entry>>, paths: set<string>)

  /** The entries of the skill directory; a missing directory has none. */
  function Entries(d: Disk): map<string, Entry> {
    d.folder.GetOr(map[])
  }

  /** The entry under `name`, if any. */
  function Lookup(d: Disk, name: string): Option<Entry> {
    if name in Entries(d) then Some(Entries(d)[name]) else None
  }

  /** `fs.existsSync(join(skillDir, name))`: the entry exists and, when it is
      a symlink, so does its target. */
  predicate Resolves(d: Disk, name: string) {
    match Lookup(d, name)
    case None => false
    case Some(e) => !e.Symlink? || e.target in d.paths
  }

  /** A symlink whose target does not exist. */
  predicate Broken(d: Disk, name: string) {
    match Lookup(d, name)
    case None => false
    case Some(e) => e.Symlink? && e.target !in d.paths
  }

  /** A real directory (not a symlink) holding a `SKILL.md`. */
  predicate OtherSkill(d: Disk, name: string) {
    Lookup(d, name) == Some(Directory(true))
  }

  /** Two disks agree on every name outside `names`, and on which paths exist. */
  ghost predicate AgreeOutside(d: Disk, e: Disk, names: set<string>) {
    && d.paths == e.paths
    && forall n :: n !in names ==> Lookup(d, n) == Lookup(e, n)
  }

  /** `fs.ensureDirSync(skillDir)`. */
  function EnsureDir(d: Disk): (e: Disk)
    ensures e.folder.Some?
    ensures AgreeOutside(d, e, {})
  {
    if d.folder.None? then d.(folder := Some(map[])) else d
  }

  /** Writes `entry` under `name`, creating the directory if needed. */
  function Put(d: Disk, name: string, entry: Entry): (e: Disk)
    ensures Lookup(e, name) == Some(entry)
    ensures AgreeOutside(d, e, {name})
  {
    d.(folder := Some(Entries(d)[name := entry]))
  }

  /** Deletes the entry under `name`. */
  function Delete(d: Disk, name: string): (e: Disk)
    ensures Lookup(e, name).None?
    ensures AgreeOutside(d, e, {name})
  {
    if d.folder.None? then d else d.(folder := Some(Entries(d) - {name}))
  }

  /** Where a skill's link points: its storage directory in the repository,
      or the skill's sub-folder in it when the record has a path. */
  function LinkTarget(repoDir: string, s: Skills.Skill): string {
    var repoPath := Config.GetRepoPath(repoDir, s.id);
    if Truthy(s.path) then Paths.Join(repoPath, s.path.value) else repoPath
  }

  /** `linkSkillToProject(id, project)`. `linkOk` is whether `ensureSymlink`
      succeeds; its failure is reported and swallowed. It also fails, and
      nothing is linked, when the target (an absolute path) does not exist,
      and when an entry already sits at the name that does not resolve (a
      dangling symlink), so only an absent name gets a link, and that link
      resolves. */
  function Link(reg: Skills.VersionsFile, repoDir: string, project: Detector.ProjectInfo,
                id: string, d: Disk, linkOk: bool): (e: Disk)
    ensures AgreeOutside(d, e, {Config.GetSafeName(id)})
    ensures !Truthy(project.skillDir) || Skills.GetSkill(reg, id).None? ==> e == d
    ensures Truthy(project.skillDir) && Skills.GetSkill(reg, id).Some? ==>
      var name := Config.GetSafeName(id);
      && e.folder.Some?
      && var target := LinkTarget(repoDir, Skills.GetSkill(reg, id).value);
      && (Lookup(d, name).Some? || !linkOk || target !in d.paths ==> Lookup(e, name) == Lookup(d, name))
      && (Lookup(d, name).None? && linkOk && target in d.paths ==> Lookup(e, name) == Some(Symlink(target)))
  {
    if !Truthy(project.skillDir) then d
    else
      match Skills.GetSkill(reg, id)
      case None => d
      case Some(s) =>
        var d1 := EnsureDir(d);
        var name := Config.GetSafeName(s.id);
        if Resolves(d1, name) || Lookup(d1, name).Some? || !linkOk || LinkTarget(repoDir, s) !in d1.paths then d1
        else Put(d1, name, Symlink(LinkTarget(repoDir, s)))
  }

  /** `unlinkSkillFromProject(id, project)`. `removeOk` is whether `fs.remove`
      succeeds; its failure is reported and swallowed. */
  function Unlink(project: Detector.ProjectInfo, id: string, d: Disk, removeOk: bool): (e: Disk)
    ensures AgreeOutside(d, e, {Config.GetSafeName(id)})
    ensures !Truthy(project.skillDir) || !Resolves(d, Config.GetSafeName(id)) || !removeOk ==> e == d
    ensures Truthy(project.skillDir) && removeOk ==> !Resolves(e, Config.GetSafeName(id))
  {
    if !Truthy(project.skillDir) then d
    else
      var name := Config.GetSafeName(id);
      if Resolves(d, name) && removeOk then Delete(d, name) else d
  }

  /** When the target exists, a successful link leaves the skill resolving
      exactly when its name did not hold a dangling symlink before. */
  lemma LinkResolves(reg: Skills.VersionsFile, repoDir: string, project: Detector.ProjectInfo,
                     s: Skills.Skill, d: Disk)
    requires Truthy(project.skillDir) && Skills.GetSkill(reg, s.id) == Some(s)
    requires LinkTarget(repoDir, s) in d.paths
    ensures Resolves(Link(reg, repoDir, project, s.id, d, true), Config.GetSafeName(s.id))
            <==> !Broken(d, Config.GetSafeName(s.id))
  {
  }

  /** Linking twice in a row is linking once. */
  lemma LinkTwice(reg: Skills.VersionsFile, repoDir: string, project: Detector.ProjectInfo,
                  id: string, d: Disk, linkOk: bool)
    ensures var once := Link(reg, repoDir, project, id, d, linkOk);
      Link(reg, repoDir, project, id, once, linkOk) == once
  {
    var once := Link(reg, repoDir, project, id, d, linkOk);
    if Truthy(project.skillDir) && Skills.GetSkill(reg, id).Some? {
      var s := Skills.GetSkill(reg, id).value;
      var name := Config.GetSafeName(id);
      assert EnsureDir(once) == once;
      assert Lookup(once, name).Some? || !linkOk || LinkTarget(repoDir, s) !in once.paths;
    }
  }

  /** The names of the broken symlinks in the skill directory. */
  function BrokenLinks(d: Disk): (names: set<string>)
    ensures forall n :: n in names <==> Broken(d, n)
  {
    set n | n in Entries(d) && Broken(d, n)
  }

  /** The names of the real directories holding a `SKILL.md`. */
  function OtherSkills(d: Disk): (names: set<string>)
    ensures forall n :: n in names <==> OtherSkill(d, n)
  {
    set n | n in Entries(d) && OtherSkill(d, n)
  }

  /** `findBrokenLinks(skillDir)`: visits the entries in the order the
      directory listing gives, which the model leaves open. */
  method FindBrokenLinks(d: Disk) returns (broken: seq<string>)
    ensures forall n :: n in broken <==> Broken(d, n)
    ensures forall i, j :: 0 <= i < j < |broken| ==> broken[i] != broken[j]
    ensures d.folder.None? ==> broken == []
  {
    broken := [];
    if d.folder.None? {
      return;
    }
    var pending := Entries(d).Keys;
    while pending != {}
      invariant pending <= Entries(d).Keys
      invariant forall n :: n in broken <==> n !in pending && Broken(d, n)
      invariant forall i, j :: 0 <= i < j < |broken| ==> broken[i] != broken[j]
      decreases |pending|
    {
      var entry :| entry in pending;
      if Broken(d, entry) {
        broken := broken + [entry];
      }
      pending := pending - {entry};
    }
  }

  /** `findOtherSkills(skillDir)`: symlinks are skipped, directories count
      when they hold a `SKILL.md`. */
  method FindOtherSkills(d: Disk) returns (others: seq<string>)
    ensures forall n :: n in others <==> OtherSkill(d, n)
    ensures forall i, j :: 0 <= i < j < |others| ==> others[i] != others[j]
    ensures d.folder.None? ==> others == []
  {
    others := [];
    if d.folder.None? {
      return;
    }
    var pending := Entries(d).Keys;
    while pending != {}
      invariant pending <= Entries(d).Keys
      invariant forall n :: n in others <==> n !in pending && OtherSkill(d, n)
      invariant forall i, j :: 0 <= i < j < |others| ==> others[i] != others[j]
      decreases |pending|
    {
      var entry :| entry in pending;
      if OtherSkill(d, entry) {
        others := others + [entry];
      }
      pending := pending - {entry};
    }
  }

  /** No entry is both a broken link and another tool's skill. */
  lemma BrokenAndOtherDisjoint(d: Disk)
    ensures BrokenLinks(d) * OtherSkills(d) == {}
  {
    assert forall n :: !(Broken(d, n) && OtherSkill(d, n));
  }

  /** Removes every entry in `names`. */
  function RemoveAll(d: Disk, names: set<string>): (e: Disk)
    ensures AgreeOutside(d, e, names)
    ensures forall n :: n in names ==> Lookup(e, n).None?
  {
    if d.folder.None? then d else d.(folder := Some(Entries(d) - names))
  }

  /** The safe names of a list of skills. */
  function SafeNames(skills: seq<Skills.Skill>): set<string> {
    set s | s in skills :: Config.GetSafeName(s.id)
  }

  /** The ids of the skills whose link currently resolves (`getLinkedSkills`). */
  function LinkedIds(d: Disk, skills: seq<Skills.Skill>): set<string> {
    set s | s in skills && Resolves(d, Config.GetSafeName(s.id)) :: s.id
  }

  /** One turn of the loop at the end of `manageProjectSkills`: links the
      skill if it is selected but was not linked, unlinks it if it was linked
      but is no longer selected. `ok` says, per id, whether the file
      operation succeeds. */
  function Step(reg: Skills.VersionsFile, repoDir: string, project: Detector.ProjectInfo,
                id: string, linked: set<string>, selected: set<string>, ok: string -> bool, d: Disk): (e: Disk)
    ensures AgreeOutside(d, e, {Config.GetSafeName(id)})
  {
    if id !in linked && id in selected then Link(reg, repoDir, project, id, d, ok(id))
    else if id in linked && id !in selected then Unlink(project, id, d, ok(id))
    else d
  }

  /** One turn leaves a dangling symlink as it is, and makes none: linking
      does not replace one and only creates a link whose target exists, and
      unlinking only removes an entry that resolves. */
  lemma StepKeepsBroken(reg: Skills.VersionsFile, repoDir: string, project: Detector.ProjectInfo,
                        id: string, linked: set<string>, selected: set<string>, ok: string -> bool, d: Disk)
    ensures var e := Step(reg, repoDir, project, id, linked, selected, ok, d);
      forall n :: Broken(d, n) ==> Lookup(e, n) == Lookup(d, n)
    ensures var e := Step(reg, repoDir, project, id, linked, selected, ok, d);
      forall n :: Broken(e, n) ==> Broken(d, n)
  {
    var name := Config.GetSafeName(id);
    var e := Step(reg, repoDir, project, id, linked, selected, ok, d);
    if Broken(d, name) {
      assert !Resolves(d, name);
    }
    assert !Broken(e, name) || Broken(d, name) by {
      if Lookup(e, name) != Lookup(d, name) {
        assert Lookup(e, name).None? || Resolves(e, name);
      }
    }
  }

  /** The whole loop, over the skills in list order. It touches only the
      skills' own names, never a dangling symlink, and makes no new one. */
  function Reconcile(reg: Skills.VersionsFile, repoDir: string, project: Detector.ProjectInfo,
                     skills: seq<Skills.Skill>, linked: set<string>, selected: set<string>,
                     ok: string -> bool, d: Disk): (r: Disk)
    ensures AgreeOutside(d, r, SafeNames(skills))
    ensures forall n :: Broken(d, n) ==> Lookup(r, n) == Lookup(d, n)
    ensures forall n :: Broken(r, n) ==> Broken(d, n)
    decreases |skills|
  {
    if |skills| == 0 then d
    else
      var d1 := Step(reg, repoDir, project, skills[0].id, linked, selected, ok, d);
      SafeNamesCons(skills);
      StepKeepsBroken(reg, repoDir, project, skills[0].id, linked, selected, ok, d);
      Reconcile(reg, repoDir, project, skills[1..], linked, selected, ok, d1)
  }

  /** The registry's own records, with pairwise distinct safe names. */
  predicate Registered(reg: Skills.VersionsFile, skills: seq<Skills.Skill>) {
    && (forall i :: 0 <= i < |skills| ==> Skills.GetSkill(reg, skills[i].id) == Some(skills[i]))
    && (forall i, j :: 0 <= i < j < |skills| ==>
          Config.GetSafeName(skills[i].id) != Config.GetSafeName(skills[j].id))
  }

  /** No skill's name holds a dangling symlink. */
  predicate NoneBroken(skills: seq<Skills.Skill>, d: Disk) {
    forall i :: 0 <= i < |skills| ==> !Broken(d, Config.GetSafeName(skills[i].id))
  }

  /** Every file operation succeeds and every link target exists. */
  predicate Smooth(repoDir: string, skills: seq<Skills.Skill>, ok: string -> bool, d: Disk) {
    forall i :: 0 <= i < |skills| ==> ok(skills[i].id) && LinkTarget(repoDir, skills[i]) in d.paths
  }

  /** `linked` says which of the skills currently resolve. */
  predicate LinkedAccordingTo(skills: seq<Skills.Skill>, linked: set<string>, d: Disk) {
    forall i :: 0 <= i < |skills| ==> (skills[i].id in linked <==> Resolves(d, Config.GetSafeName(skills[i].id)))
  }

  /** Each skill resolves exactly when it is selected. */
  predicate LinkedIffSelected(skills: seq<Skills.Skill>, selected: set<string>, d: Disk) {
    forall i :: 0 <= i < |skills| ==> (Resolves(d, Config.GetSafeName(skills[i].id)) <==> skills[i].id in selected)
  }

  lemma RegisteredTail(reg: Skills.VersionsFile, skills: seq<Skills.Skill>)
    requires |skills| > 0 && Registered(reg, skills)
    ensures Registered(reg, skills[1..])
    ensures Config.GetSafeName(skills[0].id) !in SafeNames(skills[1..])
  {
    assert forall i :: 0 <= i < |skills| - 1 ==> skills[1..][i] == skills[i + 1];
  }

  /** One turn of the loop: afterwards the skill resolves exactly when it
      is selected. */
  lemma StepLinksSelected(reg: Skills.VersionsFile, repoDir: string, project: Detector.ProjectInfo,
                          s: Skills.Skill, linked: set<string>, selected: set<string>, ok: string -> bool, d: Disk)
    requires Truthy(project.skillDir) && Skills.GetSkill(reg, s.id) == Some(s)
    requires ok(s.id) && LinkTarget(repoDir, s) in d.paths && !Broken(d, Config.GetSafeName(s.id))
    requires s.id in linked <==> Resolves(d, Config.GetSafeName(s.id))
    ensures Resolves(Step(reg, repoDir, project, s.id, linked, selected, ok, d), Config.GetSafeName(s.id))
            <==> s.id in selected
  {
    if s.id !in linked && s.id in selected {
      LinkResolves(reg, repoDir, project, s, d);
    }
  }

  /** What the rest of the loop needs still holds after the first turn. */
  lemma TailReady(reg: Skills.VersionsFile, repoDir: string, skills: seq<Skills.Skill>,
                  linked: set<string>, ok: string -> bool, d: Disk, d1: Disk)
    requires |skills| > 0 && Registered(reg, skills)
    requires Smooth(repoDir, skills, ok, d) && LinkedAccordingTo(skills, linked, d) && NoneBroken(skills, d)
    requires AgreeOutside(d, d1, {Config.GetSafeName(skills[0].id)})
    ensures Registered(reg, skills[1..])
    ensures Smooth(repoDir, skills[1..], ok, d1) && LinkedAccordingTo(skills[1..], linked, d1)
    ensures NoneBroken(skills[1..], d1)
    ensures Config.GetSafeName(skills[0].id) !in SafeNames(skills[1..])
  {
    RegisteredTail(reg, skills);
    var rest := skills[1..];
    forall i | 0 <= i < |rest|
      ensures ok(rest[i].id) && LinkTarget(repoDir, rest[i]) in d1.paths
      ensures rest[i].id in linked <==> Resolves(d1, Config.GetSafeName(rest[i].id))
      ensures !Broken(d1, Config.GetSafeName(rest[i].id))
    {
      assert rest[i] == skills[i + 1];
      var n := Config.GetSafeName(skills[i + 1].id);
      assert n != Config.GetSafeName(skills[0].id);
      assert Lookup(d1, n) == Lookup(d, n);
      assert Resolves(d1, n) == Resolves(d, n) && Broken(d1, n) == Broken(d, n);
    }
  }

  /** The safe names of a non-empty list: the first one's and the rest's. */
  lemma SafeNamesCons(skills: seq<Skills.Skill>)
    requires |skills| > 0
    ensures SafeNames(skills) == {Config.GetSafeName(skills[0].id)} + SafeNames(skills[1..])
  {
    assert forall t :: t in skills <==> t == skills[0] || t in skills[1..];
  }

  /** The first skill settled by the first turn and the rest by the rest of
      the loop: all of them are settled. */
  lemma LinkedIffSelectedCons(skills: seq<Skills.Skill>, selected: set<string>, d1: Disk, r: Disk)
    requires |skills| > 0
    requires Resolves(d1, Config.GetSafeName(skills[0].id)) <==> skills[0].id in selected
    requires Lookup(r, Config.GetSafeName(skills[0].id)) == Lookup(d1, Config.GetSafeName(skills[0].id))
    requires r.paths == d1.paths
    requires LinkedIffSelected(skills[1..], selected, r)
    ensures LinkedIffSelected(skills, selected, r)
  {
    var n := Config.GetSafeName(skills[0].id);
    assert Resolves(r, n) == Resolves(d1, n);
    forall i | 0 < i < |skills|
      ensures Resolves(r, Config.GetSafeName(skills[i].id)) <==> skills[i].id in selected
    {
      assert skills[i] == skills[1..][i - 1];
    }
  }

  /** The reconcile loop, on registry skills with distinct safe names and no
      failing file operation, leaves each skill linked exactly when it is
      selected and every other entry of the directory as it was. */
  lemma {:induction false} ReconcileLinksSelected(
    reg: Skills.VersionsFile, repoDir: string, project: Detector.ProjectInfo,
    skills: seq<Skills.Skill>, linked: set<string>, selected: set<string>, ok: string -> bool, d: Disk)
    requires Truthy(project.skillDir)
    requires Registered(reg, skills) && Smooth(repoDir, skills, ok, d) && NoneBroken(skills, d)
    requires LinkedAccordingTo(skills, linked, d)
    ensures LinkedIffSelected(skills, selected, Reconcile(reg, repoDir, project, skills, linked, selected, ok, d))
    ensures AgreeOutside(d, Reconcile(reg, repoDir, project, skills, linked, selected, ok, d), SafeNames(skills))
    decreases |skills|
  {
    if |skills| > 0 {
      var rest := skills[1..];
      var d1 := Step(reg, repoDir, project, skills[0].id, linked, selected, ok, d);
      StepLinksSelected(reg, repoDir, project, skills[0], linked, selected, ok, d);
      TailReady(reg, repoDir, skills, linked, ok, d, d1);
      ReconcileLinksSelected(reg, repoDir, project, rest, linked, selected, ok, d1);
      var r := Reconcile(reg, repoDir, project, rest, linked, selected, ok, d1);
      SafeNamesCons(skills);
      LinkedIffSelectedCons(skills, selected, d1, r);
    }
  }

  /** When the linked set already matches the selection, the loop does nothing. */
  lemma {:induction false} ReconcileSettled(
    reg: Skills.VersionsFile, repoDir: string, project: Detector.ProjectInfo,
    skills: seq<Skills.Skill>, linked: set<string>, selected: set<string>, ok: string -> bool, d: Disk)
    requires forall i :: 0 <= i < |skills| ==> (skills[i].id in linked <==> skills[i].id in selected)
    ensures Reconcile(reg, repoDir, project, skills, linked, selected, ok, d) == d
    decreases |skills|
  {
    if |skills| > 0 {
      assert forall i :: 0 <= i < |skills| - 1 ==> skills[1..][i] == skills[i + 1];
      ReconcileSettled(reg, repoDir, project, skills[1..], linked, selected, ok, d);
    }
  }

  /** Running the loop again, with the links as they now are and the same
      selection, changes nothing. */
  lemma ReconcileTwice(
    reg: Skills.VersionsFile, repoDir: string, project: Detector.ProjectInfo,
    skills: seq<Skills.Skill>, linked: set<string>, selected: set<string>, ok: string -> bool, d: Disk)
    requires Truthy(project.skillDir)
    requires Registered(reg, skills) && Smooth(repoDir, skills, ok, d) && NoneBroken(skills, d)
    requires LinkedAccordingTo(skills, linked, d)
    ensures var r := Reconcile(reg, repoDir, project, skills, linked, selected, ok, d);
      Reconcile(reg, repoDir, project, skills, LinkedIds(r, skills), selected, ok, r) == r
  {
    ReconcileLinksSelected(reg, repoDir, project, skills, linked, selected, ok, d);
    var r := Reconcile(reg, repoDir, project, skills, linked, selected, ok, d);
    forall i | 0 <= i < |skills|
      ensures skills[i].id in LinkedIds(r, skills) <==> skills[i].id in selected
    {
      if skills[i].id in LinkedIds(r, skills) {
        var s :| s in skills && Resolves(r, Config.GetSafeName(s.id)) && s.id == skills[i].id;
      } else {
        assert skills[i] in skills;
      }
    }
    ReconcileSettled(reg, repoDir, project, skills, LinkedIds(r, skills), selected, ok, r);
  }

  /** `manageProjectSkills(project)`: with no known tool or no skill directory
      nothing happens; otherwise the directory is created, broken links are
      removed when `cleanup` is confirmed, and the registry's skills are
      linked or unlinked to match `selected`. Either way, an entry that is
      neither a registry skill's name nor a dangling symlink stays as it was. */
  function ManageProjectSkills(reg: Skills.VersionsFile, repoDir: string, project: Detector.ProjectInfo,
                               d: Disk, cleanup: bool, selected: set<string>, ok: string -> bool): (r: Disk)
    ensures project.kind == Detector.Unknown || !Truthy(project.skillDir) ==> r == d
    ensures r.paths == d.paths
    ensures forall n :: n !in SafeNames(Skills.GetAllSkills(reg)) && !Broken(d, n) ==> Lookup(r, n) == Lookup(d, n)
  {
    if project.kind == Detector.Unknown || !Truthy(project.skillDir) then d
    else
      var d1 := EnsureDir(d);
      var broken := BrokenLinks(d1);
      var d2 := if broken != {} && cleanup then RemoveAll(d1, broken) else d1;
      var skills := Skills.GetAllSkills(reg);
      if |skills| == 0 then d2
      else Reconcile(reg, repoDir, project, skills, LinkedIds(d2, skills), selected, ok, d2)
  }

  /** A declined cleanup leaves every dangling symlink, and every entry
      outside the registry's names, as it was; after a confirmed one no
      name holds a dangling symlink, since the loop never makes one. */
  lemma CleanupOnlyWhenConfirmed(reg: Skills.VersionsFile, repoDir: string, project: Detector.ProjectInfo,
                                 d: Disk, cleanup: bool, selected: set<string>, ok: string -> bool, n: string)
    requires project.kind != Detector.Unknown && Truthy(project.skillDir)
    ensures var r := ManageProjectSkills(reg, repoDir, project, d, cleanup, selected, ok);
      && (!cleanup && (n !in SafeNames(Skills.GetAllSkills(reg)) || Broken(d, n)) ==> Lookup(r, n) == Lookup(d, n))
      && (cleanup ==> !Broken(r, n))
  {
    var skills := Skills.GetAllSkills(reg);
    var d1 := EnsureDir(d);
    var broken := BrokenLinks(d1);
    var d2 := if broken != {} && cleanup then RemoveAll(d1, broken) else d1;
    var r := ManageProjectSkills(reg, repoDir, project, d, cleanup, selected, ok);
    if |skills| > 0 {
      assert r == Reconcile(reg, repoDir, project, skills, LinkedIds(d2, skills), selected, ok, d2);
    }
    assert Lookup(d1, n) == Lookup(d, n) && Broken(d1, n) == Broken(d, n);
    if !cleanup && Broken(d, n) {
      assert Lookup(r, n) == Lookup(d2, n);
    }
    if n !in SafeNames(skills) {
      assert Lookup(r, n) == Lookup(d2, n) && r.paths == d2.paths;
    }
    if cleanup {
      assert !Broken(d2, n) by {
        if n in broken {
          assert Lookup(d2, n).None?;
        } else {
          assert Lookup(d2, n) == Lookup(d1, n) && d2.paths == d1.paths;
        }
      }
    }
  }

  /** `manageProjectSkills` on a registry with distinct safe names, when every
      file operation succeeds, every link target exists, and either the
      cleanup is confirmed or no skill's name holds a dangling symlink:
      afterwards each registered skill is linked exactly when it is selected. */
  lemma ManageLinksSelected(reg: Skills.VersionsFile, repoDir: string, project: Detector.ProjectInfo,
                            d: Disk, cleanup: bool, selected: set<string>, ok: string -> bool)
    requires project.kind != Detector.Unknown && Truthy(project.skillDir)
    requires Registered(reg, Skills.GetAllSkills(reg)) && Smooth(repoDir, Skills.GetAllSkills(reg), ok, d)
    requires cleanup || NoneBroken(Skills.GetAllSkills(reg), d)
    ensures LinkedIffSelected(Skills.GetAllSkills(reg), selected,
                              ManageProjectSkills(reg, repoDir, project, d, cleanup, selected, ok))
  {
    var skills := Skills.GetAllSkills(reg);
    var d1 := EnsureDir(d);
    var broken := BrokenLinks(d1);
    var d2 := if broken != {} && cleanup then RemoveAll(d1, broken) else d1;
    if |skills| > 0 {
      var linked := LinkedIds(d2, skills);
      forall i | 0 <= i < |skills|
        ensures skills[i].id in linked <==> Resolves(d2, Config.GetSafeName(skills[i].id))
      {
        assert skills[i] in skills;
      }
      assert Smooth(repoDir, skills, ok, d2);
      forall i | 0 <= i < |skills|
        ensures !Broken(d2, Config.GetSafeName(skills[i].id))
      {
        var n := Config.GetSafeName(skills[i].id);
        assert Broken(d1, n) == Broken(d, n);
        if cleanup && Broken(d1, n) {
          assert n in broken;
        }
      }
      ReconcileLinksSelected(reg, repoDir, project, skills, linked, selected, ok, d2);
      assert ManageProjectSkills(reg, repoDir, project, d, cleanup, selected, ok)
          == Reconcile(reg, repoDir, project, skills, linked, selected, ok, d2);
    }
  }

  /** The reconcile of the project tests: with A and B linked and B and C
      selected, A is unlinked, C linked (when its target exists, as the
      tests' stubbed file system has it) and B left alone. */
  lemma ReconcileExample(reg: Skills.VersionsFile, repoDir: string, project: Detector.ProjectInfo,
                         a: Skills.Skill, b: Skills.Skill, c: Skills.Skill, ok: string -> bool, d: Disk)
    requires Truthy(project.skillDir) && Skills.GetSkill(reg, c.id) == Some(c)
    requires Config.GetSafeName(a.id) != Config.GetSafeName(b.id)
    requires Config.GetSafeName(a.id) != Config.GetSafeName(c.id)
    requires Config.GetSafeName(b.id) != Config.GetSafeName(c.id)
    requires ok(a.id) && ok(c.id)
    requires Resolves(d, Config.GetSafeName(a.id)) && Resolves(d, Config.GetSafeName(b.id))
    requires Lookup(d, Config.GetSafeName(c.id)).None?
    ensures var r := Reconcile(reg, repoDir, project, [a, b, c], {a.id, b.id}, {b.id, c.id}, ok, d);
      && !Resolves(r, Config.GetSafeName(a.id))
      && Lookup(r, Config.GetSafeName(b.id)) == Lookup(d, Config.GetSafeName(b.id))
      && Lookup(r, Config.GetSafeName(c.id))
         == if LinkTarget(repoDir, c) in d.paths then Some(Symlink(LinkTarget(repoDir, c))) else None
  {
    var linked, selected := {a.id, b.id}, {b.id, c.id};
    ReconcileThree(reg, repoDir, project, a, b, c, linked, selected, ok, d);
    ThreeTurns(reg, repoDir, project, a, b, c, ok, d);
  }

  /** The three turns of the example, one after the other. */
  lemma ThreeTurns(reg: Skills.VersionsFile, repoDir: string, project: Detector.ProjectInfo,
                   a: Skills.Skill, b: Skills.Skill, c: Skills.Skill, ok: string -> bool, d: Disk)
    requires Truthy(project.skillDir) && Skills.GetSkill(reg, c.id) == Some(c)
    requires Config.GetSafeName(a.id) != Config.GetSafeName(b.id)
    requires Config.GetSafeName(a.id) != Config.GetSafeName(c.id)
    requires Config.GetSafeName(b.id) != Config.GetSafeName(c.id)
    requires ok(a.id) && ok(c.id)
    requires Resolves(d, Config.GetSafeName(a.id)) && Resolves(d, Config.GetSafeName(b.id))
    requires Lookup(d, Config.GetSafeName(c.id)).None?
    ensures var linked, selected := {a.id, b.id}, {b.id, c.id};
      var d1 := Step(reg, repoDir, project, a.id, linked, selected, ok, d);
      var d2 := Step(reg, repoDir, project, b.id, linked, selected, ok, d1);
      var r := Step(reg, repoDir, project, c.id, linked, selected, ok, d2);
      && !Resolves(r, Config.GetSafeName(a.id))
      && Lookup(r, Config.GetSafeName(b.id)) == Lookup(d, Config.GetSafeName(b.id))
      && Lookup(r, Config.GetSafeName(c.id))
         == if LinkTarget(repoDir, c) in d.paths then Some(Symlink(LinkTarget(repoDir, c))) else None
  {
    var linked, selected := {a.id, b.id}, {b.id, c.id};
    var na, nb, nc := Config.GetSafeName(a.id), Config.GetSafeName(b.id), Config.GetSafeName(c.id);
    assert a.id != b.id && a.id != c.id && b.id != c.id;
    assert a.id in linked && a.id !in selected && b.id in linked && b.id in selected;
    assert c.id !in linked && c.id in selected;
    var d1 := Step(reg, repoDir, project, a.id, linked, selected, ok, d);
    UnlinkTurn(reg, repoDir, project, a.id, linked, selected, ok, d);
    KeepTurn(reg, repoDir, project, b.id, linked, selected, ok, d1);
    assert Lookup(d1, nb) == Lookup(d, nb) && Lookup(d1, nc) == Lookup(d, nc) && d1.paths == d.paths;
    LinkTurn(reg, repoDir, project, c, linked, selected, ok, d1);
    var r := Step(reg, repoDir, project, c.id, linked, selected, ok, d1);
    assert Lookup(r, na) == Lookup(d1, na) && Lookup(r, nb) == Lookup(d1, nb);
  }

  /** A turn on a skill linked and no longer selected removes its link. */
  lemma UnlinkTurn(reg: Skills.VersionsFile, repoDir: string, project: Detector.ProjectInfo,
                   id: string, linked: set<string>, selected: set<string>, ok: string -> bool, d: Disk)
    requires Truthy(project.skillDir) && ok(id) && id in linked && id !in selected
    ensures !Resolves(Step(reg, repoDir, project, id, linked, selected, ok, d), Config.GetSafeName(id))
  {
  }

  /** A turn on a skill linked and still selected changes nothing. */
  lemma KeepTurn(reg: Skills.VersionsFile, repoDir: string, project: Detector.ProjectInfo,
                 id: string, linked: set<string>, selected: set<string>, ok: string -> bool, d: Disk)
    requires id in linked && id in selected
    ensures Step(reg, repoDir, project, id, linked, selected, ok, d) == d
  {
  }

  /** A turn on a registered skill selected and not linked places its link
      when the name is free and the target exists, and leaves whatever holds
      the name otherwise. */
  lemma LinkTurn(reg: Skills.VersionsFile, repoDir: string, project: Detector.ProjectInfo,
                 s: Skills.Skill, linked: set<string>, selected: set<string>, ok: string -> bool, d: Disk)
    requires Truthy(project.skillDir) && Skills.GetSkill(reg, s.id) == Some(s)
    requires ok(s.id) && s.id !in linked && s.id in selected
    ensures var name := Config.GetSafeName(s.id);
      Lookup(Step(reg, repoDir, project, s.id, linked, selected, ok, d), name)
        == if Lookup(d, name).None? && LinkTarget(repoDir, s) in d.paths then Some(Symlink(LinkTarget(repoDir, s)))
           else Lookup(d, name)
  {
  }

  /** The loop over three skills is three turns. */
  lemma ReconcileThree(reg: Skills.VersionsFile, repoDir: string, project: Detector.ProjectInfo,
                       a: Skills.Skill, b: Skills.Skill, c: Skills.Skill,
                       linked: set<string>, selected: set<string>, ok: string -> bool, d: Disk)
    ensures var d1 := Step(reg, repoDir, project, a.id, linked, selected, ok, d);
      var d2 := Step(reg, repoDir, project, b.id, linked, selected, ok, d1);
      Reconcile(reg, repoDir, project, [a, b, c], linked, selected, ok, d)
        == Step(reg, repoDir, project, c.id, linked, selected, ok, d2)
  {
    var d1 := Step(reg, repoDir, project, a.id, linked, selected, ok, d);
    var d2 := Step(reg, repoDir, project, b.id, linked, selected, ok, d1);
    var d3 := Step(reg, repoDir, project, c.id, linked, selected, ok, d2);
    assert [a, b, c][1..] == [b, c] && [b, c][1..] == [c] && [c][1..] == [];
    assert Reconcile(reg, repoDir, project, [], linked, selected, ok, d3) == d3;
    assert Reconcile(reg, repoDir, project, [c], linked, selected, ok, d2) == d3;
    assert Reconcile(reg, repoDir, project, [b, c], linked, selected, ok, d1) == d3;
  }
}

=== FILE: paths.dfy ===
/** The subset of Node's POSIX `path` module the skill manager uses. */
module Paths {
  import opened Strings

  /** `path.join(a, b)` for operands without "." or ".." segments, without a
      leading "/" on `b` and without repeated separators: the two joined by
      exactly one "/". */
  function Join(a: string, b: string): string {
    if a == "" && b == "" then "."
    else if a == "" then b
    else if b == "" then a
    else if a[|a| - 1] == '/' then a + b
    else a + "/" + b
  }

  /** The last "/" at an index in [1, n), or -1 when there is none. */
  function LastSlashBelow(p: string, n: nat): (k: int)
    requires n <= |p|
    ensures k == -1 || (1 <= k < n && p[k] == '/')
    ensures forall j :: 1 <= j < n && k < j ==> p[j] != '/'
  {
    if n <= 1 then -1
    else if p[n - 1] == '/' then n - 1
    else LastSlashBelow(p, n - 1)
  }

  /** `path.dirname(p)`: everything before the separator that precedes the last
      segment, ignoring trailing separators. */
  function Dirname(p: string): string {
    if p == "" then "."
    else
      var hasRoot := p[0] == '/';
      var end := LastSlashBelow(p, |TrimEnd(p, '/')|);
      if end == -1 then (if hasRoot then "/" else ".")
      else if hasRoot && end == 1 then "//"
      else p[..end]
  }

  /** `path.basename(p)`: the last segment, ignoring trailing separators. */
  function Basename(p: string): string {
    Last(Split(TrimEnd(p, '/'), '/'))
  }

  /** The parent of a directory joined under `base` is `base` joined with the
      directory's own parent: `dirname(join(base, d/e))` is `join(base, d)`. */
  lemma DirnameOfJoin(base: string, d: string, e: string)
    requires d != "" && d[0] != '/'
    requires e != "" && '/' !in e
    ensures Dirname(Join(base, d + "/" + e)) == Join(base, d)
  {
    var rel := d + "/" + e;
    var p := Join(base, rel);
    var head := if base == "" then "" else if base[|base| - 1] == '/' then base else base + "/";
    assert p == head + rel;
    assert p == (head + d) + "/" + e;
    assert Join(base, d) == head + d;
    var t := TrimEnd(p, '/');
    assert p[|p| - 1] == e[|e| - 1];
    assert |t| == |p|;
    var k := |head| + |d|;
    assert p[k] == '/';
    assert forall j :: k < j < |p| ==> p[j] == e[j - k - 1];
    var end := LastSlashBelow(p, |t|);
    assert end == k;
    assert p[..k] == head + d;
    assert p[0] != '/' || k != 1;
  }

  /** The last segment of a path joined with a plain name is that name. */
  lemma BasenameOfJoin(dir: string, name: string)
    requires name != "" && '/' !in name
    ensures Basename(Join(dir, name)) == name
  {
    var p := Join(dir, name);
    var head := if dir == "" then "" else if dir[|dir| - 1] == '/' then dir else dir + "/";
    assert p == head + name;
    assert p[|p| - 1] == name[|name| - 1];
    assert TrimEnd(p, '/') == p;
    SplitLastPiece(head, name, '/');
  }
}

=== FILE: repo.dfy ===
/** The decision logic of src/commands/repo.ts: checking GitHub skills for
    updates, applying the chosen updates, adding a skill from GitHub or from a
    local directory, and deleting one. Git is the oracle of the Git module;
    prompt answers, the file system's answers and the outcome of copies are
    parameters. What the commands do to the disk is returned as a list of
    effects, in the order they happen. */
module Repo {
  import opened Wrappers
  import opened Strings
  import Paths
  import Config
  import Skills
  import Git

  // ---------------------------------------------------------------------------
  // Ids of GitHub skills

  /** The id `addGitHubSkillInteractive` gives a skill:
      `github:<user>/<repo>`, followed by `/<path>` when there is a sub-path. */
  function GitHubId(userRepo: string, path: Option<string>): string {
    "github:" + userRepo + (if Truthy(path) then "/" + path.value else "")
  }

  /** The `user/repo` an update check derives from a record: the second
      `:`-separated piece of the id, with `/<path>` cut off its end when the
      record has a path the piece ends with. None when the id has no `:`. */
  function UserRepoOf(s: Skills.Skill): (ur: Option<string>)
    ensures ur.Some? <==> ':' in s.id
  {
    var parts := Split(s.id, ':');
    if |parts| < 2 then None
    else
      var repoPath := parts[1];
      if Truthy(s.path) && EndsWith(repoPath, s.path.value) then
        Some(Substring(repoPath, 0, |repoPath| - |s.path.value| - 1))
      else Some(repoPath)
  }

  /** The piece after the first `:` of an id whose remainder has no `:`. */
  lemma SecondPiece(kind: string, rest: string)
    requires ':' !in kind && ':' !in rest
    ensures |Split(kind + ":" + rest, ':')| == 2
    ensures Split(kind + ":" + rest, ':')[1] == rest
  {
    var id := kind + ":" + rest;
    AppendAssoc(kind, ":", rest);
    IndexOfAppend(kind, ":" + rest, ':');
    assert IndexOf(id, ':') == |kind|;
    assert id[|kind| + 1..] == rest;
    SplitStep(id, ':');
  }

  /** The update check recovers `user/repo` from the id an add gives a skill,
      with or without a sub-path, as long as neither holds a `:`. */
  lemma UserRepoRoundTrip(userRepo: string, path: Option<string>, commitId: Option<string>)
    requires ':' !in userRepo
    requires Truthy(path) ==> ':' !in path.value
    ensures UserRepoOf(Skills.Skill(GitHubId(userRepo, path), commitId, Some("github"), path)) == Some(userRepo)
  {
    if Truthy(path) {
      var p := path.value;
      var rest := userRepo + "/" + p;
      AppendAvoids(userRepo, "/", ':');
      AppendAvoids(userRepo + "/", p, ':');
      AppendAssoc("github:", userRepo, "/" + p);
      AppendAssoc(userRepo, "/", p);
      assert GitHubId(userRepo, path) == "github" + ":" + rest;
      SecondPiece("github", rest);
      assert rest[|rest| - |p|..] == p;
      assert Substring(rest, 0, |rest| - |p| - 1) == userRepo;
    } else {
      assert GitHubId(userRepo, path) == "github" + ":" + userRepo;
      SecondPiece("github", userRepo);
    }
  }

  // ---------------------------------------------------------------------------
  // checkSkillUpdates / checkSingleSkillUpdate

  /** A pending update: the record, the clone URL, the newer commit and the
      branch it was found on. */
  datatype Update = Update(skill: Skills.Skill, url: string, remoteHead: string, branch: string)

  /** The part of the repository a record tracks: its sub-path, or "." for
      the whole repository. */
  function ScopeOf(s: Skills.Skill): (scope: string)
    ensures scope != ""
  {
    if Truthy(s.path) then s.path.value else "."
  }

  /** Whether the update check looks at a record at all. */
  predicate Tracked(s: Skills.Skill) {
    s.kind == Some("github")
  }

  /** The update check of one record. Only GitHub records are looked at. The
      commit that last touched the record's scope in the local clone is
      compared with the one on `origin/<default branch>` after a fetch; a
      failure of any git step means no update, never an error. */
  function CheckOne(git: Git.Oracle, repoDir: string, s: Skills.Skill): (u: Option<Update>)
    ensures !Tracked(s) ==> u.None?
    ensures u.Some? ==> u.value.skill == s && u.value.remoteHead != ""
    ensures u.Some? ==> UserRepoOf(s).Some?
    ensures u.Some? ==>
      var ur := UserRepoOf(s).value;
      var dir := Config.GetRepoPath(repoDir, s.id);
      && u.value.url == Git.GitHubUrl(ur)
      && u.value.branch == Git.GetDefaultBranch(git, ur)
      && git(Git.Fetch(dir)).Some?
      && Git.RemotePathCommit(git, dir, "origin/" + u.value.branch, ScopeOf(s)) == Some(u.value.remoteHead)
      && Git.LocalPathCommit(git, dir, ScopeOf(s)).Some?
      && Git.LocalPathCommit(git, dir, ScopeOf(s)) != Some(u.value.remoteHead)
  {
    if !Tracked(s) then None
    else
      match UserRepoOf(s)
      case None => None
      case Some(ur) =>
        var dir := Config.GetRepoPath(repoDir, s.id);
        match Git.LocalPathCommit(git, dir, ScopeOf(s))
        case None => None
        case Some(local) =>
          if git(Git.Fetch(dir)).None? then None
          else
            var branch := Git.GetDefaultBranch(git, ur);
            match Git.RemotePathCommit(git, dir, "origin/" + branch, ScopeOf(s))
            case None => None
            case Some(remote) =>
              if remote != "" && remote != local then Some(Update(s, Git.GitHubUrl(ur), remote, branch))
              else None
  }

  /** An update is reported exactly when the record is a GitHub one with a
      `:` in its id, both commits resolve, the fetch succeeds, and the remote
      commit is non-empty and differs from the local one. */
  lemma CheckOneReports(git: Git.Oracle, repoDir: string, s: Skills.Skill)
    ensures CheckOne(git, repoDir, s).Some? <==>
        && Tracked(s) && ':' in s.id
        && var dir := Config.GetRepoPath(repoDir, s.id);
        var ur := UserRepoOf(s).value;
        var local := Git.LocalPathCommit(git, dir, ScopeOf(s));
        var remote := Git.RemotePathCommit(git, dir, "origin/" + Git.GetDefaultBranch(git, ur), ScopeOf(s));
        && local.Some? && git(Git.Fetch(dir)).Some? && remote.Some?
        && remote.value != "" && remote != local
  {
  }

  /** The loop of `checkSkillUpdates`: each record checked in list order,
      its update kept when there is one. */
  function Scan(check: Skills.Skill -> Option<Update>, skills: seq<Skills.Skill>): (ups: seq<Update>)
    ensures |ups| <= |skills|
    ensures forall u :: u in ups ==> exists i :: 0 <= i < |skills| && check(skills[i]) == Some(u)
  {
    if |skills| == 0 then []
    else
      var rest := Scan(check, skills[1..]);
      assert forall i :: 0 <= i < |skills| - 1 ==> skills[1..][i] == skills[i + 1];
      match check(skills[0])
      case None => rest
      case Some(u) => [u] + rest
  }

  /** Every record the check accepts is reported. */
  lemma {:induction false} ScanComplete(check: Skills.Skill -> Option<Update>, skills: seq<Skills.Skill>, i: nat)
    requires i < |skills| && check(skills[i]).Some?
    ensures check(skills[i]).value in Scan(check, skills)
    decreases i
  {
    if i > 0 {
      assert skills[1..][i - 1] == skills[i];
      ScanComplete(check, skills[1..], i - 1);
    }
  }

  /** The scan of a list is the scan of its halves, one after the other: the
      result keeps the list's order, and what happens to one record (a failed
      fetch, a missing commit) never affects another. */
  lemma {:induction false} ScanAppend(check: Skills.Skill -> Option<Update>, a: seq<Skills.Skill>, b: seq<Skills.Skill>)
    ensures Scan(check, a + b) == Scan(check, a) + Scan(check, b)
    decreases |a|
  {
    if |a| == 0 {
      assert a + b == b;
    } else {
      assert (a + b)[1..] == a[1..] + b;
      assert (a + b)[0] == a[0];
      ScanAppend(check, a[1..], b);
    }
  }

  /** A record whose check fails drops out of the result and changes nothing else. */
  lemma FailedRecordSkipped(check: Skills.Skill -> Option<Update>, a: seq<Skills.Skill>, s: Skills.Skill, b: seq<Skills.Skill>)
    requires check(s).None?
    ensures Scan(check, a + [s] + b) == Scan(check, a + b)
  {
    calc {
      Scan(check, a + [s] + b);
      == { ScanAppend(check, a + [s], b); }
      Scan(check, a + [s]) + Scan(check, b);
      == { ScanAppend(check, a, [s]); }
      Scan(check, a) + Scan(check, [s]) + Scan(check, b);
      == { assert [s][1..] == []; }
      Scan(check, a) + Scan(check, b);
      == { ScanAppend(check, a, b); }
      Scan(check, a + b);
    }
  }

  /** `checkSkillUpdates()`: the scan of every record of the registry. */
  function CheckSkillUpdates(git: Git.Oracle, repoDir: string, file: Skills.VersionsFile): (ups: seq<Update>)
    ensures forall u :: u in ups ==>
      && Tracked(u.skill)
      && Skills.GetSkill(file, u.skill.id) == Some(u.skill)
      && CheckOne(git, repoDir, u.skill) == Some(u)
  {
    Scan(s => CheckOne(git, repoDir, s), Skills.GetAllSkills(file))
  }

  /** Every registered record whose check reports an update is in the scan. */
  lemma CheckSkillUpdatesComplete(git: Git.Oracle, repoDir: string, file: Skills.VersionsFile, id: string)
    requires Skills.GetSkill(file, id).Some?
    requires CheckOne(git, repoDir, Skills.GetSkill(file, id).value).Some?
    ensures CheckOne(git, repoDir, Skills.GetSkill(file, id).value).value in CheckSkillUpdates(git, repoDir, file)
  {
    var skills := Skills.GetAllSkills(file);
    var i :| 0 <= i < |skills| && skills[i].id == id;
    ScanComplete(s => CheckOne(git, repoDir, s), skills, i);
  }

  // ---------------------------------------------------------------------------
  // updateSkills / updateSingleSkill

  /** How one update leaves a record: with the new commit and its type and
      path kept when the pull succeeds on a stored record, as it was otherwise. */
  predicate PullRecorded(git: Git.Oracle, repoDir: string, u: Update, before: Option<Skills.Skill>, after: Option<Skills.Skill>) {
    && (git(Git.Pull(Config.GetRepoPath(repoDir, u.skill.id))).None? ==> after == before)
    && (git(Git.Pull(Config.GetRepoPath(repoDir, u.skill.id))).Some? && before.Some? ==>
          after == Some(before.value.(commitId := Some(u.remoteHead))))
  }

  /** One update: `git pull` in the skill's storage directory, then the new
      commit is recorded; a failed pull is reported and the record is left alone. */
  function ApplyUpdate(git: Git.Oracle, repoDir: string, file: Skills.VersionsFile, u: Update): (file': Skills.VersionsFile)
    ensures git(Git.Pull(Config.GetRepoPath(repoDir, u.skill.id))).None? ==> file' == file
    ensures PullRecorded(git, repoDir, u, Skills.GetSkill(file, u.skill.id), Skills.GetSkill(file', u.skill.id))
    ensures Skills.GetSkill(file, u.skill.id).None? ==> file' == file
    ensures forall id :: id != u.skill.id ==> Skills.GetSkill(file', id) == Skills.GetSkill(file, id)
  {
    if git(Git.Pull(Config.GetRepoPath(repoDir, u.skill.id))).Some? then
      Skills.UpdateSkillVersion(file, u.skill.id, u.remoteHead)
    else file
  }

  /** Some update in `chosen` is for the record `id`. */
  predicate Chosen(chosen: seq<Update>, id: string) {
    exists i :: 0 <= i < |chosen| && chosen[i].skill.id == id
  }

  /** The chosen updates, one after the other; each failure is isolated. */
  function ApplyUpdates(git: Git.Oracle, repoDir: string, file: Skills.VersionsFile, chosen: seq<Update>): (file': Skills.VersionsFile)
    ensures forall id :: !Chosen(chosen, id) ==> Skills.GetSkill(file', id) == Skills.GetSkill(file, id)
    decreases |chosen|
  {
    if |chosen| == 0 then file
    else ApplyUpdates(git, repoDir, ApplyUpdate(git, repoDir, file, chosen[0]), chosen[1..])
  }

  /** After the updates, a chosen record whose pull succeeded carries the new
      commit and keeps its type and path; one whose pull failed is as it was. */
  lemma {:induction false} ApplyUpdatesRecords(git: Git.Oracle, repoDir: string, file: Skills.VersionsFile,
                                               chosen: seq<Update>, i: nat)
    requires i < |chosen|
    requires forall j :: 0 <= j < |chosen| && j != i ==> chosen[j].skill.id != chosen[i].skill.id
    ensures PullRecorded(git, repoDir, chosen[i], Skills.GetSkill(file, chosen[i].skill.id),
                         Skills.GetSkill(ApplyUpdates(git, repoDir, file, chosen), chosen[i].skill.id))
    decreases i
  {
    if i == 0 {
      FirstUpdateRecorded(git, repoDir, file, chosen);
    } else {
      var f1 := ApplyUpdate(git, repoDir, file, chosen[0]);
      TailKeepsApart(chosen, i);
      ApplyUpdatesRecords(git, repoDir, f1, chosen[1..], i - 1);
      ThroughFirstUpdate(git, repoDir, file, chosen, i);
    }
  }

  /** A later update's record passes the first update untouched. */
  lemma ThroughFirstUpdate(git: Git.Oracle, repoDir: string, file: Skills.VersionsFile, chosen: seq<Update>, i: nat)
    requires 0 < i < |chosen| && chosen[0].skill.id != chosen[i].skill.id
    requires var f1, u := ApplyUpdate(git, repoDir, file, chosen[0]), chosen[1..][i - 1];
      PullRecorded(git, repoDir, u, Skills.GetSkill(f1, u.skill.id),
                   Skills.GetSkill(ApplyUpdates(git, repoDir, f1, chosen[1..]), u.skill.id))
    ensures PullRecorded(git, repoDir, chosen[i], Skills.GetSkill(file, chosen[i].skill.id),
                         Skills.GetSkill(ApplyUpdates(git, repoDir, file, chosen), chosen[i].skill.id))
  {
    var f1 := ApplyUpdate(git, repoDir, file, chosen[0]);
    assert chosen[1..][i - 1] == chosen[i];
    assert ApplyUpdates(git, repoDir, file, chosen) == ApplyUpdates(git, repoDir, f1, chosen[1..]);
    assert Skills.GetSkill(f1, chosen[i].skill.id) == Skills.GetSkill(file, chosen[i].skill.id);
  }

  /** The first update's record is written by its own pull and no later one. */
  lemma FirstUpdateRecorded(git: Git.Oracle, repoDir: string, file: Skills.VersionsFile, chosen: seq<Update>)
    requires |chosen| > 0
    requires forall j :: 0 <= j < |chosen| && j != 0 ==> chosen[j].skill.id != chosen[0].skill.id
    ensures PullRecorded(git, repoDir, chosen[0], Skills.GetSkill(file, chosen[0].skill.id),
                         Skills.GetSkill(ApplyUpdates(git, repoDir, file, chosen), chosen[0].skill.id))
  {
    var f1 := ApplyUpdate(git, repoDir, file, chosen[0]);
    assert ApplyUpdates(git, repoDir, file, chosen) == ApplyUpdates(git, repoDir, f1, chosen[1..]);
    TailAvoidsHead(chosen);
    assert !Chosen(chosen[1..], chosen[0].skill.id);
  }

  /** No later update is for the first update's record. */
  lemma TailAvoidsHead(chosen: seq<Update>)
    requires |chosen| > 0
    requires forall j :: 0 <= j < |chosen| && j != 0 ==> chosen[j].skill.id != chosen[0].skill.id
    ensures forall j :: 0 <= j < |chosen[1..]| ==> chosen[1..][j].skill.id != chosen[0].skill.id
  {
    forall j | 0 <= j < |chosen[1..]|
      ensures chosen[1..][j].skill.id != chosen[0].skill.id
    {
      assert chosen[1..][j] == chosen[j + 1];
    }
  }

  /** An update whose record no other update names keeps that in the tail. */
  lemma TailKeepsApart(chosen: seq<Update>, i: nat)
    requires 0 < i < |chosen|
    requires forall j :: 0 <= j < |chosen| && j != i ==> chosen[j].skill.id != chosen[i].skill.id
    ensures chosen[1..][i - 1] == chosen[i]
    ensures forall j :: 0 <= j < |chosen[1..]| && j != i - 1 ==> chosen[1..][j].skill.id != chosen[1..][i - 1].skill.id
  {
    forall j | 0 <= j < |chosen[1..]| && j != i - 1
      ensures chosen[1..][j].skill.id != chosen[1..][i - 1].skill.id
    {
      assert chosen[1..][j] == chosen[j + 1];
    }
  }

  // ---------------------------------------------------------------------------
  // What the commands do to the disk

  /** One step of a command on the disk, other than the registry write. */
  datatype Effect =
    | RemoveDir(path: string)                 // fs.remove
    | MakeDir(path: string)                   // fs.ensureDirSync
    | Clone(steps: seq<Git.GitCmd>)           // the git commands of the clone
    | CopyDir(src: string, dest: string)      // fs.copy
    | MakeLink(target: string, at: string)    // fs.ensureSymlink

  /** What a command leaves behind: the steps taken before the registry
      write, the id whose record is written (None when the registry is not
      written), the steps taken after it, and the registry file. */
  datatype Outcome = Outcome(before: seq<Effect>, written: Option<string>, after: seq<Effect>, file: Skills.VersionsFile)

  /** Nothing done at all. */
  function Nothing(file: Skills.VersionsFile): Outcome {
    Outcome([], None, [], file)
  }

  // ---------------------------------------------------------------------------
  // addGitHubSkillInteractive

  const Host := "github.com/"

  /** `/github\.com\/([^\/]+\/[^\/]+)(\.git)?$/` tried at position `k` only:
      the host, then exactly two non-empty segments running to the end. */
  predicate MatchesAt(u: string, k: nat) {
    && k + |Host| <= |u|
    && u[k..k + |Host|] == Host
    && var t := Git.TakeSegment(u[k + |Host|..]);
       t.Some? && Git.Segment(t.value.1)
  }

  /** The leftmost position from `k` on where the pattern matches. */
  function FirstMatch(u: string, k: nat): (m: Option<nat>)
    ensures m.Some? ==> k <= m.value && MatchesAt(u, m.value) && forall j :: k <= j < m.value ==> !MatchesAt(u, j)
    ensures m.None? ==> forall j :: k <= j ==> !MatchesAt(u, j)
    decreases |u| - k
  {
    if k + |Host| > |u| then None
    else if MatchesAt(u, k) then Some(k)
    else
      var m := FirstMatch(u, k + 1);
      NoMatchBefore(u, k, m);
      m
  }

  /** A position without a match extends the stretch without one. */
  lemma NoMatchBefore(u: string, k: nat, m: Option<nat>)
    requires !MatchesAt(u, k)
    requires m.Some? ==> k + 1 <= m.value && forall j :: k + 1 <= j < m.value ==> !MatchesAt(u, j)
    requires m.None? ==> forall j :: k + 1 <= j ==> !MatchesAt(u, j)
    ensures m.Some? ==> forall j :: k <= j < m.value ==> !MatchesAt(u, j)
    ensures m.None? ==> forall j :: k <= j ==> !MatchesAt(u, j)
  {
  }

  /** The pattern's leftmost match is at `k`, and its group, with a final
      ".git" removed, is `userRepo`. */
  predicate LeftmostGroup(u: string, k: nat, userRepo: string) {
    && MatchesAt(u, k)
    && (forall j :: 0 <= j < k ==> !MatchesAt(u, j))
    && userRepo == Git.DropGitSuffix(u[k + |Host|..])
  }

  /** The `user/repo` an add takes from the normalised URL: the pattern's
      group with a final ".git" removed; None when the URL does not match. */
  function MatchUserRepo(u: string): (ur: Option<string>)
    ensures ur.None? <==> forall k :: !MatchesAt(u, k)
    ensures ur.Some? ==> exists k :: LeftmostGroup(u, k, ur.value)
  {
    match FirstMatch(u, 0)
    case None => None
    case Some(k) =>
      LeftmostMatch(u, k);
      Some(Git.DropGitSuffix(u[k + |Host|..]))
  }

  lemma LeftmostMatch(u: string, k: nat)
    requires FirstMatch(u, 0) == Some(k)
    ensures LeftmostGroup(u, k, Git.DropGitSuffix(u[k + |Host|..]))
  {
  }

  /** Positions holding no 'g' cannot start a match. */
  lemma {:induction false} FirstMatchSkips(u: string, k: nat, j: nat)
    requires k <= j <= |u|
    requires forall i :: k <= i < j ==> u[i] != 'g'
    ensures FirstMatch(u, k) == FirstMatch(u, j)
    decreases j - k
  {
    if k < j && k + |Host| <= |u| {
      assert u[k..k + |Host|][0] == u[k];
      FirstMatchSkips(u, k + 1, j);
    }
  }

  /** The clone URL of `owner/repo` is the host at position 8, then the owner,
      "/", and the repository with ".git". */
  lemma CloneUrlShape(owner: string, repo: string)
    ensures var u := Git.GitHubUrl(owner + "/" + repo);
      && 8 + |Host| <= |u|
      && u[..8] == "https://"
      && u[8..8 + |Host|] == Host
      && u[8 + |Host|..] == owner + ("/" + (repo + ".git"))
  {
    var rest := owner + ("/" + (repo + ".git"));
    AppendAssoc(owner, "/", repo + ".git");
    AppendAssoc(owner + "/", repo, ".git");
    assert Git.GitHubUrl(owner + "/" + repo) == "https://" + Host + rest;
  }

  /** The pattern matches the clone URL of `owner/repo` first at the host. */
  lemma CloneUrlMatch(owner: string, repo: string)
    requires Git.Segment(owner) && Git.Segment(repo)
    ensures FirstMatch(Git.GitHubUrl(owner + "/" + repo), 0) == Some(8)
  {
    var u := Git.GitHubUrl(owner + "/" + repo);
    CloneUrlShape(owner, repo);
    Git.TakeSegmentOf(owner, repo + ".git");
    AppendAvoids(repo, ".git", '/');
    assert MatchesAt(u, 8);
    assert forall i :: 0 <= i < 8 ==> u[i] != 'g' by {
      assert forall i :: 0 <= i < 8 ==> u[i] == u[..8][i];
    }
    FirstMatchSkips(u, 0, 8);
  }

  /** Removing ".git" from what follows the host gives `owner/repo`. */
  lemma CloneUrlGroup(owner: string, repo: string)
    ensures Git.DropGitSuffix(owner + ("/" + (repo + ".git"))) == owner + "/" + repo
  {
    var ur := owner + "/" + repo;
    var rest := owner + ("/" + (repo + ".git"));
    AppendAssoc(owner, "/", repo + ".git");
    AppendAssoc(owner + "/", repo, ".git");
    assert rest == ur + ".git";
    assert Git.DropGitSuffix(rest) + ".git" == ur + ".git";
    assert Git.DropGitSuffix(rest) == (ur + ".git")[..|ur|];
  }

  /** The clone URL of `owner/repo` yields `owner/repo` back. */
  lemma MatchCloneUrl(owner: string, repo: string)
    requires Git.Segment(owner) && Git.Segment(repo)
    ensures MatchUserRepo(Git.GitHubUrl(owner + "/" + repo)) == Some(owner + "/" + repo)
  {
    CloneUrlShape(owner, repo);
    CloneUrlMatch(owner, repo);
    CloneUrlGroup(owner, repo);
  }

  /** What `addGitHubSkillInteractive` settles before looking at the remote:
      the normalised URL, `user/repo`, the branch and the id. */
  datatype Plan = Plan(info: Git.UrlInfo, userRepo: string, branch: string, id: string)

  /** The part of the repository a sub-path selects: the path, or "." for
      the whole repository. */
  function Scope(path: Option<string>): (scope: string)
    ensures scope != ""
  {
    if Truthy(path) then path.value else "."
  }

  /** The steps before the remote check. A blank answer returns at once; a git
      older than 2.25 or a URL that is not a GitHub repository throws, and the
      error is reported. The branch is the URL's, or the remote default. */
  function PlanGitHub(git: Git.Oracle, input: string): (p: Option<Plan>)
    ensures p.Some? <==> Trim(input) != "" && Git.CheckGitVersion(git)
                         && MatchUserRepo(Git.NormalizeUrl(input).url).Some?
    ensures p.Some? ==>
      && p.value.info == Git.NormalizeUrl(input)
      && MatchUserRepo(p.value.info.url) == Some(p.value.userRepo)
      && p.value.id == GitHubId(p.value.userRepo, p.value.info.path)
      && p.value.branch != ""
      && (p.value.info.branch.Some? ==> p.value.branch == p.value.info.branch.value)
      && (!Truthy(p.value.info.branch) ==> p.value.branch == Git.GetDefaultBranch(git, p.value.userRepo))
  {
    if Trim(input) == "" || !Git.CheckGitVersion(git) then None
    else
      var info := Git.NormalizeUrl(input);
      match MatchUserRepo(info.url)
      case None => None
      case Some(ur) =>
        var branch := if Truthy(info.branch) then info.branch.value else Git.GetDefaultBranch(git, ur);
        Some(Plan(info, ur, branch, GitHubId(ur, info.path)))
  }

  /** As written, the address of a repository `o/r` with a slash in front of
      its query is refused: its clone URL ends in "/.git", where the
      `user/repo` pattern finds no match, so the add stops before any remote
      check. */
  lemma SlashBeforeQueryRefused(git: Git.Oracle)
    ensures PlanGitHub(git, Git.RepoWebUrl("o", "r") + "/?tab=readme").None?
  {
    Git.AsWrittenKeepsSlashBeforeQuery("o", "r");
    SlashCloneUrlUnmatched();
  }

  /** The pattern matches the clone URL of `o/r` with a slash before ".git"
      nowhere: after the host come three segments, and no later position
      starts with the host. */
  lemma SlashCloneUrlUnmatched()
    ensures MatchUserRepo(Git.RepoWebUrl("o", "r") + "/.git").None?
  {
    var u := Git.RepoWebUrl("o", "r") + "/.git";
    var tail := "r" + "/.git";
    SlashCloneUrlShape();
    Git.TakeSegmentOf("o", tail);
    assert tail[1] == '/';
    assert !MatchesAt(u, 8);
    FirstMatchSkips(u, 0, 8);
    FirstMatchSkips(u, 9, 17);
  }

  /** The clone URL of `o/r` with a slash before ".git": 27 characters, the
      host at 8, then `o/r/.git`, and no "g" before 17 except at 8. */
  lemma SlashCloneUrlShape()
    ensures var u := Git.RepoWebUrl("o", "r") + "/.git";
      && |u| == 27
      && u[8..8 + |Host|] == Host
      && u[8 + |Host|..] == "o" + ("/" + ("r" + "/.git"))
      && forall i :: 0 <= i < 17 && i != 8 ==> u[i] != 'g'
  {
    var p := Git.GitHubPrefix;
    var u := Git.RepoWebUrl("o", "r") + "/.git";
    AppendAssoc(p, "o" + ("/" + "r"), "/.git");
    AppendAssoc("o", "/" + "r", "/.git");
    AppendAssoc("/", "r", "/.git");
    assert u == p + ("o" + ("/" + ("r" + "/.git")));
    assert forall i :: 0 <= i < |p| ==> u[i] == p[i];
    assert u[8..8 + |Host|] == Host by {
      assert u[..|p|] == p;
      assert p[8..] == Host;
    }
    PrefixHasOneG();
  }

  /** The only "g" among the first 17 characters of "https://github.com/" is at 8. */
  lemma PrefixHasOneG()
    ensures forall i :: 0 <= i < 17 && i != 8 ==> Git.GitHubPrefix[i] != 'g'
  {
  }

  /** The clone of a plan into `dest`: sparse on the sub-path when there is
      one, otherwise a full clone. Running the steps succeeds exactly when
      `cloneSparse` on the sub-path and the plan's branch does, or, without a
      sub-path, when the plain `git clone` does. */
  function CloneSteps(p: Plan, dest: string): (steps: seq<Git.GitCmd>)
    ensures Truthy(p.info.path) ==> steps == Git.CloneSparseSteps(p.info.url, dest, p.info.path.value, p.branch)
    ensures !Truthy(p.info.path) ==> steps == [Git.CloneFull(p.info.url, dest)]
    ensures forall git: Git.Oracle ::
      Git.RunAll(git, steps)
      <==> if Truthy(p.info.path) then Git.CloneSparse(git, p.info.url, dest, p.info.path.value, p.branch)
           else git(Git.CloneFull(p.info.url, dest)).Some?
  {
    if Truthy(p.info.path) then Git.CloneSparseSteps(p.info.url, dest, p.info.path.value, p.branch)
    else [Git.CloneFull(p.info.url, dest)]
  }

  /** The registry write of a GitHub add, with the arguments in the order
      `addSkill(id, commitId, type, path)` declares them. */
  function Register(file: Skills.VersionsFile, id: string, commit: string, path: Option<string>): (file': Skills.VersionsFile)
    ensures Skills.GetSkill(file', id) == Some(Skills.Skill(id, Some(commit), Some("github"), path))
    ensures forall other :: other != id ==> Skills.GetSkill(file', other) == Skills.GetSkill(file, other)
  {
    Skills.AddSkill(file, id, Some(commit), Some("github"), path)
  }

  /** The registry write as repo.ts line 505 makes it: `addSkill(id, 'github',
      commitId, path)`, which stores "github" as the commit and the commit as
      the type. */
  function RegisterAsWritten(file: Skills.VersionsFile, id: string, commit: string, path: Option<string>): (file': Skills.VersionsFile)
    ensures Skills.GetSkill(file', id) == Some(Skills.Skill(id, Some("github"), Some(commit), path))
    ensures forall other :: other != id ==> Skills.GetSkill(file', other) == Skills.GetSkill(file, other)
  {
    Skills.AddSkill(file, id, Some("github"), Some(commit), path)
  }

  /** A record written as repo.ts writes it is never looked at by the update
      check, whatever git answers, unless the commit is literally "github". */
  lemma AsWrittenNeverChecked(git: Git.Oracle, repoDir: string, file: Skills.VersionsFile,
                              id: string, commit: string, path: Option<string>)
    requires commit != "github"
    ensures var s := Skills.GetSkill(RegisterAsWritten(file, id, commit, path), id).value;
      !Tracked(s) && CheckOne(git, repoDir, s).None?
  {
  }

  /** The same on the record of `github:u/r` at commit "abc". */
  lemma AsWrittenExample(git: Git.Oracle)
    ensures Skills.GetSkill(RegisterAsWritten(None, "github:u/r", "abc", None), "github:u/r")
            == Some(Skills.Skill("github:u/r", Some("github"), Some("abc"), None))
    ensures CheckOne(git, "/repo", Skills.GetSkill(RegisterAsWritten(None, "github:u/r", "abc", None), "github:u/r").value).None?
  {
    AsWrittenNeverChecked(git, "/repo", None, "github:u/r", "abc", None);
  }

  /** A record written with the arguments in their declared order is looked
      at by the update check, which recovers the `user/repo` it was added
      from and compares commits on the scope the add resolved its commit on. */
  lemma RegisteredIsChecked(file: Skills.VersionsFile, userRepo: string, commit: string, path: Option<string>)
    requires ':' !in userRepo
    requires Truthy(path) ==> ':' !in path.value
    ensures var id := GitHubId(userRepo, path);
      var s := Skills.GetSkill(Register(file, id, commit, path), id).value;
      && Tracked(s)
      && s.commitId == Some(commit)
      && UserRepoOf(s) == Some(userRepo)
      && ScopeOf(s) == Scope(path)
  {
    UserRepoRoundTrip(userRepo, path, Some(commit));
  }

  /** `addGitHubSkillInteractive(input)` up to the registry write: `Stopped`
      with the effects taken so far, or `Cloned` with the commit to record. */
  datatype GitHubRun = Stopped(effects: seq<Effect>) | Cloned(effects: seq<Effect>, plan: Plan, commit: string)

  /** The disk steps of a GitHub add up to the clone: the old storage
      directory removed when the skill was already registered, the parent
      directory made, then the clone. */
  function CloneEffects(p: Plan, dest: string, registered: bool): (effects: seq<Effect>)
    ensures |effects| >= 2 && effects[|effects| - 1] == Clone(CloneSteps(p, dest))
    ensures RemoveDir(dest) in effects <==> registered
  {
    (if registered then [RemoveDir(dest)] else []) + [MakeDir(Paths.Dirname(dest)), Clone(CloneSteps(p, dest))]
  }

  /** A run that reached the clone: its disk steps end with the clone of its
      plan into the id's storage path, and its commit is the one read there
      for the plan's scope. */
  predicate ClonedInto(git: Git.Oracle, repoDir: string, r: GitHubRun)
    requires r.Cloned?
  {
    var dest := Config.GetRepoPath(repoDir, r.plan.id);
    && Git.LocalPathCommit(git, dest, Scope(r.plan.info.path)) == Some(r.commit)
    && |r.effects| >= 2
    && r.effects[|r.effects| - 1] == Clone(CloneSteps(r.plan, dest))
  }

  /** The steps of a GitHub add. The remote manifest check comes before any
      change; an existing id needs `overwrite`, and then its storage
      directory is removed first; the clone follows, then the commit of the
      cloned scope. Any failure ends the add before the registry write.
      `fileExists`, `tmpDir` and `removeOk` serve the manifest check. */
  function RunGitHub(git: Git.Oracle, fileExists: string -> bool, tmpDir: string, removeOk: bool,
                     repoDir: string, file: Skills.VersionsFile, input: string, overwrite: bool): (r: GitHubRun)
    ensures r.Cloned? ==> PlanGitHub(git, input) == Some(r.plan) && ClonedInto(git, repoDir, r)
  {
    match PlanGitHub(git, input)
    case None => Stopped([])
    case Some(p) => RunPlan(git, fileExists, tmpDir, removeOk, repoDir, file, p, overwrite)
  }

  /** The steps of a GitHub add once its plan is made. */
  function RunPlan(git: Git.Oracle, fileExists: string -> bool, tmpDir: string, removeOk: bool,
                   repoDir: string, file: Skills.VersionsFile, p: Plan, overwrite: bool): (r: GitHubRun)
    ensures r.Cloned? ==> r.plan == p && ClonedInto(git, repoDir, r)
  {
    if !Git.CheckRemoteSkillMd(git, fileExists, tmpDir, removeOk, p.userRepo, p.branch, p.info.path) then Stopped([])
    else if Skills.GetSkill(file, p.id).Some? && !overwrite then Stopped([])
    else
      var dest := Config.GetRepoPath(repoDir, p.id);
      var effects := CloneEffects(p, dest, Skills.GetSkill(file, p.id).Some?);
      if !Git.RunAll(git, CloneSteps(p, dest)) then Stopped(effects)
      else
        match Git.LocalPathCommit(git, dest, Scope(p.info.path))
        case None => Stopped(effects)
        case Some(c) => Cloned(effects, p, c)
  }

  /** What a GitHub add needs to get as far as the registry write. */
  predicate GitHubAddSucceeds(git: Git.Oracle, fileExists: string -> bool, tmpDir: string, removeOk: bool,
                              repoDir: string, file: Skills.VersionsFile, input: string, overwrite: bool)
  {
    && PlanGitHub(git, input).Some?
    && PlanSucceeds(git, fileExists, tmpDir, removeOk, repoDir, file, PlanGitHub(git, input).value, overwrite)
  }

  /** What a made plan needs to get as far as the registry write. */
  predicate PlanSucceeds(git: Git.Oracle, fileExists: string -> bool, tmpDir: string, removeOk: bool,
                         repoDir: string, file: Skills.VersionsFile, p: Plan, overwrite: bool)
  {
    var dest := Config.GetRepoPath(repoDir, p.id);
    && Git.CheckRemoteSkillMd(git, fileExists, tmpDir, removeOk, p.userRepo, p.branch, p.info.path)
    && (Skills.GetSkill(file, p.id).None? || overwrite)
    && Git.RunAll(git, CloneSteps(p, dest))
    && Git.LocalPathCommit(git, dest, Scope(p.info.path)).Some?
  }

  /** A GitHub add reaches the registry write exactly when its plan is made,
      the remote manifest is found, an existing id is overwritten, the clone
      succeeds and the commit of the cloned scope is read. */
  lemma RunGitHubCloned(git: Git.Oracle, fileExists: string -> bool, tmpDir: string, removeOk: bool,
                        repoDir: string, file: Skills.VersionsFile, input: string, overwrite: bool)
    ensures RunGitHub(git, fileExists, tmpDir, removeOk, repoDir, file, input, overwrite).Cloned?
            <==> GitHubAddSucceeds(git, fileExists, tmpDir, removeOk, repoDir, file, input, overwrite)
  {
    match PlanGitHub(git, input)
    case None =>
    case Some(p) =>
      RunPlanCloned(git, fileExists, tmpDir, removeOk, repoDir, file, p, overwrite);
  }

  /** Once the plan is made, the add reaches the registry write exactly when
      every later step succeeds. */
  lemma RunPlanCloned(git: Git.Oracle, fileExists: string -> bool, tmpDir: string, removeOk: bool,
                      repoDir: string, file: Skills.VersionsFile, p: Plan, overwrite: bool)
    ensures RunPlan(git, fileExists, tmpDir, removeOk, repoDir, file, p, overwrite).Cloned?
            <==> PlanSucceeds(git, fileExists, tmpDir, removeOk, repoDir, file, p, overwrite)
  {
  }

  /** `addGitHubSkillInteractive(input)`, the registry written last. */
  function AddGitHub(git: Git.Oracle, fileExists: string -> bool, tmpDir: string, removeOk: bool,
                     repoDir: string, file: Skills.VersionsFile, input: string, overwrite: bool): (out: Outcome)
    ensures PlanGitHub(git, input).None? ==> out == Nothing(file)
    ensures PlanGitHub(git, input).Some? ==>
      var p := PlanGitHub(git, input).value;
      && (!Git.CheckRemoteSkillMd(git, fileExists, tmpDir, removeOk, p.userRepo, p.branch, p.info.path) ==> out == Nothing(file))
      && (Skills.GetSkill(file, p.id).Some? && !overwrite ==> out == Nothing(file))
      && (forall id :: id != p.id ==> Skills.GetSkill(out.file, id) == Skills.GetSkill(file, id))
  {
    match RunGitHub(git, fileExists, tmpDir, removeOk, repoDir, file, input, overwrite)
    case Stopped(effects) => Outcome(effects, None, [], file)
    case Cloned(effects, p, c) => Outcome(effects, Some(p.id), [], RegisterAsWritten(file, p.id, c, p.info.path))
  }

  /** A GitHub add writes the registry exactly when the plan holds, the remote
      has the manifest, the id is new or may be overwritten, the clone
      succeeds and the cloned scope has a commit. Nothing happens after the
      write, and without it the registry is untouched. */
  lemma AddGitHubWrites(git: Git.Oracle, fileExists: string -> bool, tmpDir: string, removeOk: bool,
                        repoDir: string, file: Skills.VersionsFile, input: string, overwrite: bool)
    ensures var out := AddGitHub(git, fileExists, tmpDir, removeOk, repoDir, file, input, overwrite);
      && (out.written.Some? <==> GitHubAddSucceeds(git, fileExists, tmpDir, removeOk, repoDir, file, input, overwrite))
      && out.after == []
      && (out.written.None? ==> out.file == file)
  {
    RunGitHubCloned(git, fileExists, tmpDir, removeOk, repoDir, file, input, overwrite);
  }

  /** When a GitHub add writes the registry, the steps before the write are
      those of the run, which end with the clone (see RunGitHub), and the
      record holds, as repo.ts line 505 passes them, "github" as the commit,
      the commit of the cloned scope as the type, and the sub-path. */
  lemma AddGitHubRecord(git: Git.Oracle, fileExists: string -> bool, tmpDir: string, removeOk: bool,
                        repoDir: string, file: Skills.VersionsFile, input: string, overwrite: bool)
    requires AddGitHub(git, fileExists, tmpDir, removeOk, repoDir, file, input, overwrite).written.Some?
    ensures var r := RunGitHub(git, fileExists, tmpDir, removeOk, repoDir, file, input, overwrite);
      var out := AddGitHub(git, fileExists, tmpDir, removeOk, repoDir, file, input, overwrite);
      && r.Cloned?
      && out.written == Some(r.plan.id)
      && out.before == r.effects
      && out.after == []
      && Skills.GetSkill(out.file, r.plan.id) == Some(Skills.Skill(r.plan.id, Some("github"), Some(r.commit), r.plan.info.path))
  {
  }

  /** The record a GitHub add writes is looked at by the update check only
      when the commit it resolved is literally "github". */
  lemma AddGitHubUnchecked(git: Git.Oracle, fileExists: string -> bool, tmpDir: string, removeOk: bool,
                           repoDir: string, file: Skills.VersionsFile, input: string, overwrite: bool, checkGit: Git.Oracle)
    requires AddGitHub(git, fileExists, tmpDir, removeOk, repoDir, file, input, overwrite).written.Some?
    ensures var r := RunGitHub(git, fileExists, tmpDir, removeOk, repoDir, file, input, overwrite);
      var out := AddGitHub(git, fileExists, tmpDir, removeOk, repoDir, file, input, overwrite);
      && r.Cloned?
      && Skills.GetSkill(out.file, r.plan.id).Some?
      && var s := Skills.GetSkill(out.file, r.plan.id).value;
      && (Tracked(s) <==> r.commit == "github")
      && (r.commit != "github" ==> CheckOne(checkGit, repoDir, s).None?)
  {
    var r := RunGitHub(git, fileExists, tmpDir, removeOk, repoDir, file, input, overwrite);
    var out := AddGitHub(git, fileExists, tmpDir, removeOk, repoDir, file, input, overwrite);
    AddGitHubRecord(git, fileExists, tmpDir, removeOk, repoDir, file, input, overwrite);
    TypeIsCommit(checkGit, repoDir, Skills.GetSkill(out.file, r.plan.id).value, r.commit);
  }

  /** A record whose type holds a commit is tracked only when that commit is "github". */
  lemma TypeIsCommit(git: Git.Oracle, repoDir: string, s: Skills.Skill, commit: string)
    requires s.kind == Some(commit)
    ensures Tracked(s) <==> commit == "github"
    ensures commit != "github" ==> CheckOne(git, repoDir, s).None?
  {
  }

  // ---------------------------------------------------------------------------
  // addLocalSkillInteractive

  /** The registry write of a local add: no commit, type "local". */
  function RegisterLocal(file: Skills.VersionsFile, id: string): (file': Skills.VersionsFile)
    ensures Skills.GetSkill(file', id) == Some(Skills.Skill(id, None, Some("local"), None))
    ensures forall other :: other != id ==> Skills.GetSkill(file', other) == Skills.GetSkill(file, other)
  {
    Skills.AddSkill(file, id, None, Some("local"), None)
  }

  /** The registry write as repo.ts line 388 makes it: `addSkill(id, 'local')`,
      which stores "local" as the commit and no type at all. */
  function RegisterLocalAsWritten(file: Skills.VersionsFile, id: string): (file': Skills.VersionsFile)
    ensures Skills.GetSkill(file', id) == Some(Skills.Skill(id, Some("local"), None, None))
    ensures forall other :: other != id ==> Skills.GetSkill(file', other) == Skills.GetSkill(file, other)
  {
    Skills.AddSkill(file, id, Some("local"), None, None)
  }

  /** A local record written as repo.ts writes it has no type and a commit of
      "local"; the one written in declared order has type "local" and no commit. */
  lemma LocalAsWrittenHasNoType(file: Skills.VersionsFile, id: string)
    ensures Skills.GetSkill(RegisterLocalAsWritten(file, id), id).value.kind.None?
    ensures Skills.GetSkill(RegisterLocalAsWritten(file, id), id).value.commitId == Some("local")
    ensures Skills.GetSkill(RegisterLocal(file, id), id).value.kind == Some("local")
    ensures Skills.GetSkill(RegisterLocal(file, id), id).value.commitId.None?
  {
  }

  /** The name of the directory a local skill is added from. */
  const Manifest := "SKILL.md"

  /** `addLocalSkillInteractive` up to the registry write. */
  datatype LocalRun = LocalStopped(effects: seq<Effect>) | Copied(effects: seq<Effect>, id: string, src: string, dest: string)

  /** The steps of a local add. `resolve` turns the trimmed answer into an
      absolute path (`~` expansion and `path.resolve`), `present` and `isDir`
      answer for the file system, `removeOk` and `copyOk` say whether the
      removal of an existing stored copy and the copy succeed; either failure
      throws out of the command. The directory must exist, be a directory and
      hold a `SKILL.md` before anything happens. */
  function RunLocal(present: string -> bool, isDir: string -> bool, resolve: string -> string,
                    repoDir: string, file: Skills.VersionsFile, input: string, overwrite: bool,
                    removeOk: bool, copyOk: bool): (r: LocalRun)
    ensures r.Copied? <==>
      && Trim(input) != ""
      && var src := resolve(Trim(input));
      && present(src) && isDir(src) && present(Paths.Join(src, Manifest))
      && (Skills.GetSkill(file, "local:" + Paths.Basename(src)).Some? ==> overwrite && removeOk)
      && copyOk
    ensures r.Copied? ==>
      && r.src == resolve(Trim(input))
      && r.id == "local:" + Paths.Basename(r.src)
      && r.dest == Config.GetRepoPath(repoDir, r.id)
      && |r.effects| >= 1
      && r.effects[|r.effects| - 1] == CopyDir(r.src, r.dest)
  {
    if Trim(input) == "" then LocalStopped([])
    else
      var src := resolve(Trim(input));
      if !present(src) || !isDir(src) || !present(Paths.Join(src, Manifest)) then LocalStopped([])
      else
        var id := "local:" + Paths.Basename(src);
        if Skills.GetSkill(file, id).Some? && !overwrite then LocalStopped([])
        else
          var dest := Config.GetRepoPath(repoDir, id);
          var pre := if Skills.GetSkill(file, id).Some? then [RemoveDir(dest)] else [];
          if pre != [] && !removeOk then LocalStopped(pre)
          else
            var effects := pre + [CopyDir(src, dest)];
            if !copyOk then LocalStopped(effects) else Copied(effects, id, src, dest)
  }

  /** What happens to the original directory after a local add: "3" deletes
      it, "2" replaces it with a link to the stored copy, anything else keeps it. */
  function HandleOriginal(action: string, src: string, dest: string): (effects: seq<Effect>)
    ensures forall e :: e in effects ==> !e.CopyDir? && (e.MakeLink? ==> e == MakeLink(dest, src))
    ensures RemoveDir(src) in effects <==> action == "2" || action == "3"
    ensures MakeLink(dest, src) in effects <==> action == "2"
    ensures action == "2" ==> effects[0] == RemoveDir(src) && effects[|effects| - 1] == MakeLink(dest, src)
  {
    if action == "3" then [RemoveDir(src)]
    else if action == "2" then [RemoveDir(src), MakeLink(dest, src)]
    else []
  }

  /** `addLocalSkillInteractive()`. */
  function AddLocal(present: string -> bool, isDir: string -> bool, resolve: string -> string,
                    repoDir: string, file: Skills.VersionsFile, input: string, overwrite: bool,
                    removeOk: bool, copyOk: bool, action: string): (out: Outcome)
    ensures Trim(input) == "" ==> out == Nothing(file)
    ensures var src := resolve(Trim(input));
      Trim(input) != "" && (!present(src) || !isDir(src) || !present(Paths.Join(src, Manifest))) ==> out == Nothing(file)
    ensures forall id :: !StartsWith(id, "local:") ==> Skills.GetSkill(out.file, id) == Skills.GetSkill(file, id)
  {
    match RunLocal(present, isDir, resolve, repoDir, file, input, overwrite, removeOk, copyOk)
    case LocalStopped(effects) => Outcome(effects, None, [], file)
    case Copied(effects, id, src, dest) => Outcome(effects, Some(id), HandleOriginal(action, src, dest), RegisterLocalAsWritten(file, id))
  }

  /** A local add writes the registry exactly when the directory passes the
      checks, the id `local:<directory name>` is new or may be overwritten and
      its old copy is removed, and the copy succeeds. Without the write the registry is untouched and
      the original directory is left alone. */
  lemma AddLocalWrites(present: string -> bool, isDir: string -> bool, resolve: string -> string,
                       repoDir: string, file: Skills.VersionsFile, input: string, overwrite: bool,
                       removeOk: bool, copyOk: bool, action: string)
    ensures var out := AddLocal(present, isDir, resolve, repoDir, file, input, overwrite, removeOk, copyOk, action);
      var src := resolve(Trim(input));
      out.written.Some? <==>
        && Trim(input) != ""
        && present(src) && isDir(src) && present(Paths.Join(src, Manifest))
        && (Skills.GetSkill(file, "local:" + Paths.Basename(src)).Some? ==> overwrite && removeOk)
        && copyOk
    ensures var out := AddLocal(present, isDir, resolve, repoDir, file, input, overwrite, removeOk, copyOk, action);
      out.written.None? ==> out.file == file && out.after == []
  {
    var r := RunLocal(present, isDir, resolve, repoDir, file, input, overwrite, removeOk, copyOk);
    assert AddLocal(present, isDir, resolve, repoDir, file, input, overwrite, removeOk, copyOk, action).written.Some? <==> r.Copied?;
  }

  /** When a local add writes the registry, the steps before the write are
      those of the run, which end with the copy (see RunLocal); the record of
      `local:<directory name>` holds, as repo.ts line 388 passes it, "local" as
      the commit and no type, and the original directory is handled after
      the write. */
  lemma AddLocalRecord(present: string -> bool, isDir: string -> bool, resolve: string -> string,
                       repoDir: string, file: Skills.VersionsFile, input: string, overwrite: bool,
                       removeOk: bool, copyOk: bool, action: string)
    requires AddLocal(present, isDir, resolve, repoDir, file, input, overwrite, removeOk, copyOk, action).written.Some?
    ensures var r := RunLocal(present, isDir, resolve, repoDir, file, input, overwrite, removeOk, copyOk);
      var out := AddLocal(present, isDir, resolve, repoDir, file, input, overwrite, removeOk, copyOk, action);
      && r.Copied?
      && out.written == Some(r.id)
      && out.before == r.effects
      && out.after == HandleOriginal(action, r.src, r.dest)
      && Skills.GetSkill(out.file, r.id) == Some(Skills.Skill(r.id, Some("local"), None, None))
  {
  }

  // ---------------------------------------------------------------------------
  // deleteSkill

  /** `deleteSkill(id)`: only when the deletion is confirmed is the storage
      directory removed and then the record; a failed removal throws before
      the registry write. */
  function DeleteSkill(repoDir: string, file: Skills.VersionsFile, id: string, sure: bool, removeOk: bool): (out: Outcome)
    ensures id == "" || !sure ==> out == Nothing(file)
    ensures id != "" && sure ==> out.before == [RemoveDir(Config.GetRepoPath(repoDir, id))] && out.after == []
    ensures out.written.Some? <==> id != "" && sure && removeOk
    ensures out.written.None? ==> out.file == file
    ensures out.written.Some? ==> Skills.GetSkill(out.file, id).None?
    ensures forall other :: other != id ==> Skills.GetSkill(out.file, other) == Skills.GetSkill(file, other)
  {
    if id == "" || !sure then Nothing(file)
    else if !removeOk then Outcome([RemoveDir(Config.GetRepoPath(repoDir, id))], None, [], file)
    else Outcome([RemoveDir(Config.GetRepoPath(repoDir, id))], Some(id), [], Skills.RemoveSkill(file, id))
  }

  /** Deleting a skill just added leaves the registry answering as before the add. */
  lemma DeleteAfterAdd(repoDir: string, file: Skills.VersionsFile, id: string, commit: string, path: Option<string>)
    requires id != "" && Skills.GetSkill(file, id).None?
    ensures forall k :: Skills.GetSkill(DeleteSkill(repoDir, RegisterAsWritten(file, id, commit, path), id, true, true).file, k)
                        == Skills.GetSkill(file, k)
  {
  }
}

=== FILE: skills.dfy ===
/** The skill registry of src/core/skills.ts: the JSON object stored in
    `repo/versions.json`, mapping a skill id to its commit, source type and
    sub-path. Every operation reads the whole file and writes it back whole. */
module Skills {
  import opened Wrappers

  /** The value stored under an id. JSON drops fields whose value is
      `undefined`, so each of the three may be absent. */
  datatype StoredSkill = StoredSkill(commitId: Option<string>, kind: Option<string>, path: Option<string>)

  /** A record as handed to callers: the stored fields with the id re-attached. */
  datatype Skill = Skill(id: string, commitId: Option<string>, kind: Option<string>, path: Option<string>)

  /** The parsed JSON object: its keys in insertion order (the order
      `Object.entries` reports) and the value under each key. */
  datatype Table = Table(order: seq<string>, records: map<string, StoredSkill>) {
    predicate Valid() {
      && Distinct(order)
      && (forall i :: 0 <= i < |order| ==> order[i] in records)
      && (forall id :: id in records ==> id in order)
    }
  }

  predicate Distinct(xs: seq<string>) {
    forall i, j :: 0 <= i < j < |xs| ==> xs[i] != xs[j]
  }

  /** A JSON object never holds a key twice, and lists every key it holds. */
  type Registry = t: Table | t.Valid() witness Table([], map[])

  /** The content of versions.json, or None while the file does not exist. */
  type VersionsFile = Option<Registry>

  const Empty: Registry := Table([], map[])

  /** `getStoredSkills`: a missing file reads as the empty object. */
  function Load(file: VersionsFile): (r: Registry)
    ensures file.None? ==> r.records == map[]
    ensures file.Some? ==> r == file.value
  {
    file.GetOr(Empty)
  }

  function WithId(id: string, s: StoredSkill): Skill {
    Skill(id, s.commitId, s.kind, s.path)
  }

  /** `getSkill`: the stored record with its id attached, or None for an unknown id. */
  function GetSkill(file: VersionsFile, id: string): (s: Option<Skill>)
    ensures s.Some? <==> id in Load(file).records
    ensures s.Some? ==> s.value.id == id
    ensures file.None? ==> s.None?
  {
    var r := Load(file);
    if id in r.records then Some(WithId(id, r.records[id])) else None
  }

  /** `skills[id] = value` on a JavaScript object: a new key goes last, an
      existing key keeps its place. */
  function Put(r: Registry, id: string, v: StoredSkill): (r': Registry)
    ensures r'.records == r.records[id := v]
    ensures id in r.records ==> r'.order == r.order
    ensures id !in r.records ==> r'.order == r.order + [id]
  {
    var order := if id in r.records then r.order else r.order + [id];
    var t := Table(order, r.records[id := v]);
    assert t.Valid() by {
      if id !in r.records {
        assert forall i :: 0 <= i < |r.order| ==> r.order[i] != id;
        assert forall i :: 0 <= i < |r.order| ==> order[i] == r.order[i];
      }
    }
    t
  }

  /** The keys of `order` other than `id`, in order. */
  function Without(order: seq<string>, id: string): (o: seq<string>)
    ensures forall k :: k in o <==> k in order && k != id
    ensures Distinct(order) ==> Distinct(o)
    ensures id !in order ==> o == order
  {
    if |order| == 0 then []
    else
      var rest := Without(order[1..], id);
      DistinctTail(order);
      if order[0] == id then rest
      else
        DistinctCons(order[0], rest);
        [order[0]] + rest
  }

  /** Dropping a key the order holds once removes exactly its position: the
      keys before it and the keys after it keep their order. */
  lemma {:induction false} WithoutRemovesOne(order: seq<string>, id: string, k: nat)
    requires Distinct(order) && k < |order| && order[k] == id
    ensures Without(order, id) == order[..k] + order[k + 1..]
  {
    DistinctTail(order);
    var rest := order[1..];
    if k == 0 {
      WithoutFirst(order, id);
    } else {
      assert order[0] != id by {
        assert order[0] == order[k] ==> false;
      }
      WithoutRemovesOne(rest, id, k - 1);
      CutAfterHead(order, k);
    }
  }

  /** Dropping the first key, which the rest does not hold, leaves the rest. */
  lemma WithoutFirst(order: seq<string>, id: string)
    requires |order| > 0 && order[0] == id && id !in order[1..]
    ensures Without(order, id) == order[..0] + order[1..]
  {
    assert order[..0] + order[1..] == order[1..];
  }

  /** Cutting out position `k > 0` keeps the first element in front. */
  lemma CutAfterHead<T>(xs: seq<T>, k: nat)
    requires 0 < k < |xs|
    ensures xs[..k] + xs[k + 1..] == [xs[0]] + (xs[1..][..k - 1] + xs[1..][k..])
  {
    assert xs[..k] == [xs[0]] + xs[1..][..k - 1];
    assert xs[k + 1..] == xs[1..][k..];
  }

  lemma DistinctTail(xs: seq<string>)
    requires |xs| > 0
    ensures Distinct(xs) ==> Distinct(xs[1..]) && xs[0] !in xs[1..]
  {
    if Distinct(xs) {
      assert forall i :: 0 <= i < |xs| - 1 ==> xs[1..][i] == xs[i + 1];
    }
  }

  lemma DistinctCons(x: string, xs: seq<string>)
    ensures x !in xs && Distinct(xs) ==> Distinct([x] + xs)
  {
    if x !in xs && Distinct(xs) {
      assert forall i :: 0 < i <= |xs| ==> ([x] + xs)[i] == xs[i - 1];
    }
  }

  /** `addSkill(id, commitId, type, path)`: stores the record under `id`,
      replacing any earlier one, and writes the file. */
  function AddSkill(file: VersionsFile, id: string, commitId: Option<string>,
                    kind: Option<string>, path: Option<string>): (file': VersionsFile)
    ensures file'.Some?
    ensures GetSkill(file', id) == Some(Skill(id, commitId, kind, path))
    ensures forall other :: other != id ==> GetSkill(file', other) == GetSkill(file, other)
  {
    Some(Put(Load(file), id, StoredSkill(commitId, kind, path)))
  }

  /** `removeSkill(id)`: deletes the record under `id` if there is one, and
      writes the file in every case. */
  function RemoveSkill(file: VersionsFile, id: string): (file': VersionsFile)
    ensures file'.Some?
    ensures GetSkill(file', id).None?
    ensures forall other :: other != id ==> GetSkill(file', other) == GetSkill(file, other)
    ensures GetSkill(file, id).None? ==> Load(file') == Load(file)
  {
    var r := Load(file);
    var o := Without(r.order, id);
    var t := Table(o, r.records - {id});
    assert t.Valid() by {
      assert Distinct(o);
      forall i | 0 <= i < |o|
        ensures o[i] in t.records
      {
        assert o[i] in r.order && o[i] != id;
      }
      forall k | k in t.records
        ensures k in o
      {
        assert k in r.records && k != id;
      }
    }
    assert id !in r.records ==> r.records - {id} == r.records;
    Some(t)
  }

  /** `updateSkillVersion(id, commit)`: replaces only the commit of an existing
      record; an unknown id leaves the file untouched (not even written). */
  function UpdateSkillVersion(file: VersionsFile, id: string, newCommitId: string): (file': VersionsFile)
    ensures GetSkill(file, id).None? ==> file' == file
    ensures GetSkill(file, id).Some? ==>
      GetSkill(file', id) == Some(GetSkill(file, id).value.(commitId := Some(newCommitId)))
    ensures forall other :: other != id ==> GetSkill(file', other) == GetSkill(file, other)
  {
    var r := Load(file);
    if id in r.records then
      Some(Put(r, id, r.records[id].(commitId := Some(newCommitId))))
    else file
  }

  /** `getAllSkills`: one record per stored key, in key order. */
  function GetAllSkills(file: VersionsFile): (skills: seq<Skill>)
    ensures |skills| == |Load(file).order|
    ensures forall i :: 0 <= i < |skills| ==> GetSkill(file, skills[i].id) == Some(skills[i])
    ensures forall id :: GetSkill(file, id).Some? ==> exists i :: 0 <= i < |skills| && skills[i].id == id
    ensures forall i, j :: 0 <= i < j < |skills| ==> skills[i].id != skills[j].id
  {
    var r := Load(file);
    var skills := seq(|r.order|, i requires 0 <= i < |r.order| => WithId(r.order[i], r.records[r.order[i]]));
    assert forall i :: 0 <= i < |skills| ==> skills[i].id == r.order[i];
    skills
  }

  /** Adding a record to a missing file writes an object holding that one
      key, whose value carries the commit, the type and the path but not the
      id (the fixture of the registry tests). */
  lemma AddSkillToMissingFile()
    ensures AddSkill(None, "id", Some("commit"), Some("type"), None)
            == Some(Table(["id"], map["id" := StoredSkill(Some("commit"), Some("type"), None)]))
    ensures GetSkill(AddSkill(None, "id", Some("commit"), Some("type"), None), "id")
            == Some(Skill("id", Some("commit"), Some("type"), None))
  {
    var v := StoredSkill(Some("commit"), Some("type"), None);
    var t := AddSkill(None, "id", Some("commit"), Some("type"), None).value;
    assert t.order == Empty.order + ["id"] == ["id"];
    assert t.records == Empty.records["id" := v] == map["id" := v];
  }

  /** Adding a record twice with the same fields leaves the same file as adding it once. */
  lemma AddSkillIdempotent(file: VersionsFile, id: string, commitId: Option<string>,
                           kind: Option<string>, path: Option<string>)
    ensures AddSkill(AddSkill(file, id, commitId, kind, path), id, commitId, kind, path)
            == AddSkill(file, id, commitId, kind, path)
  {
    var once := AddSkill(file, id, commitId, kind, path);
    assert id in once.value.records;
    assert once.value.records[id := StoredSkill(commitId, kind, path)] == once.value.records;
  }

  /** Removing a record and adding it again leaves every lookup as before the
      removal, with the record replaced. */
  lemma RemoveThenAdd(file: VersionsFile, id: string, s: StoredSkill)
    ensures var f := AddSkill(RemoveSkill(file, id), id, s.commitId, s.kind, s.path);
      forall k :: GetSkill(f, k) == GetSkill(AddSkill(file, id, s.commitId, s.kind, s.path), k)
  {
  }
}

=== FILE: strings.dfy ===
/** The JavaScript string operations the skill manager relies on (`split`,
    `join`, global `replace`, `trim`, `substring`, `endsWith`), stated over
    `seq<char>`. */
module Strings {
  import opened Wrappers

  /** JavaScript truthiness of an optional string: present and non-empty. */
  predicate Truthy(o: Option<string>) {
    o.Some? && o.value != ""
  }

  predicate StartsWith(s: string, prefix: string) {
    |prefix| <= |s| && s[..|prefix|] == prefix
  }

  predicate EndsWith(s: string, suffix: string) {
    |suffix| <= |s| && s[|s| - |suffix|..] == suffix
  }

  /** Position of the first `c` in `s`, or `|s|` when `s` has none. */
  function IndexOf(s: string, c: char): (i: nat)
    ensures i <= |s|
    ensures forall k :: 0 <= k < i ==> s[k] != c
    ensures i < |s| ==> s[i] == c
  {
    if |s| == 0 then 0
    else if s[0] == c then 0
    else 1 + IndexOf(s[1..], c)
  }

  /** `IndexOf` runs to the end exactly when the character does not occur. */
  lemma IndexOfMember(s: string, c: char)
    ensures IndexOf(s, c) == |s| <==> c !in s
  {
    var i := IndexOf(s, c);
    if i < |s| {
      assert s[i] == c;
    }
  }

  /** True when a "__" starts at position k of s. */
  predicate PairAt(s: string, k: int) {
    0 <= k && k + 1 < |s| && s[k] == '_' && s[k + 1] == '_'
  }

  /** Position of the first "__" in `s`, scanning left to right, or `|s|` when there is none. */
  function IndexOfPair(s: string): (i: nat)
    ensures i <= |s|
    ensures i < |s| ==> PairAt(s, i)
    ensures forall k :: 0 <= k < i ==> !PairAt(s, k)
    ensures i == |s| ==> forall k :: !PairAt(s, k)
  {
    if |s| < 2 then |s|
    else if s[0] == '_' && s[1] == '_' then 0
    else
      var j := IndexOfPair(s[1..]);
      assert forall k :: 1 <= k ==> (PairAt(s, k) <==> PairAt(s[1..], k - 1));
      1 + j
  }

  /** JavaScript `s.split(c)` for a one-character separator. */
  function Split(s: string, c: char): (parts: seq<string>)
    ensures |parts| >= 1
    ensures |parts| == 1 <==> c !in s
    ensures parts[0] == s[..IndexOf(s, c)]
    decreases |s|
  {
    var i := IndexOf(s, c);
    if i == |s| then [s] else [s[..i]] + Split(s[i + 1..], c)
  }

  /** JavaScript `s.split('__')`: non-overlapping occurrences, left to right. */
  function SplitPairs(s: string): (parts: seq<string>)
    ensures |parts| >= 1
    ensures |parts| == 1 <==> IndexOfPair(s) == |s|
    ensures parts[0] == s[..IndexOfPair(s)]
    decreases |s|
  {
    var i := IndexOfPair(s);
    if i == |s| then [s] else [s[..i]] + SplitPairs(s[i + 2..])
  }

  function Last<T>(xs: seq<T>): T
    requires |xs| > 0
  {
    xs[|xs| - 1]
  }

  /** JavaScript `parts.join(sep)`. */
  function Join(parts: seq<string>, sep: string): string
  {
    if |parts| == 0 then ""
    else if |parts| == 1 then parts[0]
    else parts[0] + sep + Join(parts[1..], sep)
  }

  /** JavaScript `s.replace(/c/g, by)`: every `c` replaced by `by`. */
  function ReplaceAll(s: string, c: char, rep: string): (r: string)
    ensures c !in rep ==> c !in r
    ensures c !in s ==> r == s
  {
    if |s| == 0 then ""
    else (if s[0] == c then rep else [s[0]]) + ReplaceAll(s[1..], c, rep)
  }

  /** JavaScript `s.replace(/c+$/, '')`: the trailing run of `c` removed. */
  function TrimEnd(s: string, c: char): (r: string)
    ensures |r| <= |s| && r == s[..|r|]
    ensures r == "" || r[|r| - 1] != c
    ensures forall k :: |r| <= k < |s| ==> s[k] == c
  {
    if |s| > 0 && s[|s| - 1] == c then TrimEnd(s[..|s| - 1], c) else s
  }

  /** The characters JavaScript's `String.prototype.trim` removes
      (white space and line terminators). */
  predicate IsSpace(ch: char) {
    || ch == ' ' || ch == '\t' || ch == '\n' || ch == '\U{000B}' || ch == '\U{000C}' || ch == '\r'
    || ch == '\U{00A0}' || ch == '\U{1680}' || ('\U{2000}' <= ch <= '\U{200A}')
    || ch == '\U{2028}' || ch == '\U{2029}' || ch == '\U{202F}' || ch == '\U{205F}'
    || ch == '\U{3000}' || ch == '\U{FEFF}'
  }

  function TrimStartSpace(s: string): (r: string)
    ensures |r| <= |s| && r == s[|s| - |r|..]
    ensures r == "" || !IsSpace(r[0])
    ensures forall k :: 0 <= k < |s| - |r| ==> IsSpace(s[k])
  {
    if |s| > 0 && IsSpace(s[0]) then TrimStartSpace(s[1..]) else s
  }

  function TrimEndSpace(s: string): (r: string)
    ensures |r| <= |s| && r == s[..|r|]
    ensures r == "" || !IsSpace(r[|r| - 1])
    ensures forall k :: |r| <= k < |s| ==> IsSpace(s[k])
  {
    if |s| > 0 && IsSpace(s[|s| - 1]) then TrimEndSpace(s[..|s| - 1]) else s
  }

  /** JavaScript `s.trim()`. */
  function Trim(s: string): string {
    TrimEndSpace(TrimStartSpace(s))
  }

  /** JavaScript `s.trim()` is empty exactly when every character is white space,
      and otherwise it starts and ends with a non-space character of `s`. */
  lemma TrimEmptyIffAllSpace(s: string)
    ensures Trim(s) == "" <==> forall k :: 0 <= k < |s| ==> IsSpace(s[k])
    ensures Trim(s) != "" ==> !IsSpace(Trim(s)[0]) && !IsSpace(Trim(s)[|Trim(s)| - 1])
  {
    var t := TrimStartSpace(s);
    if Trim(s) == "" {
      assert t == "";
    }
  }

  /** JavaScript `s.substring(start, end)`: both bounds clamped to `[0, |s|]`,
      swapped when out of order. */
  function Substring(s: string, start: int, end: int): (r: string)
    ensures 0 <= start <= end <= |s| ==> r == s[start..end]
  {
    var a := if start < 0 then 0 else if start > |s| then |s| else start;
    var b := if end < 0 then 0 else if end > |s| then |s| else end;
    if a <= b then s[a..b] else s[b..a]
  }

  predicate IsDigit(ch: char) {
    '0' <= ch <= '9'
  }

  /** The value of a string of decimal digits (JavaScript `parseInt(ds, 10)`). */
  function DigitsValue(ds: string): nat
    requires forall k :: 0 <= k < |ds| ==> IsDigit(ds[k])
  {
    if |ds| == 0 then 0
    else
      assert IsDigit(ds[|ds| - 1]);
      10 * DigitsValue(ds[..|ds| - 1]) + (ds[|ds| - 1] as int - '0' as int) as nat
  }

  /** Length of the longest prefix of `s` whose characters all satisfy `p`. */
  function RunLength(s: string, p: char -> bool): (n: nat)
    ensures n <= |s|
    ensures forall k :: 0 <= k < n ==> p(s[k])
    ensures n < |s| ==> !p(s[n])
  {
    if |s| > 0 && p(s[0]) then 1 + RunLength(s[1..], p) else 0
  }

  // ---------------------------------------------------------------------------
  // Facts relating split, join and replace

  /** Joining the pieces of a split with the separator gives back the string. */
  lemma {:induction false} JoinSplit(s: string, c: char)
    ensures Join(Split(s, c), [c]) == s
    decreases |s|
  {
    var i := IndexOf(s, c);
    if i < |s| {
      var tail := s[i + 1..];
      JoinSplit(tail, c);
      SplitStep(s, c);
      JoinCons(s[..i], Split(tail, c), [c]);
      SliceAround(s, i);
    }
  }

  lemma SliceAround<T>(s: seq<T>, i: nat)
    requires i < |s|
    ensures s == s[..i] + [s[i]] + s[i + 1..]
  {
  }

  lemma AppendAssoc<T>(a: seq<T>, b: seq<T>, c: seq<T>)
    ensures a + b + c == a + (b + c)
  {
  }

  lemma AppendEmpty<T>(a: seq<T>, b: seq<T>)
    requires a == []
    ensures a + b == b
  {
  }

  lemma SplitStep(s: string, c: char)
    requires IndexOf(s, c) < |s|
    ensures Split(s, c) == [s[..IndexOf(s, c)]] + Split(s[IndexOf(s, c) + 1..], c)
  {
  }

  lemma JoinCons(p: string, rest: seq<string>, sep: string)
    requires |rest| >= 1
    ensures Join([p] + rest, sep) == p + sep + Join(rest, sep)
  {
    assert ([p] + rest)[1..] == rest;
  }

  /** The pieces after the first of a split, joined again, are everything
      after the first separator (later separators are kept). */
  lemma SplitTail(s: string, c: char)
    requires c in s
    ensures Join(Split(s, c)[1..], [c]) == s[IndexOf(s, c) + 1..]
  {
    IndexOfMember(s, c);
    var i := IndexOf(s, c);
    var tail := s[i + 1..];
    var rest := Split(tail, c);
    SplitStep(s, c);
    DropCons(s[..i], rest);
    assert Split(s, c)[1..] == rest;
    JoinSplit(tail, c);
  }

  /** The last piece of a split is what follows the last separator. */
  lemma SplitLastPiece(a: string, b: string, c: char)
    requires a == "" || a[|a| - 1] == c
    requires c !in b
    ensures Last(Split(a + b, c)) == b
  {
    IndexOfMember(b, c);
    SplitLastPieceFrom(a, b, c);
  }

  lemma {:induction false} SplitLastPieceFrom(a: string, b: string, c: char)
    requires a == "" || a[|a| - 1] == c
    requires IndexOf(b, c) == |b|
    ensures Last(Split(a + b, c)) == b
    decreases |a|
  {
    if a == "" {
      AppendEmpty(a, b);
    } else {
      var s := a + b;
      var i := IndexOf(s, c);
      assert s[|a| - 1] == c;
      assert i < |a|;
      var a' := a[i + 1..];
      assert a' == "" || a'[|a'| - 1] == c;
      calc {
        Last(Split(s, c));
        == { SplitStep(s, c); }
        Last([s[..i]] + Split(s[i + 1..], c));
        == { LastAppend([s[..i]], Split(s[i + 1..], c)); }
        Last(Split(s[i + 1..], c));
        == { DropAppend(a, b, i + 1); }
        Last(Split(a' + b, c));
        == { SplitLastPieceFrom(a', b, c); }
        b;
      }
    }
  }

  /** Every piece of a split avoids every character the whole string avoids. */
  lemma {:induction false} SplitPartsAvoid(s: string, c: char, d: char)
    requires d !in s
    ensures forall j :: 0 <= j < |Split(s, c)| ==> d !in Split(s, c)[j]
    decreases |s|
  {
    var i := IndexOf(s, c);
    if i < |s| {
      SliceAvoids(s, d, 0, i);
      SliceAvoids(s, d, i + 1, |s|);
      SplitPartsAvoid(s[i + 1..], c, d);
      SplitStep(s, c);
    } else {
      IndexOfMember(s, c);
    }
  }

  lemma SliceAvoids<T>(s: seq<T>, d: T, lo: nat, hi: nat)
    requires lo <= hi <= |s|
    requires d !in s
    ensures d !in s[lo..hi]
  {
    assert forall k :: 0 <= k < hi - lo ==> s[lo..hi][k] == s[lo + k];
  }

  lemma LastAppend<T>(xs: seq<T>, ys: seq<T>)
    requires |ys| > 0
    ensures Last(xs + ys) == Last(ys)
  {
  }

  lemma SliceOfAppend<T>(a: seq<T>, b: seq<T>)
    ensures (a + b)[..|a|] == a && (a + b)[|a|..] == b
  {
  }

  lemma DropDrop<T>(s: seq<T>, a: nat, b: nat)
    requires a + b <= |s|
    ensures s[a..][b..] == s[a + b..]
  {
  }

  lemma DropCons<T>(x: T, ys: seq<T>)
    ensures ([x] + ys)[1..] == ys
  {
  }

  lemma DropAppend<T>(a: seq<T>, b: seq<T>, n: nat)
    requires n <= |a|
    ensures (a + b)[n..] == a[n..] + b
  {
  }

  lemma {:induction false} ReplaceAllAppend(a: string, b: string, c: char, rep: string)
    ensures ReplaceAll(a + b, c, rep) == ReplaceAll(a, c, rep) + ReplaceAll(b, c, rep)
    decreases |a|
  {
    if |a| > 0 {
      ReplaceAllAppend(a[1..], b, c, rep);
      var head := if a[0] == c then rep else [a[0]];
      assert (a + b)[0] == a[0];
      DropAppend(a, b, 1);
      assert ReplaceAll(a + b, c, rep) == head + ReplaceAll(a[1..] + b, c, rep);
      AppendAssoc(head, ReplaceAll(a[1..], c, rep), ReplaceAll(b, c, rep));
    } else {
      AppendEmpty(a, b);
    }
  }

  /** Replacing every `c` by `rep` is splitting on `c` and joining with `rep`. */
  lemma {:induction false} ReplaceAllIsSplitJoin(s: string, c: char, rep: string)
    ensures ReplaceAll(s, c, rep) == Join(Split(s, c), rep)
    decreases |s|
  {
    var i := IndexOf(s, c);
    if i < |s| {
      var tail := s[i + 1..];
      calc {
        ReplaceAll(s, c, rep);
        == { ReplaceAllAtFirst(s, c, rep); }
        s[..i] + rep + ReplaceAll(tail, c, rep);
        == { ReplaceAllIsSplitJoin(tail, c, rep); }
        s[..i] + rep + Join(Split(tail, c), rep);
        == { JoinCons(s[..i], Split(tail, c), rep); }
        Join([s[..i]] + Split(tail, c), rep);
        == { SplitStep(s, c); }
        Join(Split(s, c), rep);
      }
    } else {
      IndexOfMember(s, c);
    }
  }

  /** Up to the first `c` nothing is replaced; the first `c` becomes `rep`. */
  lemma ReplaceAllAtFirst(s: string, c: char, rep: string)
    requires IndexOf(s, c) < |s|
    ensures ReplaceAll(s, c, rep) == s[..IndexOf(s, c)] + rep + ReplaceAll(s[IndexOf(s, c) + 1..], c, rep)
  {
    var i := IndexOf(s, c);
    var tail := s[i + 1..];
    SliceAround(s, i);
    AppendAssoc(s[..i], [c], tail);
    ReplaceAllAppend(s[..i], [c] + tail, c, rep);
    PrefixAvoids(s, c);
    ReplaceAllCons(c, tail, rep);
  }

  lemma ReplaceAllCons(c: char, tail: string, rep: string)
    ensures ReplaceAll([c] + tail, c, rep) == rep + ReplaceAll(tail, c, rep)
  {
    DropCons(c, tail);
  }

  /** Everything before the first `c` is free of `c`. */
  lemma PrefixAvoids(s: string, c: char)
    ensures c !in s[..IndexOf(s, c)]
  {
    var i := IndexOf(s, c);
    assert forall k :: 0 <= k < i ==> s[..i][k] == s[k];
  }

  /** A "__" found in `a + "__" + b` first at `|a|` when `a` has no underscore. */
  lemma FirstPairAfterPlainPrefix(a: string, b: string)
    requires '_' !in a
    ensures IndexOfPair(a + "__" + b) == |a|
  {
    var s := a + "__" + b;
    var i := IndexOfPair(s);
    assert PairAt(s, |a|);
    assert forall k :: 0 <= k < |a| ==> s[k] == a[k];
  }

  /** Splitting on "__" undoes joining with "__" when no piece holds an underscore. */
  lemma {:induction false} SplitPairsJoin(parts: seq<string>)
    requires |parts| >= 1
    requires forall j :: 0 <= j < |parts| ==> '_' !in parts[j]
    ensures SplitPairs(Join(parts, "__")) == parts
    decreases |parts|
  {
    if |parts| == 1 {
      var s := parts[0];
      var i := IndexOfPair(s);
      if i < |s| {
        assert s[i] == '_';
      }
    } else {
      var tail := Join(parts[1..], "__");
      FirstPairAfterPlainPrefix(parts[0], tail);
      var s := parts[0] + "__" + tail;
      assert s[..|parts[0]|] == parts[0];
      assert s[|parts[0]| + 2..] == tail;
      SplitPairsJoin(parts[1..]);
    }
  }

  /** The first `c` of `a + b`, when `a` has none, is the first `c` of `b` shifted by `|a|`. */
  lemma IndexOfAppend(a: string, b: string, c: char)
    requires c !in a
    ensures IndexOf(a + b, c) == |a| + IndexOf(b, c)
  {
    var s := a + b;
    var j := IndexOf(b, c);
    assert forall k :: 0 <= k < |a| ==> s[k] == a[k];
    assert forall k :: |a| <= k < |a| + j ==> s[k] == b[k - |a|];
    if j < |b| {
      assert s[|a| + j] == c;
    }
  }

  // ---------------------------------------------------------------------------
  // The text before a character, trailing runs and suffixes

  /** JavaScript `s.split(c)[0]`: the text before the first `c`. */
  function Before(s: string, c: char): (r: string)
    ensures StartsWith(s, r) && c !in r
    ensures |r| < |s| ==> s[|r|] == c
  {
    PrefixAvoids(s, c);
    s[..IndexOf(s, c)]
  }

  /** `Before` is the first piece of the split. */
  lemma BeforeIsFirstPiece(s: string, c: char)
    ensures Before(s, c) == Split(s, c)[0]
  {
  }

  /** Text free of `c` passes through `Before` untouched. */
  lemma BeforeAppend(x: string, q: string, c: char)
    requires c !in x
    ensures Before(x + q, c) == x + Before(q, c)
  {
    IndexOfAppend(x, q, c);
    TakeAppend(x, q, IndexOf(q, c));
  }

  lemma TakeAppend<T>(a: seq<T>, b: seq<T>, n: nat)
    requires n <= |b|
    ensures (a + b)[..|a| + n] == a + b[..n]
  {
  }

  /** Removing the trailing `c`s of `x` followed by a run of `c`s gives `x`
      back, when `x` does not itself end in `c`. */
  lemma {:induction false} TrimEndRun(x: string, run: string, c: char)
    requires x == "" || x[|x| - 1] != c
    requires forall k :: 0 <= k < |run| ==> run[k] == c
    ensures TrimEnd(x + run, c) == x
    decreases |run|
  {
    if |run| == 0 {
      assert x + run == x;
    } else {
      var s := x + run;
      assert s[|s| - 1] == c;
      TakeAppend(x, run, |run| - 1);
      TrimEndRun(x, run[..|run| - 1], c);
    }
  }

  /** Trailing `c`s of `a + b` lie in `b` when `b` does not start with `c`. */
  lemma {:induction false} TrimEndAppend(a: string, b: string, c: char)
    requires b != "" && b[0] != c
    ensures TrimEnd(a + b, c) == a + TrimEnd(b, c)
    decreases |b|
  {
    var s := a + b;
    if b[|b| - 1] == c {
      assert s[..|s| - 1] == a + b[..|b| - 1];
      TrimEndAppend(a, b[..|b| - 1], c);
    }
  }

  lemma AppendAvoids<T>(a: seq<T>, b: seq<T>, d: T)
    requires d !in a && d !in b
    ensures d !in a + b
  {
  }

  lemma EndsWithOwn(x: string, suf: string)
    ensures EndsWith(x + suf, suf)
  {
    SliceOfAppend(x, suf);
  }

  /** A suffix without `c` cannot reach back across a `c`: whether
      `x + [c] + y` ends in it is decided by `y` alone. */
  lemma EndsWithAfter(x: string, y: string, c: char, suf: string)
    requires c !in suf
    requires !EndsWith(y, suf)
    ensures !EndsWith(x + ([c] + y), suf)
  {
    var s := x + ([c] + y);
    if |suf| <= |y| {
      assert s[|s| - |suf|..] == y[|y| - |suf|..];
    } else if |suf| <= |s| {
      var k := |x| - (|s| - |suf|);
      assert s[|x|] == c;
      assert s[|s| - |suf|..][k] == c;
    }
  }
}

=== FILE: wrappers.dfy ===
/** The optional value used throughout the model for JavaScript's `undefined`,
    for a failed git call, and for a lookup that finds nothing. */
module Wrappers {

  datatype Option<+T> = None | Some(value: T) {

    /** Returns the value in Some, or the given default for None. */
    function GetOr(default: T): T {
      match this
      case Some(v) => v
      case None => default
    }
  }
}
